=== FILE: README.md ===
# Infra access server and console: a Dafny model

This project models the core of Infra, a server that grants users and groups
access to Kubernetes clusters, together with the pages of its Next.js console.

On the server side it models the following:

- the request validation package (`internal/validate`) and the one request that uses it, `UpdateUserRequest`;
- the registry middleware that sends signed-out browsers to the login or signup page and sets or clears the session cookies;
- the sign-up, login, logout and token handlers, and `authn.Login`, which mints the access key;
- the provider access rules, including the protected built-in "infra" provider;
- the two identity data operations: re-assigning an identity's groups from what the identity provider reports, and deleting identities together with their grants and memberships.

On the console side, each page or layout is modelled as a reducer:

- the state the page holds, plus an event, gives a new state and the request, navigation or redirect that the page emits;
- the server's answer is handed in as a `Result`.

Go errors are modelled as a set of sentinels (`ErrNotFound`, `ErrUnauthorized`, ...) that `errors.Is` can find, together with the text pieces of the message.

Everything the modelled code calls but does not define is a parameter:

- the database, as a sequence of rows with an injected fault per step;
- the identity provider's answers;
- the clock;
- secrets;
- `mail.ParseAddress`;
- random strings.

Modules follow the source layout:

| module | models |
|---|---|
| `Validate` | the validation package |
| `UserApi` | the request in `api/user.go` |
| `GoErrors` | error values |
| `RegistryHttp` | the middleware and cookies |
| `QueryEscape` | `url.QueryEscape` |
| `Handlers`, `Authn`, `ProviderAccess`, `IdentityData` | the server |
| `Dashboard`, `LoginLayout` | the two layouts |
| `GrantForm`, `Settings`, `Signup`, `Destinations`, `ProvidersAdd`, `GroupsAdd`, `LoginPage`, `UsersAdd`, `PasswordReset` | the pages |
| `FieldErrors` | the error display the pages share |

`Strings`, `Seqs`, `Urls`, `Wrappers`, `Models` and `Views` hold shared definitions.

Where a doc comment in the validation package promises more than its code does, the model follows the code. It also proves the promised behaviour of a corrected definition; see "Findings".

## Model

| member | source | states |
|---|---|---|
| Validate.ValidateRule | internal/validate/validate.go:61-67 | A required rule fails, with the message "a value is required", exactly when its value is Go's zero value; string and email rules give their own verdicts |
| Validate.FieldName | internal/validate/validate.go:117-119 | Rules spanning several fields report under the empty key; single-field rules report under their own field name |
| Validate.IsRequired | internal/validate/validate.go:73-81 | As written: no rules means not required; otherwise a field counts as required exactly when its FIRST rule is a required rule |
| Validate.IsRequiredOrderDependent | internal/validate/validate.go:75-81 | Counterexample: a required rule placed after another rule is not noticed by the code as written |
| Validate.IsRequiredAny | internal/validate/validate.go:73-74 | Corrected: required exactly when some rule in the list is a required rule, as the doc comment says |
| Validate.IsRequiredAnyOrderFree | internal/validate/validate.go:73-74 | The corrected check does not depend on rule order and distributes over concatenating rule lists |
| Validate.ValidateMutuallyExclusive | internal/validate/validate.go:101-113 | As written: a list of at most one field always passes; it fails exactly when more than one field struct is non-zero; the message lists those names in order |
| Validate.MutuallyExclusiveCountsZeroValues | internal/validate/validate.go:104-108 | Counterexample: two named fields holding empty strings are rejected as written, but accepted by the corrected check |
| Validate.ValidateMutuallyExclusiveIntended | internal/validate/validate.go:93-97 | Corrected: fails exactly when more than one field VALUE is set, and names the set fields |
| Validate.MutuallyExclusiveIntendedIgnoresZero | internal/validate/validate.go:93-97 | The corrected check is unaffected by adding a field whose value is zero |
| Validate.ValidateRequireOneOf | internal/validate/validate.go:127-139 | As written: fails exactly when NO field is zero, with the message "one of  must be set" (the name list is empty) |
| Validate.RequireOneOfRejectsSetField | internal/validate/validate.go:131-137 | Counterexample: a single field that is set is rejected as written and accepted by the corrected check |
| Validate.ValidateRequireOneOfIntended | internal/validate/validate.go:121-139 | Corrected: fails exactly when no field value is set, and names the unset fields |
| Validate.RequireOneOfIntendedAccepts | internal/validate/validate.go:121-139 | The corrected check accepts every list in which some value is set |
| Validate.ValidateString | internal/validate/string.go:30-52 | An empty string always passes; the UTF-8 byte length is checked against the minimum and the maximum, and a bound of 0 or less means no bound; each violated bound adds its message, min first, joined with ", " when both fail |
| Validate.ValidateEmail | internal/validate/email.go:19-31 | Passes exactly when the text is empty, or parses as an address without a display name; an unparseable text and an address with a name get different messages |
| Validate.ToUint64 | internal/validate/string.go:23-26 | Go's conversion of an int to uint64: the value is unchanged in range, and negative values wrap modulo 2^64 |
| Validate.DescribeSchema | internal/validate/string.go:22-28 | A string rule writes its minimum length as a uint64 and its maximum only when positive; an email rule sets the format "email"; the other rules leave the schema alone |
| Validate.ValidateRequest | internal/validate/struct.go:5-18 | No error exactly when every rule passes; otherwise the error's keys are exactly the fields with some message, each holding that field's messages in rule order |
| Validate.RulesToMap | internal/validate/struct.go:22-28 | Keys are exactly the field names of some rule, and each key maps to that field's rules in their original order |
| Validate.RulesToMapTotal | internal/validate/struct.go:22-28 | Grouping by field loses and duplicates no rule: over any enumeration of the keys, the group sizes add up to the number of rules |
| Validate.GroupSizesTotal | internal/validate/struct.go:22-28 | Over distinct keys that cover every rule's field name, the group sizes add up to the number of rules |
| Validate.RuleInOwnGroup | internal/validate/struct.go:24-26 | Every rule lands in the group of its own field name |
| Validate.ErrorString | internal/validate/validate.go:27-39 | The message starts with "validation failed: " and contains every field rendered as `name: m1, m2`. Fields that follow each other in the enumeration appear joined by "; ". The length is the prefix plus the rendered fields plus two characters per separator, so nothing else is written |
| Validate.ErrorStringSingleField | internal/validate/validate.go:27-39 | A single failing field renders as exactly `validation failed: name: m1, m2` |
| UserApi.IdIsRequired | api/user.go:43-49 | Grouped by field, the ID is marked required and the password carries two rules |
| UserApi.MessagesOfRequest | api/user.go:43-49 | Per field: the ID collects "a value is required" only when it is 0; the password collects the required message when empty and the length message when short; no other field collects anything |
| UserApi.ValidateUpdateUser | api/user.go:43-49 | A zero ID and an empty password are each reported as required; a short password gets the minimum-length message; the request passes exactly when the ID is non-zero and the password has at least 8 bytes; no other key appears |
| UserApi.ShortAsciiPassword | api/user.go:47 | A 1-to-7-character ASCII password is reported with its own length |
| GoErrors.New | internal/server/handlers.go:249 | An error made without `%w` matches no sentinel and carries the given text |
| GoErrors.Wrap | internal/server/authn/authn_method.go:33 | Wrapping with `%w` keeps exactly the wrapped error's sentinels and puts the context in front of its text |
| GoErrors.Annotate | internal/access/provider.go:46 | A sentinel annotated with detail matches that sentinel and no other |
| GoErrors.AnnotateWith | internal/server/handlers.go:37 | A sentinel annotated with detail and an underlying error matches only that sentinel; the underlying text follows the detail |
| RegistryHttp.SetAuthCookie | internal/registry/http.go:24-40 | Two cookies with the same expiry at now plus the session duration, both on path "/": an HTTP-only, same-site session token, and a script-readable login marker "1" |
| RegistryHttp.DeleteAuthCookie | internal/registry/http.go:42-57 | Both cookies are emptied and expire at the epoch |
| RegistryHttp.Ext | internal/registry/http.go:80 | The extension is a suffix of the final path element, starting at its last '.'; there is none when every '.' is followed by a '/' |
| RegistryHttp.LoginLocation | internal/registry/http.go:111-129 | A signed-out visitor is always sent to a location under "/login" |
| RegistryHttp.AfterLoginLocation | internal/registry/http.go:148-157 | A signed-in visitor to login or signup goes to the first `next` value when it is non-empty, otherwise to "/" |
| RegistryHttp.LoginRedirect | internal/registry/http.go:78-162 | Assets and "/_next" bundles pass untouched. Otherwise the cookies are cleared exactly when the session is not valid, and the request passes exactly when: a valid session asks for a page other than login and signup, or a browser without cookies asks for signup before an admin exists, or for login after one does. Each other case redirects with status 307: without cookies to "/signup" before an admin exists and otherwise to the login page carrying the requested path as `next`; with a rejected session to "/login"; a signed-in visit to login or signup goes to the `next` target |
| RegistryHttp.LoginLocationCarriesNext | internal/registry/http.go:115-126 | The login location carries the original path and query, query-escaped, as `next`; it is plain "/login" when there is nothing to carry |
| RegistryHttp.PathOf | internal/registry/http.go:116-125 | The path of a location is a '?'-free prefix of it |
| RegistryHttp.LoginLocationPath | internal/registry/http.go:111-129 | The login location's path is exactly "/login", whatever `next` contains |
| RegistryHttp.RejectedLocation | internal/registry/http.go:104-131 | A rejected session is redirected to the login page, or to the signup page when there is no admin |
| RegistryHttp.SignedOutLanding | internal/registry/http.go:104-131 | A signed-out browser on the login page is let through; so is one on the signup page when no admin exists |
| RegistryHttp.RejectedSessionSettles | internal/registry/http.go:91-131 | A browser obeying the cookies and the redirect reaches a page that lets it through within two requests; it never loops |
| RegistryHttp.LandingSettles | internal/registry/http.go:104-131 | A signed-out browser on the login or signup page is let through, either at once or after one redirect to "/signup" |
| RegistryHttp.SignedInVisitorPassesThrough | internal/registry/http.go:134-160 | A browser holding the cookies that `setAuthCookie` wrote, with a token the server accepts, reaches every page except login and signup |
| RegistryHttp.FaviconPassesThrough | internal/registry/http_test.go:13-31 | "/favicon.ico" passes without cookies |
| RegistryHttp.NextBundlePassesThrough | internal/registry/http_test.go:33-51 | "/_next/..." passes without cookies |
| RegistryHttp.NoAdminRedirectsToSignup | internal/registry/http_test.go:53-72 | Without an admin, "/dashboard" redirects to "/signup" |
| RegistryHttp.AdminRedirectsRootToLogin | internal/registry/http_test.go:74-98 | With an admin, "/" redirects to "/login" with no `next` |
| RegistryHttp.RedirectCarriesPathAndQuery | internal/registry/http_test.go:100-124 | "/dashboard?param=1" redirects to "/login?next=%2Fdashboard%3Fparam%3D1" |
| RegistryHttp.SignedInPassesThrough | internal/registry/http_test.go:126-166 | A valid session reaches "/dashboard" |
| RegistryHttp.MissingLoginCookieRedirectsWithNext | internal/registry/http_test.go:168-208 | A token without the login marker is cleared and sent to "/login?next=%2Fdashboard" |
| RegistryHttp.SignedInLoginFollowsNext | internal/registry/http_test.go:210-251 | A signed-in visit to "/login?next=/dashboard" goes to "/dashboard" |
| QueryEscape.Utf8BytesShape | internal/registry/http.go:124-125 | An ASCII character is its own byte; any other character encodes to 1-4 bytes that are all 0x80 or above |
| QueryEscape.EscapeCharShape | internal/registry/http.go:124-125 | Unreserved characters stay, a space becomes '+', and anything else becomes "%XX" per UTF-8 byte |
| QueryEscape.EscapeAlphabet | internal/registry/http.go:124-125 | Escaped text is never shorter than the input and uses only unreserved characters, '+', '%' and upper-case hex digits |
| QueryEscape.EscapeAppend | internal/registry/http.go:124-125 | Escaping works character by character: the escape of a concatenation is the concatenation of the escapes |
| QueryEscape.EscapeUnreservedString | internal/registry/http.go:124-125 | Text made only of unreserved characters is its own escape |
| QueryEscape.EscapeRoundTrip | internal/registry/http.go:124-125 | On ASCII text, unescaping gives back exactly what was escaped |
| QueryEscape.EscapeInjective | internal/registry/http.go:124-125 | Different ASCII `next` values give different escaped values |
| QueryEscape.EscapeReservedAscii | internal/registry/http.go:124-125 | A reserved ASCII character becomes '%' followed by its code in upper-case hex |
| Authn.NewKey | internal/server/authn/authn_method.go:38-49 | The key is issued to the authenticated identity and provider. It expires with the session and its extension deadline is now plus the extension. It has the password-reset scope exactly when authentication granted only a password reset |
| Authn.Login | internal/server/authn/authn_method.go:29-62 | A failed authentication gives "failed to login: ..." with no store call. Otherwise the key is created first, and a failure there stops before the identity is saved. A failed save of the last-seen time discards the key and gives "login failed to update last seen: ...". A key is returned exactly when no error is, and then both store calls succeeded. On success the identity's last-seen time is now and the store calls are create-then-save |
| Authn.LoginKeepsSentinels | internal/server/authn/authn_method.go:31-59 | Every reported failure matches exactly the sentinels of the step that failed |
| Handlers.ProviderClient | internal/server/handlers.go:240-253 | A client already in the context is used as it is. Otherwise the client is built from the provider with its client secret, and a missing secret gives "client secret not found" with no sentinel |
| Handlers.ProviderClientCalls | internal/server/handlers.go:240-253 | The secret is fetched exactly when the context holds no client |
| Handlers.UpdateIdentityInfoFromProvider | internal/server/handlers.go:217-238 | A key issued by the infra provider needs no call. Any other key first fetches the identity from the provider and stops if that fails. Once the provider is known: a client that cannot be built gives "update provider client: ..." and the provider is not asked. A built client is asked to refresh the identity, as the last call, and its answer is the result |
| Handlers.CreateToken | internal/server/handlers.go:30-49 | Without an identity the result is `ErrUnauthorized`. A failed refresh from the provider is reported as `ErrUnauthorized` alone. An infra-provider key creates the token without calling the provider |
| Handlers.Signup | internal/server/handlers.go:109-150 | With sign-up disabled the answer is `ErrBadRequest` and nothing is called. A cookie is set exactly when sign-up succeeds: the new key, on the base domain, expiring one minute later |
| Handlers.SignupAttemptedIffEnabled | internal/server/handlers.go:109-150 | `access.Signup` is called exactly when sign-up is enabled, and sign-up succeeds exactly when that call does. The session cookie lasts one minute, on the base domain |
| Handlers.ChooseMethod | internal/server/handlers.go:155-175 | An access key wins over password credentials, which win over OIDC. An unknown identity provider is reported wrapped. For a known provider, OIDC authentication uses the client built for it, and a failure to build one is reported as "update provider client: ...". A request with none of the three is `ErrBadRequest` |
| Handlers.ClassifyLoginError | internal/server/handlers.go:180-188 | An upstream `ErrBadGateway` is passed on unchanged; every other failure is reported as `ErrUnauthorized` only |
| Handlers.Login | internal/server/handlers.go:152-201 | A method that cannot be chosen is reported before any login; otherwise there is exactly one attempt, with a session of the configured length. A failed login is classified. A cookie is set exactly when login succeeds, holding the bearer and expiring with the key |
| Handlers.LoginPrecedence | internal/server/handlers.go:155-175 | An access key is used exactly when one is given. Password credentials are used exactly when there is no key. OIDC is used exactly when neither is given, the provider is known and a client for it can be built. A request with none is never attempted and is `ErrBadRequest` |
| Handlers.AuthenticationFailureSeenByClient | internal/server/handlers.go:178-188 | A failed authentication reaches the client as `ErrUnauthorized` unless it was a bad gateway |
| Handlers.Logout | internal/server/handlers.go:203-211 | The error is the key deletion's; the session cookie is cleared exactly when the deletion succeeded |
| Handlers.LogoutClearsLoginCookie | internal/server/handlers.go:190-211 | Logging out clears the very cookie a login set: the same name on the same host, emptied and expired. A failed key deletion leaves the cookie alone |
| ProviderAccess.InsertProvider | internal/access/provider.go:20 | A failed insert leaves the table alone; a successful one appends the provider |
| ProviderAccess.UpdateProvider | internal/access/provider.go:54 | A failed save leaves the table alone; a successful one replaces the record with that ID and nothing else |
| ProviderAccess.WithoutID | internal/access/provider.go:67 | Exactly the records with another ID remain |
| ProviderAccess.RemoveProvider | internal/access/provider.go:67 | A failed delete leaves the table alone; a successful one removes exactly that ID's records |
| ProviderAccess.CreateProvider | internal/access/provider.go:14-21 | Without the infra admin role, nothing changes; otherwise the provider is inserted |
| ProviderAccess.SaveProvider | internal/access/provider.go:44-55 | Saving the infra provider is refused with `ErrBadRequest` before roles are checked; other saves need the infra admin role |
| ProviderAccess.DeleteProvider | internal/access/provider.go:57-68 | Deleting the infra provider is refused with `ErrBadRequest` before roles are checked; other deletes need the infra admin role |
| ProviderAccess.GetProvider | internal/access/provider.go:23-27 | Found exactly when some record has the ID, and then it is that record; otherwise `ErrNotFound`; no role is checked |
| ProviderAccess.Filter | internal/access/provider.go:32-39 | Keeps exactly the records matching the optional name and none of the excluded names |
| ProviderAccess.Paginate | internal/access/provider.go:30-39 | A page holds only listed records, at most the limit, and everything when it starts at 0 with no limit |
| ProviderAccess.ListProviders | internal/access/provider.go:29-42 | The listing never contains an excluded name, and with a name given only that name. Unpaged, it holds every matching record |
| ProviderAccess.InfraProviderIsImmutable | internal/access/provider.go:44-68 | No save or delete, by anyone, removes or alters the infra provider's record |
| IdentityData.Subtract | internal/server/data/identity.go:21-23 | Exactly the elements of the first list that are not in the second |
| IdentityData.SubtractDisjoint | internal/server/data/identity.go:21-23 | Nothing is both removed and added, and both are empty when the lists hold the same groups |
| IdentityData.GetProviderUser | internal/server/data/identity.go:16-19 | The row found belongs to that provider and identity; otherwise `ErrNotFound` |
| IdentityData.SaveProviderUser | internal/server/data/identity.go:25-29 | Saving replaces the row of that provider and identity and keeps the others |
| IdentityData.SavedProviderUserFound | internal/server/data/identity.go:25-29 | Reading back after a save gives the saved row |
| IdentityData.RemoveAt | internal/server/data/identity.go:41 | `append(s[:i], s[i+1:]...)` panics exactly when `i` is past the length. Otherwise it shifts the tail down in the SAME array and shortens the slice by one |
| IdentityData.RemoveNamedFrom | internal/server/data/identity.go:37-44 | The loop over the original length keeps the slice valid and the array size unchanged |
| IdentityData.RemoveGroups | internal/server/data/identity.go:32-45 | The outer loop over the names to leave keeps the slice valid |
| IdentityData.WithoutName | internal/server/data/identity.go:38-43 | Exactly the groups with another name remain |
| IdentityData.RemoveNamedUnique | internal/server/data/identity.go:37-44 | With distinct group names, the in-place loop never panics and leaves exactly the groups with another name, in order |
| IdentityData.RemoveGroupsUnique | internal/server/data/identity.go:32-45 | With distinct group names, leaving never panics: no removed name remains, every other group stays, and names stay distinct |
| IdentityData.DuplicateNamesPanic | internal/server/data/identity.go:37-44 | Two groups of the same name make the loop slice past the length, which is a panic |
| IdentityData.GroupRefsNamed | internal/server/data/identity.go:50-52 | The snapshot lists only existing groups whose name was asked for |
| IdentityData.FindByName | internal/server/data/identity.go:58-66 | A group is found exactly when the snapshot has that name, and then it is the snapshot's group |
| IdentityData.LeaveGroups | internal/server/data/identity.go:33-35 | Deletes exactly the identity's memberships in the named groups and changes nothing else |
| IdentityData.JoinGroups | internal/server/data/identity.go:56-93 | The join loop never panics |
| IdentityData.JoinGroupsNewMembers | internal/server/data/identity.go:56-93 | Every membership the join loop inserts is for a group it created or for a snapshot group named by a name being joined |
| IdentityData.JoinGroupsStore | internal/server/data/identity.go:56-93 | The loop only appends. Each new group is owned by the provider and has a name the snapshot lacked. Each new membership is the user's. It adds no duplicate membership and keeps the store well formed |
| IdentityData.JoinGroupsUserGroups | internal/server/data/identity.go:56-93 | The user's list becomes the earlier list followed by one entry per joined name, in order |
| IdentityData.JoinGroupsMember | internal/server/data/identity.go:79-92 | Every group the loop appends exists, and the user is a member of it |
| IdentityData.LeavePhase | internal/server/data/identity.go:21-45 | The removal phase keeps the store well formed and free of duplicate memberships; the user's list becomes the old one minus the removed names |
| IdentityData.AssignIdentityToGroupsSpec | internal/server/data/identity.go:14-96 | With distinct group names, the call never panics. On success the provider user's groups are the provider's new list, stamped with now. No removed name remains in the user's list; every group kept or added appears there; each added group has a membership. The store stays well formed with no duplicate membership. The user's rows for groups left are deleted and, with unique group IDs, none is inserted again; every other row stays |
| IdentityData.AssignMemberships | internal/server/data/identity.go:31-35 | On success, every membership row except the user's rows for the groups left survives the call. With unique group IDs, the user has no row for a group left afterwards |
| IdentityData.DropGrantsOf | internal/server/data/identity.go:128 | Exactly the grants whose subject is another identity remain |
| IdentityData.GroupsOf | internal/server/data/identity.go:133 | Exactly the groups the identity is a member of |
| IdentityData.DropMembership | internal/server/data/identity.go:139 | Exactly that one membership is gone |
| IdentityData.LeaveEachGroup | internal/server/data/identity.go:138-143 | Without a fault, exactly the identity's memberships in the listed groups are gone; a failure is a fault's error |
| IdentityData.DetachIdentity | internal/server/data/identity.go:125-143 | Without a fault, the identity's grants are gone and so are its memberships in existing groups; other memberships stay |
| IdentityData.DeleteIdentities | internal/server/data/identity.go:114-147 | Exactly the selected identities are deleted, with all their grants, and, in a well-formed store, all their memberships; nothing else is lost; a failure is a fault's error |
| Seqs.Keep | ui/components/grant-form.js:25 | A filter keeps exactly the passing elements, never growing the list |
| Seqs.KeepAppend | ui/components/grant-form.js:22-25 | Filtering distributes over concatenation, so it keeps relative order |
| Seqs.Dedup | ui/components/layouts/dashboard.js:138-147 | `[...new Set(xs)]` has the same members as `xs`, each once |
| Seqs.DedupSnoc | ui/components/layouts/dashboard.js:138-147 | A Set keeps first-insertion order: appending a new element appends it, a repeated one changes nothing |
| Seqs.DedupDistinct | ui/components/layouts/dashboard.js:138-147 | A list without repeats passes through the Set unchanged |
| Strings.Split | ui/components/layouts/dashboard.js:140-141 | The pieces contain no separator and join back to the input |
| Strings.SplitJoin | ui/components/layouts/dashboard.js:140-141 | Splitting a join on a separator that no piece contains gives the pieces back |
| Strings.JoinSplitReplace | ui/pages/signup/index.js:78 | `s.split(a).join(b)` replaces every `a` by `b` |
| Strings.ByteLength | internal/validate/string.go:40-46 | Go's `len` of a string lies between the character count and four times it, and is 0 only for "" |
| Strings.AsciiByteLength | internal/validate/string.go:40-46 | For ASCII text the byte count is the character count |
| Strings.Lower | ui/pages/signup/index.js:81 | Lowering keeps the length and lowers each character |
| Strings.LowerIdempotent | ui/pages/signup/index.js:81 | Lowering twice is lowering once |
| FieldErrors.FirstMessage | ui/pages/signup/index.js:60-61 | A field shows its first message, or "invalid value" when there is none or it is empty |
| FieldErrors.ErrorsMap | ui/pages/signup/index.js:57-63 | Keys are exactly the lower-cased field names from the response, and no shown message is empty |
| FieldErrors.ErrorsMapLastWins | ui/pages/signup/index.js:59-62 | When two entries lower-case to the same key, the later one's message is shown |
| FieldErrors.ErrorsMapKeysLower | ui/pages/signup/index.js:60 | Every key is lower case, so a page that reads `errors.name` finds what the server called `Name` |
| FieldErrors.ShowFailure | ui/pages/signup/index.js:56-66 | A response with field errors replaces the per-field errors and keeps the general one; any other failure shows its message and keeps the field errors |
| Dashboard.VisibleNav | ui/components/layouts/dashboard.js:33-34 | A non-admin sees exactly the entries that are not admin-only; an admin sees all of them |
| Dashboard.FirstForbidden | ui/components/layouts/dashboard.js:230-235 | A forbidden entry exists exactly when the path starts with an admin-only href and the user is not an admin |
| Dashboard.Gate | ui/components/layouts/dashboard.js:164-235 | Nothing is drawn while loading. The page renders exactly when account access holds for "/account" and no admin-only section is entered by a non-admin. Every other case goes to "/" |
| Dashboard.AdminSeesEverything | ui/components/layouts/dashboard.js:224-235 | An admin is shown every page |
| Dashboard.NonAdminKeptOut | ui/components/layouts/dashboard.js:230-235 | A non-admin is sent to "/" from every admin section, whatever follows the section's href |
| Dashboard.AccountForInfraUsers | ui/components/layouts/dashboard.js:225-228 | "/account" opens for a non-admin exactly when the session has the built-in "infra" provider |
| Dashboard.BeforeQueryCuts | ui/components/layouts/dashboard.js:143-145 | A segment is cut at its first '?' |
| Dashboard.PathSegmentsClean | ui/components/layouts/dashboard.js:138-147 | No breadcrumb segment carries a '/' or a '?' |
| Dashboard.TrailLinks | ui/components/layouts/dashboard.js:261-291 | Each crumb links to the trail up to itself, and exactly the last crumb is current |
| Dashboard.BreadcrumbTrail | ui/components/layouts/dashboard.js:261-291 | The account page has no trail. Elsewhere the crumbs are the distinct path segments in first-seen order. Each crumb links to the path up to it, and only the last one is marked current |
| Dashboard.CurrentIsLast | ui/components/layouts/dashboard.js:263-275 | The join up to a crumb equals the whole trail's exactly for the last crumb |
| Dashboard.SignOutEndsSession | ui/components/layouts/dashboard.js:170-176 | After sign-out there is no server session and no cached user, and the browser is at "/login" |
| LoginLayout.Gate | ui/components/layouts/login.js:8-30 | Nothing is drawn while the session is unknown. Once the session is known, the form is drawn unless a signed-in user is away from "/login/finish": a failed session fetch or a cached user without an ID also draws it. A signed-in user anywhere else goes to "/" |
| LoginLayout.SignOutShowsLoginForm | ui/components/layouts/login.js:8-30 | After the dashboard's sign-out, the login layout draws the login form |
| GrantForm.Tag | ui/components/grant-form.js:22-24 | Each entry keeps its data and is marked as a user or a group |
| GrantForm.Candidates | ui/components/grant-form.js:22-25 | A candidate is offered exactly when it is a fetched user or group whose name contains the query, ignoring case; nameless entries never match |
| GrantForm.UsersBeforeGroups | ui/components/grant-form.js:22-25 | Every matching user is listed before every matching group, each in fetched order |
| GrantForm.EmptyQueryOffersNamed | ui/components/grant-form.js:25 | With nothing typed, every named user and group is offered and no nameless one |
| GrantForm.Init | ui/components/grant-form.js:15-17 | The form starts with the first role and nothing selected |
| GrantForm.Step | ui/components/grant-form.js:15-86 | Typing sets the query, choosing a candidate sets the selection, and choosing an offered role sets the role; none of these emits anything. A change of roles stores them and resets the role to the first one. A grant is emitted only on submit with a selection, for a user or a group but never both, and the form is then reset; a submit without a selection changes nothing. The chosen role is always one of the roles |
| GrantForm.SubmitNeedsSelection | ui/components/grant-form.js:30-39 | A grant is emitted exactly when Add is enabled, and it names the selected candidate |
| Settings.FindSubject | ui/pages/settings/index.js:189 | Finds a grant for the same user and group exactly when one exists |
| Settings.AddAdmin | ui/pages/settings/index.js:188-205 | An existing grant for the subject means no request and no change; otherwise one admin grant is requested for the infra resource and appended |
| Settings.Revoke | ui/pages/settings/index.js:229-232 | Exactly the grants with another ID remain |
| Settings.RevokeUndoesAdd | ui/pages/settings/index.js:199-232 | Revoking a grant just added, whose ID was new, gives back the earlier list |
| Settings.LastAdminStays | ui/pages/settings/index.js:228 | With distinct grant IDs, the page never removes the last admin grant |
| Settings.Warning | ui/pages/settings/index.js:210-217 | Revoking your own grant warns about your own access. Otherwise a grant to one of your groups warns about the group. Any other grant has no warning |
| Settings.InGroups | ui/pages/settings/index.js:214 | True exactly when one of your groups is the grant's group |
| Settings.NameOf | ui/pages/settings/index.js:224-225 | A name is found exactly when the list holds that ID, and it is that entry's name |
| Settings.FindName | ui/pages/settings/index.js:224-225 | A name is found exactly when the list holds that ID |
| Settings.WarningIffAffectsViewer | ui/pages/settings/index.js:210-217 | A revoke asks for confirmation exactly when the grant is the viewer's own or one for a group the viewer belongs to. Two grants with the same user and group get the same question. Before the session is known, every group grant counts as the viewer's own |
| Settings.DisplayName | ui/pages/settings/index.js:223-227 | A non-empty user name wins. When the user has no name or an empty one, the group's name is shown, or "" when that is missing too |
| Settings.Tabs | ui/pages/settings/index.js:102-114 | "account" is offered exactly to sessions with the "infra" provider, "admin" exactly to admins, each at most once |
| Settings.InitialTab | ui/pages/settings/index.js:116-119 | The selected tab is "account" when offered, else the first tab. The URL always names the first tab, and reads "undefined" when there is none |
| Settings.InitialTabMatchesUrl | ui/pages/settings/index.js:104-119 | When any tab is offered, the selected tab is the one the URL names |
| Signup.URLSafeDomainShape | ui/pages/signup/index.js:74-82 | Spaces become '-', other unsafe characters are dropped, and the rest is lowered. The result uses only digits, lower-case letters and '-', and is no longer than the input |
| Signup.URLSafeDomainIdempotent | ui/pages/signup/index.js:74-82 | Converting a converted domain changes nothing |
| Signup.OnEdit | ui/pages/signup/index.js:99-202 | Every edit clears the shown errors and sets its own field, and changes nothing else except as follows. Until the domain is typed, an organisation edit also sets the domain from it. Typing the domain sets it and stops following the organisation name |
| Signup.ManualDomainSticks | ui/pages/signup/index.js:171-202 | Once the domain has been typed, organisation edits never change it |
| Signup.AutomaticDomainFollows | ui/pages/signup/index.js:171-178 | Until the domain is typed, it follows the latest organisation name |
| Signup.Submit | ui/pages/signup/index.js:21-32 | Different passwords show the mismatch under the confirm field and send nothing; matching ones send the sign-up; the form fields are unchanged |
| Signup.MismatchThenMatchSendsOnce | ui/pages/signup/index.js:21-71 | A mismatch sends nothing. Retyping the confirmation to match clears the error, and the next submit sends the form's fields and disables the button. A failed response re-enables it with the fields kept, so a retry sends the same request |
| Signup.Finish | ui/pages/signup/index.js:34-71 | Submission ends either way. Success goes to the organisation's URL; failure is shown as the response's errors |
| Destinations.MatchesClusterName | ui/pages/destinations/add.js:62-65 | A name is accepted exactly when it is non-empty and every character is a letter, a digit, '.', '_' or '-' |
| Destinations.Advance | ui/pages/destinations/add.js:97-106 | The wizard moves one step forward, or stops after the last step |
| Destinations.AdvanceKeepsOrder | ui/pages/destinations/add.js:97-106 | Advancing keeps steps before the current one complete and later ones upcoming; after the last step, all are complete |
| Destinations.StartInOrder | ui/pages/destinations/add.js:23-35 | The wizard starts in order |
| Destinations.Submit | ui/pages/destinations/add.js:59-107 | An invalid name shows the error and sends nothing. Otherwise the connectors are listed: with none, the "no connector" error is shown and the step stays. With connectors, a key for the first connector's user is requested with a ten-year lifetime and a 30-day extension, the key is kept, the form is marked submitted and the step advances. No other field of the page changes in either case |
| Destinations.KeyNameShape | ui/pages/destinations/add.js:78-82 | The key name is the cluster name, a '-', and the ten random characters |
| Destinations.SubmitKeepsOrder | ui/pages/destinations/add.js:59-107 | Whatever the name and the connector lookup give, a submit keeps the step indicator in order, moves it forward by at most one step, and keeps the typed name |
| Destinations.SubmitAdvancesFromStart | ui/pages/destinations/add.js:97-106 | A successful first step moves the wizard to the command step |
| Destinations.InstallCommand | ui/pages/destinations/add.js:109-118 | The helm command skips TLS verification exactly when the console is not served over https |
| ProvidersAdd.Initial | ui/pages/providers/add.js:40-53 | The kind comes from the URL or the default, and the name follows it; Google pre-fills its issuer URL |
| ProvidersAdd.ChooseKind | ui/pages/providers/add.js:195-198 | Picking a different kind renames the provider after it; picking the current kind changes nothing, so a typed name stays. No other field changes, and the URL's `type` is rewritten |
| ProvidersAdd.DocLink | ui/pages/providers/add.js:55-61 | Each kind links to its own documentation page, and Azure to "azure-ad" |
| ProvidersAdd.ReadCredentials | ui/pages/providers/add.js:120-154 | A file that is not JSON, one without "client_email" and one without "private_key" each show their own error. Fields present in the file are copied, and no other field of the form changes |
| ProvidersAdd.ReadCredentialsIdempotent | ui/pages/providers/add.js:120-154 | Reading the same file a second time leaves the form as the first read left it |
| ProvidersAdd.ChooseKindReloads | ui/pages/providers/add.js:40-53 | The URL a provider choice writes reads back with `type` set to that kind. A fresh load of that URL starts with the chosen kind. Its name matches the choice's exactly when the choice changed the kind or the name already was the kind |
| ProvidersAdd.SubmitRetry | ui/pages/providers/add.js:63-118 | A failed submit keeps the form, so a retry posts the same request; when that succeeds, the cache has exactly one provider more than before the first attempt |
| ProvidersAdd.Submit | ui/pages/providers/add.js:63-118 | The form's fields are sent. Success appends the provider and goes to "/providers"; failure is shown as the response's errors |
| GroupsAdd.Ids | ui/pages/groups/add.js:67 | The selected users' IDs, in order |
| GroupsAdd.Candidates | ui/pages/groups/add.js:20-24 | A user is offered exactly when their name contains the query, ignoring case, and they are not already selected |
| GroupsAdd.RemoveSelected | ui/pages/groups/add.js:26-28 | Every selected user with that ID goes; the others keep their order |
| GroupsAdd.Backspace | ui/pages/groups/add.js:30-34 | Backspace with typed text, or with no one selected, changes nothing |
| GroupsAdd.ChoosingKeepsDistinct | ui/pages/groups/add.js:20-24 | Picking an offered user keeps the selected IDs distinct |
| GroupsAdd.BackspaceDropsLast | ui/pages/groups/add.js:30-34 | With distinct IDs, Backspace in an empty input drops exactly the last selected user |
| GroupsAdd.CreateWithMembers | ui/pages/groups/add.js:66-127 | The group is created first, then its members are added. The page goes to "/groups" exactly when both succeed; either failure is shown as its errors |
| GroupsAdd.CreateAddsEachSelectedOnce | ui/pages/groups/add.js:66-72 | When the selection has distinct IDs, the member request lists every selected user's ID in order, with none repeated |
| LoginPage.Buttons | ui/pages/login/index.js:32-34 | A provider gets a button exactly when it has a kind |
| LoginPage.AuthorizationRequestParses | ui/pages/login/index.js:20-25 | With query-safe inputs, the authorization URL reads back as the provider's URL plus exactly the parameters of section 4.1.1 of RFC 6749, in order |
| LoginPage.OidcLogin | ui/pages/login/index.js:12-26 | The provider ID, state and redirect URL are stored before the browser goes to the authorization URL |
| LoginPage.OnSubmit | ui/pages/login/index.js:79-116 | A failure shows "Invalid credentials". A required password change goes to the finish page; any other success refreshes the session and goes home |
| LoginPage.OnSubmitOutcomes | ui/pages/login/index.js:79-116 | The page navigates exactly when the login succeeded. It refreshes the session exactly when no password change is required, and goes to the finish page exactly when one is. The error is written only on failure, so an earlier message stays through a success |
| UsersAdd.OnType | ui/pages/users/add.js:200-204 | Typing sets the email and clears both error states |
| UsersAdd.Submit | ui/pages/users/add.js:131-143 | Submitting clears both error states and requests a user named by the email |
| UsersAdd.Failure | ui/pages/users/add.js:152-168 | Field errors replace the general error. A 409 on the identity shows "user already exists" under the name. A failure without field errors shows its message |
| UsersAdd.FailureOverridesOnlyName | ui/pages/users/add.js:153-163 | The page's error display differs from the shared one only in the name entry |
| UsersAdd.Respond | ui/pages/users/add.js:144-171 | Success shows the one-time password; failure shows the errors and keeps the form |
| UsersAdd.AddAnother | ui/pages/users/add.js:179-183 | "Add Another" returns to an empty form and forgets the password, keeping the shown errors |
| UsersAdd.AddAnotherStartsOver | ui/pages/users/add.js:174-183 | Typing an email and submitting requests that user; after the password is shown, "Add Another" returns the page to its initial state |
| UsersAdd.ConflictShownUnderEmail | ui/pages/users/add.js:161-163 | A conflict on the identity appears under the email input as "user already exists" |
| PasswordReset.OnEdit | ui/pages/settings/password-reset.js:70-74 | Either input sets its own field only and clears both error states |
| PasswordReset.Submit | ui/pages/settings/password-reset.js:19-36 | Different passwords show the mismatch and send nothing. Matching ones send that password to the signed-in user's path |
| PasswordReset.Finish | ui/pages/settings/password-reset.js:38-56 | Success goes to the settings page's success location; failure shows the errors |
| PasswordReset.MismatchThenMatchSendsOnce | ui/pages/settings/password-reset.js:19-56 | A mismatch sends nothing. Retyping the confirmation to match clears the error, and the next submit sends the typed password to the signed-in user's path. A failed response keeps both entries, so a retry sends the same request |
| PasswordReset.ResetDoneOpensAccountTab | ui/pages/settings/password-reset.js:44 | The success location reads back as the settings page with `tab=account` and `resetPassword=success` |
| Urls.URLRoundTrip | ui/pages/login/index.js:23-25 | A base without '?' joined to query-safe parameters reads back as the same base and parameters |

## Left out

- Database access, gorm selectors and transactions are not modelled. Each store call is a function of the rows it is handed, with an injected fault (`faults`) or error result. `ListIdentities`, `ListGroups`, `CreateGroup`, `AddUsersToGroup` and their SQL are outside the model.
- `access.*` role checks, `RequireInfraRole` and `ValidateAndGetToken` are given as their verdicts. The secret store, the OIDC client and `mail.ParseAddress` are parameters.
- `time.Now` is a single reading passed in. Durations are whole numbers on an abstract clock.
- Telemetry, logging, `handleError`'s HTTP status mapping and response writing are not modelled. Errors are followed up to the value the handler returns.
- `http.Redirect`'s cleaning of relative paths is not modelled. Locations are the strings the middleware builds.
- The middleware's branch for cookie-read errors other than "no cookie" (`internal/registry/http.go:91-101`) logs the error and returns without writing a response. It is not modelled: Go's `Request.Cookie` only ever returns `http.ErrNoCookie`, so that branch cannot be reached.
- Go map iteration order is not modelled. `Validate.ErrorString` takes any enumeration of the keys as a parameter.
- Go's `panic` is modelled as `None`, or as a `Panicked` outcome. It is not caught.
- Validate.ValidateString: the field name in the error comes from the rule's name. The Go type defines `jsonName` rather than `fieldName`, which the surrounding tests take to be the key.
- Unicode case folding is not modelled. `Strings.Lower` lowers ASCII letters only.
- QueryEscape.EscapeRoundTrip: the round trip is proved for ASCII text only. Escaping characters outside ASCII is modelled, but not decoding them back.
- LoginPage.AuthorizationRequestParses: `oidcLogin` does no URL escaping, so the round trip needs query-safe inputs and an authorization URL without '?'.
- ProvidersAdd.ChooseKindReloads: a provider choice keeps the mounted form, and the `router.replace` it makes does not reload the page. The lemma compares the choice with a fresh load of the written URL, which would also reset a typed name and, for Google, pre-fill the issuer URL that the mounted form keeps as it was.
- `Math.random` strings (OIDC state, key-name suffix) and `window.location` are inputs.
- Submitting the grant form with no selection reads `selected.user` of null and throws a `TypeError` before anything happens. `GrantForm.Step` models this as emitting nothing and changing nothing; the exception itself is not modelled.
- Settings.AddAdmin: the created grant is appended whatever the response status. The model takes the response body as given.
- The settings list's `sortBySubject` order is not modelled. Messages and names are per grant.
- The destinations page's polling for the new cluster (`ui/pages/destinations/add.js:37-57`) is left out: it depends on timers.
- The users/add page's merge-conflict markup (`ui/pages/users/add.js:66-106`) and the `isEmailConfigured` branch are left out: they are rendering only.
- The `useAdmin` hook and the provider catalogue in `lib/providers` are not part of this model. The admin flag, the default kind and the available kinds are inputs.
- JSON values other than strings in a credentials file, and the `FileReader` callback, are not modelled. The file is given as parsed or unparseable.
- The groups/add page's name edit clears only the general error, not the per-field ones. The model follows the code here.
- The sign-up and password-reset pages key their mismatch error as `confirmPassword`. Unlike the server's keys, it is not lower-cased, and the model keeps that.
- After login, the middleware follows the first `next` value, or "/" when it is empty. It does not look for the first non-empty value, and the model follows the code.
- `tls.go`, `url.go`, the Next.js configuration, presentation-only components and the temporary-key details page are not part of this model.

## Findings

In the validation package, a rule's doc comment promises one behaviour and its code does another. For each rule, the model keeps the code as written, proves the counterexample, and proves the intended property of a corrected definition.

| source | as written | input that shows it | evidently intended | confidence | as-written member | corrected member |
|---|---|---|---|---|---|---|
| internal/validate/validate.go:127-139 | `RequireOneOf` fails when `len(zero) == 0`, i.e. when NO field is zero | one field "a" set to "x" is rejected with "one of  must be set" | fail only when every field is zero, naming them | not executed | Validate.RequireOneOfRejectsSetField | Validate.RequireOneOfIntendedAccepts |
| internal/validate/validate.go:101-113 | `mutuallyExclusive` tests `reflect.ValueOf(field)`, the whole `Field` struct with its name, which is never zero | two named fields both holding "" are rejected with "only one of a, b can be set" | count only fields whose value is set | not executed | Validate.MutuallyExclusiveCountsZeroValues | Validate.MutuallyExclusiveIntendedIgnoresZero |
| internal/validate/validate.go:73-81 | `IsRequired` returns from the first loop iteration, whatever that rule is | a string rule followed by a required rule is reported as not required | true if any rule is a required rule | not executed | Validate.IsRequiredOrderDependent | Validate.IsRequiredAnyOrderFree |

=== FILE: authn.dfy ===
/**
 * `authn.Login` (internal/server/authn/authn_method.go): authenticate with
 * the chosen method, mint an access key for the authenticated identity,
 * then record when the identity was last seen.
 *
 * The login method's `Authenticate`, `data.CreateAccessKey` and
 * `data.SaveIdentity` are opaque: the first is given as its result, the
 * other two as functions of what they are handed. The result lists the
 * store calls made, in order.
 */
module Authn {
  import opened Wrappers
  import opened GoErrors
  import opened Models

  datatype AuthScope = AuthScope(passwordResetOnly: bool)

  /** What a successful `Authenticate` yields. */
  datatype AuthenticatedIdentity = AuthenticatedIdentity(
    identity: Identity,
    provider: Provider,
    sessionExpiry: int,
    authScope: AuthScope)

  /** A store call made by `Login`, with its argument. */
  datatype StoreCall = CreateAccessKey(key: AccessKey) | SaveIdentity(identity: Identity)

  /** `Login`'s three results (key, bearer, error) and the store calls it made. */
  datatype LoginResult = LoginResult(key: Option<AccessKey>, bearer: string, err: Option<Error>, calls: seq<StoreCall>)

  /** The key `Login` hands to `data.CreateAccessKey` after a successful authentication. */
  function NewKey(a: AuthenticatedIdentity, now: int, keyExtension: int): (k: AccessKey)
    ensures k.issuedFor == a.identity.id && k.issuedForIdentity == a.identity
    ensures k.providerID == a.provider.id
    ensures k.expiresAt == a.sessionExpiry
    ensures k.extension == keyExtension && k.extensionDeadline == now + keyExtension
    ensures ScopePasswordReset in k.scopes <==> a.authScope.passwordResetOnly
    ensures |k.scopes| <= 1
  {
    AccessKey(
      a.identity.id, a.identity, a.provider.id, a.sessionExpiry,
      now + keyExtension, keyExtension,
      if a.authScope.passwordResetOnly then [ScopePasswordReset] else [])
  }

  /**
   * `Login`. The identity record is shared by the authenticated identity
   * and the key (`IssuedForIdentity`), so stamping `LastSeenAt` after the
   * key is stored shows up in the returned key too.
   */
  function Login(
    authenticated: Result<AuthenticatedIdentity, Error>,
    createAccessKey: AccessKey -> Result<string, Error>,
    saveIdentity: Identity -> Option<Error>,
    now: int,
    keyExtension: int): (r: LoginResult)
    // a failed authentication: "failed to login: ...", no bearer, no store call
    ensures authenticated.Err? ==>
              r.key.None? && r.bearer == "" && r.calls == []
              && r.err == Some(Wrap("failed to login", authenticated.error))
    // otherwise the first store call creates the key for the authenticated identity
    ensures authenticated.Ok? ==>
              |r.calls| >= 1 && r.calls[0] == CreateAccessKey(NewKey(authenticated.value, now, keyExtension))
    // a key-creation failure stops before the identity is saved
    ensures authenticated.Ok? && createAccessKey(NewKey(authenticated.value, now, keyExtension)).Err? ==>
              r.calls == [CreateAccessKey(NewKey(authenticated.value, now, keyExtension))]
              && r.key.None? && r.bearer == "" && r.err.Some?
              && HasPrefix(r.err.value, "failed to create access key after login: ")
    // a failure to stamp the last-seen time discards the stored key: "login failed to update last seen: ..."
    ensures authenticated.Ok? && createAccessKey(NewKey(authenticated.value, now, keyExtension)).Ok?
            && saveIdentity(authenticated.value.identity.(lastSeenAt := now)).Some? ==>
              r.key.None? && r.bearer == ""
              && r.err == Some(Wrap("login failed to update last seen",
                                    saveIdentity(authenticated.value.identity.(lastSeenAt := now)).value))
    // a key is returned exactly when no error is, and then with the store's bearer
    ensures r.key.Some? <==> r.err.None?
    ensures r.key.Some? ==>
              authenticated.Ok?
              && createAccessKey(NewKey(authenticated.value, now, keyExtension)).Ok?
              && saveIdentity(authenticated.value.identity.(lastSeenAt := now)).None?
              && r.bearer == createAccessKey(NewKey(authenticated.value, now, keyExtension)).value
              && r.key.value.issuedForIdentity.lastSeenAt == now
              && r.calls == [CreateAccessKey(NewKey(authenticated.value, now, keyExtension)),
                             SaveIdentity(authenticated.value.identity.(lastSeenAt := now))]
  {
    match authenticated
    case Err(e) => LoginResult(None, "", Some(Wrap("failed to login", e)), [])
    case Ok(a) =>
      var key := NewKey(a, now, keyExtension);
      match createAccessKey(key)
      case Err(e) =>
        LoginResult(None, "", Some(Wrap("failed to create access key after login", e)), [CreateAccessKey(key)])
      case Ok(bearer) =>
        var seen := a.identity.(lastSeenAt := now);
        var calls := [CreateAccessKey(key), SaveIdentity(seen)];
        match saveIdentity(seen)
        case Some(e) => LoginResult(None, "", Some(Wrap("login failed to update last seen", e)), calls)
        case None => LoginResult(Some(key.(issuedForIdentity := seen)), bearer, None, calls)
  }

  /**
   * Every failure `Login` reports wraps the failing step's error with `%w`,
   * so the sentinels of that error survive: in particular an upstream
   * `ErrBadGateway` is still recognisable by the caller.
   */
  lemma LoginKeepsSentinels(
    authenticated: Result<AuthenticatedIdentity, Error>,
    createAccessKey: AccessKey -> Result<string, Error>,
    saveIdentity: Identity -> Option<Error>,
    now: int,
    keyExtension: int,
    s: Sentinel)
    ensures var r := Login(authenticated, createAccessKey, saveIdentity, now, keyExtension);
            r.err.Some? ==>
              (Is(r.err.value, s) <==>
                 (authenticated.Err? && Is(authenticated.error, s))
                 || (authenticated.Ok? && FailedStep(authenticated.value, createAccessKey, saveIdentity, now, keyExtension).Some?
                     && Is(FailedStep(authenticated.value, createAccessKey, saveIdentity, now, keyExtension).value, s)))
  {
  }

  /** The error of the store call that failed after a successful authentication, if any. */
  function FailedStep(
    a: AuthenticatedIdentity,
    createAccessKey: AccessKey -> Result<string, Error>,
    saveIdentity: Identity -> Option<Error>,
    now: int,
    keyExtension: int): Option<Error>
  {
    var key := NewKey(a, now, keyExtension);
    if createAccessKey(key).Err? then Some(createAccessKey(key).error)
    else saveIdentity(a.identity.(lastSeenAt := now))
  }
}

=== FILE: dashboard.dfy ===
/**
 * The dashboard layout (ui/components/layouts/dashboard.js): the route
 * gate for admin-only pages, the sidebar's filtered and highlighted
 * navigation, the breadcrumb trail computed from the browser path, and
 * the sign-out sequence.
 *
 * `useAdmin` is not part of this model: its `admin` and `loading` results
 * are inputs, as is the cached session (`None` while it is unknown).
 */
module Dashboard {
  import opened Wrappers
  import opened Strings
  import opened Seqs
  import opened Views

  datatype NavItem = NavItem(name: string, href: string, adminOnly: bool)

  /** The sidebar's entries in display order; all but Clusters are for admins. */
  const Navigation: seq<NavItem> := [
    NavItem("Clusters", "/destinations", false),
    NavItem("Providers", "/providers", true),
    NavItem("Groups", "/groups", true),
    NavItem("Users", "/users", true),
    NavItem("Settings", "/settings", true)
  ]

  /** `navigation.filter(n => (n.admin ? admin : true))`. */
  function VisibleNav(nav: seq<NavItem>, admin: bool): (r: seq<NavItem>)
    ensures forall n :: n in r <==> n in nav && (n.adminOnly ==> admin)
    ensures admin ==> r == nav
  {
    var shown := (n: NavItem) => !n.adminOnly || admin;
    if admin then KeepAll(nav, shown); Keep(nav, shown) else Keep(nav, shown)
  }

  /** A nav entry is drawn highlighted when the browser path starts with its href. */
  predicate Highlighted(asPath: string, item: NavItem) {
    StartsWith(asPath, item.href)
  }

  /** `admin || auth?.providerNames?.includes('infra')`. */
  predicate AccountAccess(admin: bool, auth: Option<SelfUser>) {
    admin || (auth.Some? && "infra" in auth.value.providerNames)
  }

  /**
   * The `for (const n of navigation)` loop: the first entry whose href
   * prefixes the route and that the viewer may not open.
   */
  function FirstForbidden(nav: seq<NavItem>, pathname: string, admin: bool): (r: Option<NavItem>)
    ensures r.Some? <==> exists n :: n in nav && StartsWith(pathname, n.href) && n.adminOnly && !admin
    ensures r.Some? ==> r.value in nav && StartsWith(pathname, r.value.href)
    decreases |nav|
  {
    if |nav| == 0 then None
    else if StartsWith(pathname, nav[0].href) && nav[0].adminOnly && !admin then Some(nav[0])
    else
      var r := FirstForbidden(nav[1..], pathname, admin);
      assert forall n :: n in nav ==> n == nav[0] || n in nav[1..];
      r
  }

  /**
   * `Layout`'s decision before drawing anything: wait while admin status
   * loads, send a viewer who may not see the account page or an admin-only
   * section to "/", and render otherwise.
   */
  function Gate(loading: bool, admin: bool, auth: Option<SelfUser>, pathname: string): (v: View)
    ensures loading ==> v == Nothing
    ensures v != Render ==> v == Nothing || v == Replace("/")
    ensures !loading && v != Render ==> v == Replace("/")
    ensures v == Render <==>
              !loading
              && (StartsWith(pathname, "/account") ==> AccountAccess(admin, auth))
              && (admin || forall n :: n in Navigation && n.adminOnly ==> !StartsWith(pathname, n.href))
  {
    if loading then Nothing
    else if StartsWith(pathname, "/account") && !AccountAccess(admin, auth) then Replace("/")
    else if FirstForbidden(Navigation, pathname, admin).Some? then Replace("/")
    else Render
  }

  /** An admin sees every page once admin status is known. */
  lemma AdminSeesEverything(auth: Option<SelfUser>, pathname: string)
    ensures Gate(false, true, auth, pathname) == Render
  {
  }

  /** A non-admin is turned away from every admin section, whatever follows its href. */
  lemma NonAdminKeptOut(auth: Option<SelfUser>, pathname: string, section: string)
    requires section in ["/providers", "/groups", "/users", "/settings"]
    requires StartsWith(pathname, section)
    ensures Gate(false, false, auth, pathname) == Replace("/")
  {
    var n := if section == "/providers" then Navigation[1]
             else if section == "/groups" then Navigation[2]
             else if section == "/users" then Navigation[3]
             else Navigation[4];
    assert n in Navigation && n.adminOnly && n.href == section;
  }

  /** "/account" opens for a non-admin exactly when the session has the built-in "infra" provider. */
  lemma AccountForInfraUsers(auth: Option<SelfUser>, rest: string)
    ensures Gate(false, false, auth, "/account" + rest) == Render
            <==> auth.Some? && "infra" in auth.value.providerNames
  {
    var p := "/account" + rest;
    assert StartsWith(p, "/account") by { assert p[..8] == "/account"; }
    forall n | n in Navigation && n.adminOnly ensures !StartsWith(p, n.href) {
      assert p[1] == 'a';
    }
  }

  /** `name.split('?')[0]`: a path segment up to its first '?'. */
  function BeforeQuery(segment: string): string {
    Split(segment, '?')[0]
  }

  lemma {:induction false} BeforeQueryCuts(segment: string)
    ensures StartsWith(segment, BeforeQuery(segment))
    ensures '?' !in BeforeQuery(segment)
    ensures |BeforeQuery(segment)| < |segment| ==> segment[|BeforeQuery(segment)|] == '?'
    decreases |segment|
  {
    if |segment| > 0 && segment[0] != '?' {
      BeforeQueryCuts(segment[1..]);
      assert BeforeQuery(segment) == [segment[0]] + BeforeQuery(segment[1..]);
    }
  }

  /** `asPath.split('/').filter(n => n).map(name => name.split('?')[0])`. */
  function PathSegments(asPath: string): seq<string> {
    var pieces := Keep(Split(asPath, '/'), (p: string) => p != "");
    seq(|pieces|, i requires 0 <= i < |pieces| => BeforeQuery(pieces[i]))
  }

  /** No segment carries a '/' or a '?'. */
  lemma PathSegmentsClean(asPath: string)
    ensures forall s :: s in PathSegments(asPath) ==> '/' !in s && '?' !in s
  {
    var pieces := Keep(Split(asPath, '/'), (p: string) => p != "");
    forall i | 0 <= i < |pieces| ensures '/' !in BeforeQuery(pieces[i]) && '?' !in BeforeQuery(pieces[i]) {
      BeforeQueryCuts(pieces[i]);
      assert pieces[i] in Split(asPath, '/');
      assert forall c :: c in BeforeQuery(pieces[i]) ==> c in pieces[i];
    }
  }

  /** One breadcrumb: its text, its link and whether it is drawn as the current page. */
  datatype Crumb = Crumb(text: string, href: string, current: bool)

  /** Crumb `i` links to the items up to `i` joined with "/"; it is current when that join is the whole trail's. */
  function CrumbAt(items: seq<string>, i: nat): Crumb
    requires i < |items|
  {
    Crumb(items[i], "/" + Join(items[..i + 1], "/"), Join(items, "/") == Join(items[..i + 1], "/"))
  }

  /** The crumbs for a list of items. */
  function Trail(items: seq<string>): seq<Crumb> {
    seq(|items|, i requires 0 <= i < |items| => CrumbAt(items, i))
  }

  /** The trail: the distinct path segments in first-seen order; the account page has none. */
  function Breadcrumbs(pathname: string, asPath: string): seq<Crumb> {
    if StartsWith(pathname, "/account") then [] else Trail(Dedup(PathSegments(asPath)))
  }

  function Texts(crumbs: seq<Crumb>): seq<string> {
    seq(|crumbs|, k requires 0 <= k < |crumbs| => crumbs[k].text)
  }

  /** Each crumb links to the trail up to itself, and exactly the last one is current. */
  lemma TrailLinks(items: seq<string>)
    ensures Texts(Trail(items)) == items
    ensures forall i :: 0 <= i < |items| ==> Trail(items)[i].href == "/" + Join(items[..i + 1], "/")
    ensures forall i :: 0 <= i < |items| ==> (Trail(items)[i].current <==> i == |items| - 1)
  {
    forall i | 0 <= i < |items| ensures Trail(items)[i].current <==> i == |items| - 1 {
      CurrentIsLast(items, i);
    }
  }

  /**
   * The trail has one crumb per distinct segment of the path, each a clean
   * segment; each crumb links to the trail up to itself; and exactly the
   * last crumb is current.
   */
  lemma BreadcrumbTrail(pathname: string, asPath: string)
    ensures StartsWith(pathname, "/account") ==> Breadcrumbs(pathname, asPath) == []
    ensures !StartsWith(pathname, "/account") ==> Texts(Breadcrumbs(pathname, asPath)) == Dedup(PathSegments(asPath))
    ensures var r := Breadcrumbs(pathname, asPath);
            forall i, j :: 0 <= i < j < |r| ==> r[i].text != r[j].text
    ensures var r := Breadcrumbs(pathname, asPath);
            forall i :: 0 <= i < |r| ==> r[i].text in PathSegments(asPath) && '/' !in r[i].text && '?' !in r[i].text
    ensures var r := Breadcrumbs(pathname, asPath);
            forall i :: 0 <= i < |r| ==> r[i].href == "/" + Join(Texts(r)[..i + 1], "/")
    ensures var r := Breadcrumbs(pathname, asPath);
            forall i :: 0 <= i < |r| ==> (r[i].current <==> i == |r| - 1)
  {
    if !StartsWith(pathname, "/account") {
      var items := Dedup(PathSegments(asPath));
      TrailLinks(items);
      PathSegmentsClean(asPath);
      var r := Trail(items);
      forall i | 0 <= i < |r| ensures r[i].text == items[i] {
        assert Texts(r)[i] == r[i].text;
      }
    }
  }

  lemma CurrentIsLast(items: seq<string>, i: nat)
    requires i < |items|
    ensures Join(items, "/") == Join(items[..i + 1], "/") <==> i == |items| - 1
  {
    if i < |items| - 1 {
      JoinPrefixShorter(items, i + 1, "/");
    } else {
      assert items[..i + 1] == items;
    }
  }

  /** What signing out does, in order. */
  datatype Effect = PostLogout | ClearCachedSession | ReplaceWith(target: string)

  /** `logout`: POST /api/logout, forget the cached session, then go to "/login". */
  const Logout: seq<Effect> := [PostLogout, ClearCachedSession, ReplaceWith("/login")]

  /**
   * The browser side that the sign-out effects act on: the session the
   * server holds, the session cached by the console, and the route.
   */
  datatype Browser = Browser(serverSession: bool, cached: Option<SelfUser>, location: string)

  function Apply(b: Browser, e: Effect): Browser {
    match e
    case PostLogout => b.(serverSession := false)
    case ClearCachedSession => b.(cached := None)
    case ReplaceWith(target) => b.(location := target)
  }

  function Run(b: Browser, effects: seq<Effect>): (r: Browser)
    decreases |effects|
  {
    if |effects| == 0 then b else Run(Apply(b, effects[0]), effects[1..])
  }

  /**
   * After signing out, whatever the state before: the server session is
   * gone, nothing is cached, and the browser is on "/login".
   */
  lemma SignOutEndsSession(b: Browser)
    ensures var after := Run(b, Logout);
            !after.serverSession && after.cached.None? && after.location == "/login"
  {
  }
}

=== FILE: destinations.dfy ===
/**
 * The connect-a-cluster wizard (ui/pages/destinations/add.js): the
 * cluster-name check, the access key created for the connector user, the
 * three-step progress indicator, and the install command shown to the
 * user.
 *
 * The fetched connector list, the created key's response and the random
 * suffix are inputs; the page's 5-second connection poll is not part of
 * this model.
 */
module Destinations {
  import opened Wrappers
  import opened Strings

  /** A character of `/^[A-Za-z.0-9_-]+$/`. */
  predicate ClusterNameChar(c: char) {
    IsAsciiLetter(c) || IsDigit(c) || c == '.' || c == '_' || c == '-'
  }

  /** The regular expression, matched one character at a time from the left. */
  function MatchesClusterName(name: string): (b: bool)
    ensures b <==> |name| > 0 && forall i :: 0 <= i < |name| ==> ClusterNameChar(name[i])
    decreases |name|
  {
    if |name| == 0 then false
    else if |name| == 1 then ClusterNameChar(name[0])
    else
      var rest := MatchesClusterName(name[1..]);
      assert forall i :: 1 <= i < |name| ==> name[i] == name[1..][i - 1];
      ClusterNameChar(name[0]) && rest
  }

  datatype Status = Complete | Current | Upcoming

  /** The step list and `currentStep`. */
  datatype Wizard = Wizard(steps: seq<Status>, current: nat)

  /** Name Cluster, Kubernetes Command, Connect; the first is current. */
  const Start := Wizard([Current, Upcoming, Upcoming], 0)

  /** Steps before `current` are complete, `current` is the current one, later ones are upcoming. */
  predicate InOrder(w: Wizard) {
    w.current <= |w.steps|
    && forall i :: 0 <= i < |w.steps| ==>
         w.steps[i] == (if i < w.current then Complete else if i == w.current then Current else Upcoming)
  }

  /**
   * The step advance shared by the submit and the Next button: the current
   * step completes, the next one (if any) becomes current, and the counter
   * moves on. Past the last step `stepsList[step]` is undefined and the
   * handler throws: `None`.
   */
  function Advance(w: Wizard): (r: Option<Wizard>)
    ensures r.None? <==> w.current >= |w.steps|
    ensures r.Some? ==> r.value.current == w.current + 1 && |r.value.steps| == |w.steps|
  {
    if w.current >= |w.steps| then None
    else
      var steps := w.steps[w.current := Complete];
      var steps := if w.current != |w.steps| - 1 then steps[w.current + 1 := Current] else steps;
      Some(Wizard(steps, w.current + 1))
  }

  /** Advancing keeps the indicator in order; after the last step every step is complete. */
  lemma AdvanceKeepsOrder(w: Wizard)
    requires InOrder(w) && w.current < |w.steps|
    ensures Advance(w).Some? && InOrder(Advance(w).value)
    ensures Advance(w).value.current == |w.steps| ==> forall i :: 0 <= i < |w.steps| ==> Advance(w).value.steps[i] == Complete
  {
  }

  lemma StartInOrder()
    ensures InOrder(Start)
  {
  }

  /** The page's state. */
  datatype Page = Page(name: string, error: string, submitted: bool, accessKey: string, connected: bool, wizard: Wizard)

  /** The requests the submit sends, in order. */
  datatype Request =
    | ListConnectors
    | CreateAccessKey(userID: string, keyName: string, ttl: string, extensionDeadline: string)

  const InvalidName := "Invalid cluster name"
  const NoConnector := "Could not create access key"

  /**
   * `onSubmit`. `connectors` are the IDs the connector-user query returns,
   * `suffix` the ten random base-36 characters, and `issued` the
   * `accessKey` field of the key-creation response.
   */
  function Submit(p: Page, connectors: seq<string>, suffix: string, issued: string): (r: (Page, seq<Request>))
    // a bad name: message, no request, nothing else changes
    ensures !MatchesClusterName(p.name) ==> r == (p.(error := InvalidName), [])
    // no connector user: message, the step stays, nothing else but the connection flag changes
    ensures MatchesClusterName(p.name) && |connectors| == 0 ==>
              r.1 == [ListConnectors] && r.0.error == NoConnector && r.0.wizard == p.wizard && !r.0.connected
              && r.0 == p.(connected := false, error := NoConnector)
    // otherwise a long-lived key for the first connector, named after the cluster
    ensures MatchesClusterName(p.name) && |connectors| > 0 ==>
              r.1 == [ListConnectors, CreateAccessKey(connectors[0], p.name + "-" + suffix, "87600h", "720h")]
              && r.0.accessKey == issued && r.0.submitted && !r.0.connected
              && r.0.wizard == Advance(p.wizard).GetOr(p.wizard)
              && r.0 == p.(connected := false, accessKey := issued, submitted := true, wizard := r.0.wizard)
  {
    if !MatchesClusterName(p.name) then (p.(error := InvalidName), [])
    else
      var p := p.(connected := false);
      if |connectors| == 0 then (p.(error := NoConnector), [ListConnectors])
      else
        var key := CreateAccessKey(connectors[0], p.name + "-" + suffix, "87600h", "720h");
        (p.(accessKey := issued, submitted := true, wizard := Advance(p.wizard).GetOr(p.wizard)), [ListConnectors, key])
  }

  /**
   * Whatever the name and the lookup give, a submit keeps the step
   * indicator in order, moves it at most one step, and leaves the typed
   * name alone.
   */
  lemma SubmitKeepsOrder(p: Page, connectors: seq<string>, suffix: string, issued: string)
    requires InOrder(p.wizard)
    ensures var r := Submit(p, connectors, suffix, issued).0;
            InOrder(r.wizard) && r.name == p.name
            && p.wizard.current <= r.wizard.current <= p.wizard.current + 1
  {
    if p.wizard.current < |p.wizard.steps| {
      AdvanceKeepsOrder(p.wizard);
    }
  }

  /** The key name ends with the ten-character suffix after a '-', and starts with the cluster name. */
  lemma KeyNameShape(p: Page, connectors: seq<string>, suffix: string, issued: string)
    requires MatchesClusterName(p.name) && |connectors| > 0
    requires |suffix| == 10 && IsBase36String(suffix)
    ensures var keyName := Submit(p, connectors, suffix, issued).1[1].keyName;
            StartsWith(keyName, p.name) && |keyName| == |p.name| + 11
            && keyName[|p.name|] == '-' && IsBase36String(keyName[|p.name| + 1..])
  {
    var keyName := p.name + "-" + suffix;
    assert keyName[..|p.name|] == p.name;
    assert keyName[|p.name| + 1..] == suffix;
  }

  /** The first step's submit moves the wizard to the command step. */
  lemma SubmitAdvancesFromStart(p: Page, connectors: seq<string>, suffix: string, issued: string)
    requires p.wizard == Start && MatchesClusterName(p.name) && |connectors| > 0
    ensures Submit(p, connectors, suffix, issued).0.wizard == Wizard([Complete, Current, Upcoming], 1)
  {
  }

  const SkipTLSLine := " \\\n    --set connector.config.skipTLSVerify=true"

  function HelmInstall(accessKey: string, server: string, name: string): string {
    "helm install infra-connector infrahq/infra \\\n    --set connector.config.accessKey=" + accessKey
    + " \\\n    --set connector.config.server=" + server
    + " \\\n    --set connector.config.name=" + name
  }

  /** The install command: the helm command, with TLS verification turned off unless the console is served over https. */
  function InstallCommand(accessKey: string, server: string, name: string, protocol: string): (r: string)
    ensures StartsWith(r, HelmInstall(accessKey, server, name))
    ensures protocol == "https:" <==> r == HelmInstall(accessKey, server, name)
    ensures protocol != "https:" ==> r[|HelmInstall(accessKey, server, name)|..] == SkipTLSLine
  {
    var base := HelmInstall(accessKey, server, name);
    if protocol != "https:" then base + SkipTLSLine else base
  }
}

=== FILE: field_errors.dfy ===
/**
 * The console's shared handling of a failed API call. Every form that
 * reports server-side validation turns the response's `fieldErrors` into
 * an `errors` object keyed by the lower-cased field name, holding that
 * field's first message (or "invalid value" when it has none), and
 * otherwise shows the response's top-level `message`.
 */
module FieldErrors {
  import opened Wrappers
  import opened Strings

  /** One entry of a response's `fieldErrors`. */
  datatype FieldError = FieldError(fieldName: string, errors: seq<string>)

  /**
   * The JSON body a page throws when `res.ok` is false. `fieldErrors` is
   * `None` when the body has none; an empty list is present, and so truthy.
   */
  datatype ApiError = ApiError(code: int, message: string, fieldErrors: Option<seq<FieldError>>)

  /** A form's two error states: per-field messages and the top-level message. */
  datatype FormErrors = FormErrors(errors: map<string, string>, error: string)

  const NoErrors := FormErrors(map[], "")

  const InvalidValue := "invalid value"

  /** What the password forms show under "confirm password" when the two entries differ. */
  const PasswordsDoNotMatch := "passwords do not match"

  /** `error.errors[0] || 'invalid value'`: a missing or empty first message falls back. */
  function FirstMessage(fe: FieldError): (m: string)
    ensures m != ""
    ensures m == InvalidValue || (|fe.errors| > 0 && m == fe.errors[0])
    ensures |fe.errors| > 0 && fe.errors[0] != "" ==> m == fe.errors[0]
  {
    if |fe.errors| > 0 && fe.errors[0] != "" then fe.errors[0] else InvalidValue
  }

  /**
   * The loop `errors[error.fieldName.toLowerCase()] = ...` over the field
   * errors in order, so a later entry for the same lower-cased name
   * overwrites an earlier one.
   */
  function ErrorsMap(fes: seq<FieldError>): (r: map<string, string>)
    ensures forall k :: k in r <==> exists i :: 0 <= i < |fes| && Lower(fes[i].fieldName) == k
    ensures forall k :: k in r ==> r[k] != ""
    decreases |fes|
  {
    if |fes| == 0 then map[]
    else
      var last := fes[|fes| - 1];
      var r := ErrorsMap(fes[..|fes| - 1])[Lower(last.fieldName) := FirstMessage(last)];
      assert forall i :: 0 <= i < |fes| - 1 ==> fes[..|fes| - 1][i] == fes[i];
      r
  }

  /** The shown message for a field is that of the last entry carrying its lower-cased name. */
  lemma {:induction false} ErrorsMapLastWins(fes: seq<FieldError>, i: nat)
    requires i < |fes|
    requires forall j :: i < j < |fes| ==> Lower(fes[j].fieldName) != Lower(fes[i].fieldName)
    ensures Lower(fes[i].fieldName) in ErrorsMap(fes)
    ensures ErrorsMap(fes)[Lower(fes[i].fieldName)] == FirstMessage(fes[i])
    decreases |fes|
  {
    if i < |fes| - 1 {
      var init := fes[..|fes| - 1];
      assert init[i] == fes[i];
      forall j | i < j < |init| ensures Lower(init[j].fieldName) != Lower(init[i].fieldName) {
        assert init[j] == fes[j];
      }
      ErrorsMapLastWins(init, i);
    }
  }

  /** Every key is already lower case, so a page reading `errors.name` finds what the server called `Name`. */
  lemma ErrorsMapKeysLower(fes: seq<FieldError>)
    ensures forall k :: k in ErrorsMap(fes) ==> Lower(k) == k
  {
    forall k | k in ErrorsMap(fes) ensures Lower(k) == k {
      var i :| 0 <= i < |fes| && Lower(fes[i].fieldName) == k;
      LowerIdempotent(fes[i].fieldName);
    }
  }

  /**
   * The `catch` block shared by the forms: field errors replace the
   * per-field messages and leave the top-level message alone; otherwise
   * only the top-level message is set.
   */
  function ShowFailure(prior: FormErrors, e: ApiError): (r: FormErrors)
    ensures e.fieldErrors.Some? ==> r.error == prior.error && r.errors == ErrorsMap(e.fieldErrors.value)
    ensures e.fieldErrors.None? ==> r.errors == prior.errors && r.error == e.message
  {
    if e.fieldErrors.Some? then prior.(errors := ErrorsMap(e.fieldErrors.value))
    else prior.(error := e.message)
  }
}

=== FILE: go_errors.dfy ===
/**
 * Go error values as the server code builds them with `fmt.Errorf`.
 *
 * An error is the set of sentinel errors `errors.Is` finds along its wrap
 * chain, plus its text. The texts of the sentinels themselves
 * (`internal.ErrBadRequest` and friends) are defined outside the modelled
 * files, so a sentinel's text is kept symbolic as a `Name` piece.
 */
module GoErrors {

  /** The sentinel errors of the `internal` package the modelled code wraps or tests for. */
  datatype Sentinel = ErrBadRequest | ErrUnauthorized | ErrBadGateway | ErrForbidden | ErrNotFound

  /** One piece of an error's text: literal characters, or a sentinel's own text. */
  datatype Piece = Text(chars: string) | Name(sentinel: Sentinel)

  datatype Error = Error(sentinels: set<Sentinel>, text: seq<Piece>)

  /** `errors.Is(err, s)` for a sentinel `s`. */
  predicate Is(err: Error, s: Sentinel) {
    s in err.sentinels
  }

  /** The error text starts with the literal `prefix` (the first piece carries it). */
  predicate HasPrefix(err: Error, prefix: string) {
    |err.text| > 0 && err.text[0].Text? && |prefix| <= |err.text[0].chars|
    && err.text[0].chars[..|prefix|] == prefix
  }

  /** `errors.New(text)`, or `fmt.Errorf` without a `%w` verb: no sentinel. */
  function New(text: string): (e: Error)
    ensures forall s :: !Is(e, s)
    ensures HasPrefix(e, text)
  {
    Error({}, [Text(text)])
  }

  /** `fmt.Errorf("<context>: %w", err)`: the text gains a prefix, the wrapped sentinels stay. */
  function Wrap(context: string, err: Error): (e: Error)
    ensures forall s :: Is(e, s) <==> Is(err, s)
    ensures HasPrefix(e, context + ": ")
    ensures e.text[1..] == err.text
  {
    Error(err.sentinels, [Text(context + ": ")] + err.text)
  }

  /** `fmt.Errorf("%w: <detail>", s)`: exactly the sentinel `s`, its text first. */
  function Annotate(s: Sentinel, detail: string): (e: Error)
    ensures forall t :: Is(e, t) <==> t == s
    ensures e.text == [Name(s), Text(": " + detail)]
  {
    Error({s}, [Name(s), Text(": " + detail)])
  }

  /**
   * `fmt.Errorf("%w: <detail>: %v", s, err)` (or `%s`): the inner error is
   * formatted as text only, so its sentinels are lost and only `s` remains.
   */
  function AnnotateWith(s: Sentinel, detail: string, err: Error): (e: Error)
    ensures forall t :: Is(e, t) <==> t == s
    ensures |e.text| >= 2 && e.text[..2] == [Name(s), Text(": " + detail + ": ")]
    ensures e.text[2..] == err.text
  {
    Error({s}, [Name(s), Text(": " + detail + ": ")] + err.text)
  }
}

=== FILE: grant_form.dfy ===
/**
 * The form that grants a role to a user or a group
 * (ui/components/grant-form.js): the candidate list filtered by the typed
 * query, and a reducer over the form's state whose submit emits the
 * grant to create.
 *
 * The user and group lists are the fetched ones, given as inputs; the
 * combobox and the role selector are not part of this model, only the
 * values they hand back.
 */
module GrantForm {
  import opened Wrappers
  import opened Strings
  import opened Seqs

  /** A user or group as the API lists it; `name` may be missing. */
  datatype Entry = Entry(id: string, name: Option<string>)

  datatype Kind = UserKind | GroupKind

  /** `{ ...u, user: true }` or `{ ...g, group: true }`. */
  datatype Candidate = Candidate(entry: Entry, kind: Kind)

  function Tag(entries: seq<Entry>, kind: Kind): (r: seq<Candidate>)
    ensures |r| == |entries|
    ensures forall i :: 0 <= i < |r| ==> r[i] == Candidate(entries[i], kind)
  {
    seq(|entries|, i requires 0 <= i < |entries| => Candidate(entries[i], kind))
  }

  /** `s?.name?.toLowerCase()?.includes(query.toLowerCase())`: a nameless entry never matches. */
  predicate Matches(c: Candidate, query: string) {
    c.entry.name.Some? && Contains(Lower(c.entry.name.value), Lower(query))
  }

  /** The combobox's options: tagged users, then tagged groups, kept when they match. */
  function Candidates(users: seq<Entry>, groups: seq<Entry>, query: string): (r: seq<Candidate>)
    ensures forall c :: c in r <==>
              ((c.kind == UserKind && c.entry in users) || (c.kind == GroupKind && c.entry in groups))
              && Matches(c, query)
  {
    var all := Tag(users, UserKind) + Tag(groups, GroupKind);
    assert forall c :: c in all <==>
             (c.kind == UserKind && c.entry in users) || (c.kind == GroupKind && c.entry in groups) by {
      forall c: Candidate | c in all
        ensures (c.kind == UserKind && c.entry in users) || (c.kind == GroupKind && c.entry in groups)
      {
        var i :| 0 <= i < |all| && all[i] == c;
        if i < |users| { assert all[i] == Candidate(users[i], UserKind); }
        else { assert all[i] == Candidate(groups[i - |users|], GroupKind); }
      }
      forall c: Candidate | (c.kind == UserKind && c.entry in users) || (c.kind == GroupKind && c.entry in groups)
        ensures c in all
      {
        if c.kind == UserKind {
          var i :| 0 <= i < |users| && users[i] == c.entry;
          assert all[i] == c;
        } else {
          var i :| 0 <= i < |groups| && groups[i] == c.entry;
          assert all[|users| + i] == c;
        }
      }
    }
    Keep(all, (c: Candidate) => Matches(c, query))
  }

  lemma TagKind(entries: seq<Entry>, kind: Kind)
    ensures forall c :: c in Tag(entries, kind) ==> c.kind == kind
  {
  }

  lemma UsersThenGroups(ku: seq<Candidate>, kg: seq<Candidate>)
    requires forall k :: 0 <= k < |ku| ==> ku[k].kind == UserKind
    requires forall k :: 0 <= k < |kg| ==> kg[k].kind == GroupKind
    ensures forall i, j :: 0 <= i < j < |ku + kg| && (ku + kg)[i].kind == GroupKind ==> (ku + kg)[j].kind == GroupKind
  {
    var r := ku + kg;
    assert forall k :: 0 <= k < |ku| ==> r[k].kind == UserKind;
    forall i, j | 0 <= i < j < |r| && r[i].kind == GroupKind ensures r[j].kind == GroupKind {
      assert r[j] == kg[j - |ku|];
    }
  }

  /** Every matching user is listed before every matching group, each in fetched order. */
  lemma UsersBeforeGroups(users: seq<Entry>, groups: seq<Entry>, query: string)
    ensures var r := Candidates(users, groups, query);
            forall i, j :: 0 <= i < j < |r| && r[i].kind == GroupKind ==> r[j].kind == GroupKind
  {
    var keep := (c: Candidate) => Matches(c, query);
    var us := Tag(users, UserKind);
    var gs := Tag(groups, GroupKind);
    KeepAppend(us, gs, keep);
    var ku := Keep(us, keep);
    var kg := Keep(gs, keep);
    TagKind(users, UserKind);
    TagKind(groups, GroupKind);
    assert forall k :: 0 <= k < |ku| ==> ku[k] in us;
    assert forall k :: 0 <= k < |kg| ==> kg[k] in gs;
    UsersThenGroups(ku, kg);
  }

  /** With nothing typed, every named user and group is offered, and no nameless one. */
  lemma EmptyQueryOffersNamed(users: seq<Entry>, groups: seq<Entry>, c: Candidate)
    requires (c.kind == UserKind && c.entry in users) || (c.kind == GroupKind && c.entry in groups)
    ensures c in Candidates(users, groups, "") <==> c.entry.name.Some?
  {
    if c.entry.name.Some? {
      assert StartsWith(Lower(c.entry.name.value), Lower(""));
    }
  }

  /** The `onSubmit` argument: exactly one of `user` and `group` is set. */
  datatype Grant = Grant(user: Option<string>, group: Option<string>, privilege: Option<string>)

  /** The form's state; `roles` is the component's prop, `role` its chosen role. */
  datatype Form = Form(roles: seq<string>, role: Option<string>, query: string, selected: Option<Candidate>)

  /** `roles?.[0]`. */
  function FirstRole(roles: seq<string>): Option<string> {
    if |roles| > 0 then Some(roles[0]) else None
  }

  function Init(roles: seq<string>): (f: Form)
    ensures WellFormed(f) && f.selected.None? && f.role == FirstRole(roles)
  {
    Form(roles, FirstRole(roles), "", None)
  }

  /** The chosen role is one of the roles, and there is one whenever there are roles. */
  predicate WellFormed(f: Form) {
    (f.role.Some? ==> f.role.value in f.roles) && (|f.roles| > 0 ==> f.role.Some?)
  }

  /** The Add button. */
  predicate AddEnabled(f: Form) {
    f.selected.Some?
  }

  /** The role selector. */
  predicate ShowRoleSelect(f: Form) {
    |f.roles| > 1
  }

  datatype Event =
    | Typed(query: string)
    | Selected(candidate: Candidate)
    | ChoseRole(index: nat)
    | RolesChanged(roles: seq<string>)
    | Submitted

  /**
   * One event. `ChoseRole` picks from the roles the selector offers; a new
   * `roles` prop resets the role (the `useEffect` on `roles`). Submitting
   * with nothing selected throws on `selected.user` before anything
   * happens, so it emits nothing and changes nothing.
   */
  function Step(f: Form, e: Event): (r: (Form, Option<Grant>))
    ensures e.Submitted? && f.selected.Some? ==>
              var c := f.selected.value;
              r.1 == Some(Grant(if c.kind == UserKind then Some(c.entry.id) else None,
                                if c.kind == GroupKind then Some(c.entry.id) else None,
                                f.role))
              && r.0.role == FirstRole(f.roles) && r.0.selected.None?
    ensures r.1.Some? ==> e.Submitted? && f.selected.Some?
    ensures r.1.Some? ==> (r.1.value.user.Some? <==> r.1.value.group.None?)
    ensures e.RolesChanged? ==> r.0 == f.(roles := e.roles, role := FirstRole(e.roles))
    ensures e.Typed? ==> r == (f.(query := e.query), None)
    ensures e.Selected? ==> r == (f.(selected := Some(e.candidate)), None)
    ensures e.ChoseRole? && e.index < |f.roles| ==> r == (f.(role := Some(f.roles[e.index])), None)
    ensures e.ChoseRole? && e.index >= |f.roles| ==> r == (f, None)
    ensures e.Submitted? && f.selected.None? ==> r == (f, None)
    ensures WellFormed(f) ==> WellFormed(r.0)
  {
    match e
    case Typed(q) => (f.(query := q), None)
    case Selected(c) => (f.(selected := Some(c)), None)
    case ChoseRole(i) => (if i < |f.roles| then f.(role := Some(f.roles[i])) else f, None)
    case RolesChanged(roles) => (f.(roles := roles, role := FirstRole(roles)), None)
    case Submitted =>
      match f.selected
      case None => (f, None)
      case Some(c) =>
        var g := Grant(if c.kind == UserKind then Some(c.entry.id) else None,
                       if c.kind == GroupKind then Some(c.entry.id) else None,
                       f.role);
        (f.(role := FirstRole(f.roles), selected := None), Some(g))
  }

  /** A grant is emitted exactly when Add is enabled, and it names the selected candidate's ID. */
  lemma SubmitNeedsSelection(f: Form)
    ensures Step(f, Submitted).1.Some? <==> AddEnabled(f)
    ensures AddEnabled(f) ==>
              var g := Step(f, Submitted).1.value;
              (g.user == Some(f.selected.value.entry.id) || g.group == Some(f.selected.value.entry.id))
              && !AddEnabled(Step(f, Submitted).0)
  {
  }
}

=== FILE: groups_add.dfy ===
/**
 * The create-group page (ui/pages/groups/add.js): the member picker's
 * candidates and its removal rules, and the two-request create sequence.
 *
 * The typeahead combobox is not part of this model; choosing a candidate
 * appends it to the selection.
 */
module GroupsAdd {
  import opened Wrappers
  import opened Strings
  import opened Seqs
  import opened FieldErrors

  /** A user as the API lists it; `name` may be missing. */
  datatype User = User(id: string, name: Option<string>)

  function Ids(users: seq<User>): (r: seq<string>)
    ensures |r| == |users| && forall i :: 0 <= i < |users| ==> r[i] == users[i].id
  {
    seq(|users|, i requires 0 <= i < |users| => users[i].id)
  }

  /** The picker's options: users whose lower-cased name contains the lower-cased query and who are not already selected. */
  function Candidates(users: seq<User>, selected: seq<User>, query: string): (r: seq<User>)
    ensures forall u :: u in r <==>
              u in users && u.name.Some? && Contains(Lower(u.name.value), Lower(query)) && u.id !in Ids(selected)
  {
    var named := Keep(users, (u: User) => u.name.Some? && Contains(Lower(u.name.value), Lower(query)));
    Keep(named, (u: User) => u.id !in Ids(selected))
  }

  /** `removeSelectedEmail`: every selected user with that ID goes, the others keep their order. */
  function RemoveSelected(selected: seq<User>, id: string): (r: seq<User>)
    ensures forall u :: u in r <==> u in selected && u.id != id
  {
    Keep(selected, (u: User) => u.id != id)
  }

  /** Backspace in an empty input removes the last selected user; with none selected it changes nothing. */
  function Backspace(selected: seq<User>, inputEmpty: bool): (r: seq<User>)
    ensures !inputEmpty || |selected| == 0 ==> r == selected
  {
    if inputEmpty && |selected| > 0 then RemoveSelected(selected, selected[|selected| - 1].id) else selected
  }

  predicate DistinctIds(users: seq<User>) {
    forall i, j :: 0 <= i < j < |users| ==> users[i].id != users[j].id
  }

  /** Picking an offered candidate keeps the selected IDs distinct. */
  lemma ChoosingKeepsDistinct(users: seq<User>, selected: seq<User>, query: string, u: User)
    requires DistinctIds(selected) && u in Candidates(users, selected, query)
    ensures DistinctIds(selected + [u])
  {
    assert u.id !in Ids(selected);
    forall i | 0 <= i < |selected| ensures selected[i].id != u.id {
      assert Ids(selected)[i] == selected[i].id;
    }
  }

  /** With distinct IDs, Backspace drops exactly the last selected user. */
  lemma {:induction false} BackspaceDropsLast(selected: seq<User>)
    requires |selected| > 0 && DistinctIds(selected)
    ensures Backspace(selected, true) == selected[..|selected| - 1]
  {
    var last := selected[|selected| - 1];
    var keep := (u: User) => u.id != last.id;
    var init := selected[..|selected| - 1];
    assert selected == init + [last];
    KeepAppend(init, [last], keep);
    forall u | u in init ensures keep(u) {
      var i :| 0 <= i < |init| && init[i] == u;
      assert selected[i] == u;
    }
    KeepAll(init, keep);
  }

  /** The requests the create sequence sends, in order. */
  datatype Request = CreateGroup(name: string) | AddMembers(groupID: string, usersToAdd: seq<string>)

  datatype Outcome = Outcome(requests: seq<Request>, shown: FormErrors, navigate: Option<string>)

  /**
   * `handleCreateGroup`: errors are cleared and the group is created; only
   * then are the selected users added to it; only when both succeed does
   * the browser go to "/groups". A failure of either shows its errors.
   */
  function CreateWithMembers(
    name: string, selected: seq<User>,
    created: Result<string, ApiError>, added: Result<(), ApiError>): (r: Outcome)
    ensures |r.requests| >= 1 && r.requests[0] == CreateGroup(name)
    ensures created.Err? ==> r == Outcome([CreateGroup(name)], ShowFailure(NoErrors, created.error), None)
    ensures created.Ok? ==> r.requests == [CreateGroup(name), AddMembers(created.value, Ids(selected))]
    ensures r.navigate.Some? <==> created.Ok? && added.Ok?
    ensures r.navigate.Some? ==> r.navigate.value == "/groups" && r.shown == NoErrors
    ensures created.Ok? && added.Err? ==> r.shown == ShowFailure(NoErrors, added.error)
  {
    match created
    case Err(e) => Outcome([CreateGroup(name)], ShowFailure(NoErrors, e), None)
    case Ok(groupID) =>
      var requests := [CreateGroup(name), AddMembers(groupID, Ids(selected))];
      match added
      case Ok(_) => Outcome(requests, NoErrors, Some("/groups"))
      case Err(e) => Outcome(requests, ShowFailure(NoErrors, e), None)
  }

  /**
   * A selection picked through the candidates (`ChoosingKeepsDistinct`)
   * adds each chosen user once: the member request lists every selected
   * ID, in order, with none repeated.
   */
  lemma CreateAddsEachSelectedOnce(
    name: string, selected: seq<User>, groupID: string, added: Result<(), ApiError>)
    requires DistinctIds(selected)
    ensures var r := CreateWithMembers(name, selected, Ok(groupID), added);
            r.requests[1] == AddMembers(groupID, Ids(selected))
            && NoDuplicates(r.requests[1].usersToAdd)
            && forall u :: u in selected ==> u.id in r.requests[1].usersToAdd
  {
    var ids := Ids(selected);
    forall u | u in selected ensures u.id in ids {
      var i :| 0 <= i < |selected| && selected[i] == u;
      assert ids[i] == u.id;
    }
  }

  /** Create Group is disabled while the name is empty. */
  predicate CreateDisabled(groupName: string) {
    groupName == ""
  }
}

=== FILE: handlers.dfy ===
/**
 * The authentication handlers of the API server
 * (internal/server/handlers.go): `Login`'s choice of login method and the
 * way it classifies failures, `CreateToken`, `Signup`, `Logout`,
 * `UpdateIdentityInfoFromProvider` and `providerClient`.
 *
 * Every call into `access`, `secrets` or the identity provider is opaque
 * and given as a function parameter; the request context (its clock
 * reading, the request host, the infra provider's ID and an OIDC client
 * placed in the context) is a plain value.
 */
module Handlers {
  import opened Wrappers
  import opened GoErrors
  import opened Models
  import Authn

  /** The server options the handlers read. */
  datatype Options = Options(enableSignup: bool, sessionDuration: int, sessionExtensionDeadline: int, baseDomain: string)

  /** What the handlers read from the request context. */
  datatype Context = Context(now: int, host: string, infraProviderID: ID, contextClient: Option<OidcClient>)

  /** One minute on the model's clock, which counts seconds. */
  const OneMinute := 60

  /** The two cookies the handlers set; their names are constants defined elsewhere. */
  datatype CookieName = AuthorizationCookie | SignupCookie

  /** `cookieConfig`; `expires == 0` stands for the deleted cookie. */
  datatype CookieConfig = CookieConfig(name: CookieName, value: string, domain: string, expires: int)

  /** An OIDC client: one placed in the context, or one built from the provider's record. */
  datatype OidcClient = ContextClient(handle: nat) | ProviderOidcClient(provider: Provider, clientSecret: string, redirectURL: string)

  /** A call from the handlers to something outside the model, in the order made. */
  datatype ExternalCall =
    | GetContextProviderIdentity
    | GetSecret(secretName: string)
    | UpdateIdentityInfo(client: OidcClient)

  /**
   * `providerClient`: the context's client when there is one; otherwise a
   * client built from the provider and its secret. A secret lookup failure
   * is replaced by a plain error that wraps nothing.
   */
  function ProviderClient(
    ctx: Context,
    provider: Provider,
    redirectURL: string,
    getSecret: string -> Result<string, Error>): (r: Result<OidcClient, Error>)
    ensures ctx.contextClient.Some? ==> r == Ok(ctx.contextClient.value)
    ensures ctx.contextClient.None? ==>
              (r.Err? <==> getSecret(provider.clientSecret).Err?)
    ensures ctx.contextClient.None? && r.Ok? ==>
              r.value.ProviderOidcClient? && r.value.provider == provider
              && r.value.redirectURL == redirectURL
              && r.value.clientSecret == getSecret(provider.clientSecret).value
    ensures r.Err? ==> (forall s :: !Is(r.error, s)) && HasPrefix(r.error, "client secret not found")
  {
    if ctx.contextClient.Some? then Ok(ctx.contextClient.value)
    else
      match getSecret(provider.clientSecret)
      case Err(_) => Err(New("client secret not found"))
      case Ok(secret) => Ok(ProviderOidcClient(provider, secret, redirectURL))
  }

  /** The external calls `ProviderClient` makes. */
  function ProviderClientCalls(ctx: Context, provider: Provider): (calls: seq<ExternalCall>)
    ensures ctx.contextClient.Some? <==> calls == []
  {
    if ctx.contextClient.Some? then [] else [GetSecret(provider.clientSecret)]
  }

  /** The result of `UpdateIdentityInfoFromProvider` and the calls it made. */
  datatype UpdateOutcome = UpdateOutcome(err: Option<Error>, calls: seq<ExternalCall>)

  /**
   * `UpdateIdentityInfoFromProvider`: a session whose key was issued by the
   * infra provider needs no external check; otherwise the session's
   * provider is looked up, a client built for it, and the provider asked
   * to refresh the identity.
   */
  function UpdateIdentityInfoFromProvider(
    ctx: Context,
    keyProviderID: ID,
    getContextProviderIdentity: Result<(Provider, string), Error>,
    getSecret: string -> Result<string, Error>,
    updateFromProvider: OidcClient -> Option<Error>): (r: UpdateOutcome)
    // the infra provider: nothing to do, nothing called
    ensures keyProviderID == ctx.infraProviderID ==> r.err.None? && r.calls == []
    // any other provider is looked up first
    ensures keyProviderID != ctx.infraProviderID ==> |r.calls| >= 1 && r.calls[0] == GetContextProviderIdentity
    ensures keyProviderID != ctx.infraProviderID && getContextProviderIdentity.Err? ==>
              r == UpdateOutcome(Some(getContextProviderIdentity.error), [GetContextProviderIdentity])
    // the provider is asked only once a client exists, and that is the last call
    ensures forall i :: 0 <= i < |r.calls| && r.calls[i].UpdateIdentityInfo? ==>
              i == |r.calls| - 1 && keyProviderID != ctx.infraProviderID && getContextProviderIdentity.Ok?
              && r.err == updateFromProvider(r.calls[i].client)
    // once the provider is known: a client that cannot be built is reported as "update provider client: ..."
    // and the provider is not asked; a built client is asked, and its answer is the result
    ensures keyProviderID != ctx.infraProviderID && getContextProviderIdentity.Ok? ==>
              var (provider, redirectURL) := getContextProviderIdentity.value;
              var client := ProviderClient(ctx, provider, redirectURL, getSecret);
              (client.Err? ==>
                 r == UpdateOutcome(Some(Wrap("update provider client", client.error)),
                                    [GetContextProviderIdentity] + ProviderClientCalls(ctx, provider)))
              && (client.Ok? ==>
                    r == UpdateOutcome(updateFromProvider(client.value),
                                       [GetContextProviderIdentity] + ProviderClientCalls(ctx, provider)
                                       + [UpdateIdentityInfo(client.value)]))
  {
    if keyProviderID == ctx.infraProviderID then UpdateOutcome(None, [])
    else
      match getContextProviderIdentity
      case Err(e) => UpdateOutcome(Some(e), [GetContextProviderIdentity])
      case Ok((provider, redirectURL)) =>
        var calls := [GetContextProviderIdentity] + ProviderClientCalls(ctx, provider);
        match ProviderClient(ctx, provider, redirectURL, getSecret)
        case Err(e) => UpdateOutcome(Some(Wrap("update provider client", e)), calls)
        case Ok(client) => UpdateOutcome(updateFromProvider(client), calls + [UpdateIdentityInfo(client)])
  }

  /** `access.CreateToken`'s token. */
  datatype Token = Token(token: string, expires: int)

  /** `CreateToken`'s result and the calls `UpdateIdentityInfoFromProvider` made on its behalf. */
  datatype CreateTokenOutcome = CreateTokenOutcome(result: Result<Token, Error>, calls: seq<ExternalCall>)

  /**
   * `CreateToken`: only an authenticated user gets a token, and only after
   * the identity provider has confirmed the user (which it skips for the
   * infra provider). A refused confirmation is reported as unauthorized,
   * with the provider's error as text only.
   */
  function CreateToken(
    ctx: Context,
    user: Option<Identity>,
    keyProviderID: ID,
    getContextProviderIdentity: Result<(Provider, string), Error>,
    getSecret: string -> Result<string, Error>,
    updateFromProvider: OidcClient -> Option<Error>,
    createToken: Result<Token, Error>): (r: CreateTokenOutcome)
    ensures user.None? ==> r.result == Err(Annotate(ErrUnauthorized, "no identity found in access key")) && r.calls == []
    ensures user.Some? ==>
              var u := UpdateIdentityInfoFromProvider(ctx, keyProviderID, getContextProviderIdentity, getSecret, updateFromProvider);
              r.calls == u.calls
              && (u.err.Some? ==> r.result.Err? && (forall s :: Is(r.result.error, s) <==> s == ErrUnauthorized))
              && (u.err.None? ==> r.result == createToken)
    // a session issued by the infra provider gets its token straight away
    ensures user.Some? && keyProviderID == ctx.infraProviderID ==> r == CreateTokenOutcome(createToken, [])
  {
    match user
    case None => CreateTokenOutcome(Err(Annotate(ErrUnauthorized, "no identity found in access key")), [])
    case Some(_) =>
      var u := UpdateIdentityInfoFromProvider(ctx, keyProviderID, getContextProviderIdentity, getSecret, updateFromProvider);
      match u.err
      case Some(e) =>
        CreateTokenOutcome(Err(AnnotateWith(ErrUnauthorized, "failed to update identity info from provider", e)), u.calls)
      case None => CreateTokenOutcome(createToken, u.calls)
  }

  /** `api.SignupRequest`. */
  datatype SignupRequest = SignupRequest(name: string, password: string, orgName: string, subdomain: string)

  /** `access.SignupDetails`. */
  datatype SignupDetails = SignupDetails(name: string, password: string, orgName: string, subDomain: string)

  /** The arguments `access.Signup` is called with. */
  datatype SignupCall = SignupCall(keyExpires: int, baseDomain: string, details: SignupDetails)

  datatype SignupResponse = SignupResponse(user: Identity, orgName: string)

  datatype SignupOutcome = SignupOutcome(result: Result<SignupResponse, Error>, cookie: Option<CookieConfig>, call: Option<SignupCall>)

  /**
   * `Signup`: refused outright when sign-up is disabled; otherwise
   * `access.Signup` creates the organization and its first user, and a
   * one-minute cookie on the base domain carries the new session's bearer.
   */
  function Signup(
    opts: Options,
    now: int,
    req: SignupRequest,
    signup: SignupCall -> Result<(Identity, string), Error>): (r: SignupOutcome)
    ensures !opts.enableSignup ==>
              r.result.Err? && Is(r.result.error, ErrBadRequest) && r.call.None? && r.cookie.None?
    ensures opts.enableSignup ==>
              r.call.Some? && r.call.value.keyExpires == now + opts.sessionDuration
              && r.call.value.baseDomain == opts.baseDomain
              && r.call.value.details == SignupDetails(req.name, req.password, req.orgName, req.subdomain)
    ensures r.call.Some? && signup(r.call.value).Err? ==> r.result == Err(signup(r.call.value).error) && r.cookie.None?
    ensures r.result.Ok? <==> r.cookie.Some?
    ensures r.cookie.Some? ==>
              r.call.Some? && signup(r.call.value).Ok?
              && r.cookie.value == CookieConfig(SignupCookie, signup(r.call.value).value.1, opts.baseDomain, now + OneMinute)
              && r.result.value == SignupResponse(signup(r.call.value).value.0, req.orgName)
  {
    if !opts.enableSignup then
      SignupOutcome(Err(Annotate(ErrBadRequest, "signup is disabled")), None, None)
    else
      var call := SignupCall(now + opts.sessionDuration, opts.baseDomain,
                             SignupDetails(req.name, req.password, req.orgName, req.subdomain));
      match signup(call)
      case Err(e) => SignupOutcome(Err(e), None, Some(call))
      case Ok((identity, bearer)) =>
        SignupOutcome(Ok(SignupResponse(identity, req.orgName)),
                      Some(CookieConfig(SignupCookie, bearer, opts.baseDomain, now + OneMinute)), Some(call))
  }

  datatype PasswordCredentials = PasswordCredentials(name: string, password: string)

  datatype OidcLogin = OidcLogin(providerID: ID, redirectURL: string, code: string)

  /** `api.LoginRequest`: any combination of the three credential kinds may be filled in. */
  datatype LoginRequest = LoginRequest(accessKey: string, passwordCredentials: Option<PasswordCredentials>, oidc: Option<OidcLogin>)

  /** The `authn.LoginMethod` constructed for a request. */
  datatype LoginMethod =
    | KeyExchange(accessKey: string)
    | PasswordCredential(name: string, password: string)
    | OidcAuthentication(providerID: ID, redirectURL: string, code: string, client: OidcClient)

  /** What `access.Login` yields: the key, its bearer, and whether the password must be changed. */
  datatype Session = Session(key: AccessKey, bearer: string, requiresUpdate: bool)

  /** The arguments `access.Login` is called with. */
  datatype LoginCall = LoginCall(loginMethod: LoginMethod, expires: int, extensionDeadline: int)

  datatype LoginResponse = LoginResponse(userID: ID, name: string, accessKey: string, expires: int, passwordUpdateRequired: bool)

  datatype LoginOutcome = LoginOutcome(result: Result<LoginResponse, Error>, cookie: Option<CookieConfig>, call: Option<LoginCall>)

  /**
   * The `switch` at the top of `Login`: the first credential kind present
   * wins. For OIDC the provider must exist and a client be built for it.
   */
  function ChooseMethod(
    ctx: Context,
    req: LoginRequest,
    getProvider: ID -> Result<Provider, Error>,
    getSecret: string -> Result<string, Error>): (r: Result<LoginMethod, Error>)
    ensures req.accessKey != "" ==> r == Ok(KeyExchange(req.accessKey))
    ensures req.accessKey == "" && req.passwordCredentials.Some? ==>
              r == Ok(PasswordCredential(req.passwordCredentials.value.name, req.passwordCredentials.value.password))
    ensures req.accessKey == "" && req.passwordCredentials.None? && req.oidc.None? ==>
              r.Err? && (forall s :: Is(r.error, s) <==> s == ErrBadRequest)
              && r.error.text == [Name(ErrBadRequest), Text(": " + "missing login credentials")]
    ensures req.accessKey == "" && req.passwordCredentials.None? && req.oidc.Some?
            && getProvider(req.oidc.value.providerID).Err? ==>
              r == Err(Wrap("invalid identity provider", getProvider(req.oidc.value.providerID).error))
    // a known provider: its client is used, or the failure to build one is reported
    ensures req.accessKey == "" && req.passwordCredentials.None? && req.oidc.Some?
            && getProvider(req.oidc.value.providerID).Ok? ==>
              var o := req.oidc.value;
              var c := ProviderClient(ctx, getProvider(o.providerID).value, o.redirectURL, getSecret);
              (c.Ok? ==> r == Ok(OidcAuthentication(o.providerID, o.redirectURL, o.code, c.value)))
              && (c.Err? ==> r == Err(Wrap("update provider client", c.error)))
    ensures r.Ok? && r.value.OidcAuthentication? ==>
              req.accessKey == "" && req.passwordCredentials.None? && req.oidc.Some?
              && r.value.providerID == req.oidc.value.providerID && r.value.redirectURL == req.oidc.value.redirectURL
              && r.value.code == req.oidc.value.code
              && getProvider(req.oidc.value.providerID).Ok?
              && ProviderClient(ctx, getProvider(req.oidc.value.providerID).value, req.oidc.value.redirectURL, getSecret)
                 == Ok(r.value.client)
  {
    if req.accessKey != "" then Ok(KeyExchange(req.accessKey))
    else if req.passwordCredentials.Some? then
      Ok(PasswordCredential(req.passwordCredentials.value.name, req.passwordCredentials.value.password))
    else if req.oidc.Some? then
      var o := req.oidc.value;
      match getProvider(o.providerID)
      case Err(e) => Err(Wrap("invalid identity provider", e))
      case Ok(provider) =>
        match ProviderClient(ctx, provider, o.redirectURL, getSecret)
        case Err(e) => Err(Wrap("update provider client", e))
        case Ok(client) => Ok(OidcAuthentication(o.providerID, o.redirectURL, o.code, client))
    else Err(Annotate(ErrBadRequest, "missing login credentials"))
  }

  /**
   * How `Login` reports a failed `access.Login`: an upstream failure
   * (`ErrBadGateway`) is passed on untouched for the user to see; any other
   * failure becomes unauthorized, with the original error as text only.
   */
  function ClassifyLoginError(err: Error): (e: Error)
    ensures Is(err, ErrBadGateway) ==> e == err
    ensures !Is(err, ErrBadGateway) ==> (forall s :: Is(e, s) <==> s == ErrUnauthorized)
    ensures Is(e, ErrBadGateway) <==> Is(err, ErrBadGateway)
  {
    if Is(err, ErrBadGateway) then err else AnnotateWith(ErrUnauthorized, "login failed", err)
  }

  /** `Login`: choose the method, log in with it, and set the session cookie. */
  function Login(
    ctx: Context,
    opts: Options,
    req: LoginRequest,
    getProvider: ID -> Result<Provider, Error>,
    getSecret: string -> Result<string, Error>,
    login: LoginCall -> Result<Session, Error>): (r: LoginOutcome)
    // a request that names no method, or an OIDC provider that cannot be used, is refused before any login attempt
    ensures ChooseMethod(ctx, req, getProvider, getSecret).Err? ==>
              r == LoginOutcome(Err(ChooseMethod(ctx, req, getProvider, getSecret).error), None, None)
    // otherwise exactly one attempt, with the chosen method and a session of the configured length
    ensures ChooseMethod(ctx, req, getProvider, getSecret).Ok? ==>
              r.call == Some(LoginCall(ChooseMethod(ctx, req, getProvider, getSecret).value,
                                       ctx.now + opts.sessionDuration, opts.sessionExtensionDeadline))
    ensures r.call.Some? && login(r.call.value).Err? ==>
              r.cookie.None? && r.result == Err(ClassifyLoginError(login(r.call.value).error))
    // success: the cookie lives exactly as long as the key, and the response describes the key's owner
    ensures r.result.Ok? <==> r.cookie.Some?
    ensures r.result.Ok? ==>
              r.call.Some? && login(r.call.value).Ok?
              && var s := login(r.call.value).value;
              r.cookie.value == CookieConfig(AuthorizationCookie, s.bearer, ctx.host, s.key.expiresAt)
              && r.result.value == LoginResponse(s.key.issuedFor, s.key.issuedForIdentity.name, s.bearer,
                                                 s.key.expiresAt, s.requiresUpdate)
  {
    match ChooseMethod(ctx, req, getProvider, getSecret)
    case Err(e) => LoginOutcome(Err(e), None, None)
    case Ok(chosen) =>
      var call := LoginCall(chosen, ctx.now + opts.sessionDuration, opts.sessionExtensionDeadline);
      match login(call)
      case Err(e) => LoginOutcome(Err(ClassifyLoginError(e)), None, Some(call))
      case Ok(s) =>
        LoginOutcome(Ok(LoginResponse(s.key.issuedFor, s.key.issuedForIdentity.name, s.bearer, s.key.expiresAt, s.requiresUpdate)),
                     Some(CookieConfig(AuthorizationCookie, s.bearer, ctx.host, s.key.expiresAt)), Some(call))
  }

  /**
   * The precedence of credentials as seen from outside: an access key is
   * used whenever one is given, password credentials only without a key,
   * OIDC exactly when neither is given, the provider is known and a client
   * for it can be built, and a request with none is never attempted.
   */
  lemma LoginPrecedence(
    ctx: Context,
    opts: Options,
    req: LoginRequest,
    getProvider: ID -> Result<Provider, Error>,
    getSecret: string -> Result<string, Error>,
    login: LoginCall -> Result<Session, Error>)
    ensures var r := Login(ctx, opts, req, getProvider, getSecret, login);
            (r.call.Some? && r.call.value.loginMethod.KeyExchange? <==> req.accessKey != "")
            && (r.call.Some? && r.call.value.loginMethod.PasswordCredential? <==>
                  req.accessKey == "" && req.passwordCredentials.Some?)
            && (r.call.Some? && r.call.value.loginMethod.OidcAuthentication? <==>
                  req.accessKey == "" && req.passwordCredentials.None? && req.oidc.Some?
                  && getProvider(req.oidc.value.providerID).Ok?
                  && ProviderClient(ctx, getProvider(req.oidc.value.providerID).value,
                                    req.oidc.value.redirectURL, getSecret).Ok?)
            && (req.accessKey == "" && req.passwordCredentials.None? && req.oidc.None? ==>
                  r.call.None? && r.result.Err? && Is(r.result.error, ErrBadRequest))
  {
  }

  /**
   * A failed authentication as `authn.Login` reports it reaches the client
   * as an upstream failure exactly when the login method's own error was
   * one, and as unauthorized otherwise.
   */
  lemma AuthenticationFailureSeenByClient(
    ctx: Context,
    opts: Options,
    req: LoginRequest,
    getProvider: ID -> Result<Provider, Error>,
    getSecret: string -> Result<string, Error>,
    login: LoginCall -> Result<Session, Error>,
    authError: Error,
    createAccessKey: AccessKey -> Result<string, Error>,
    saveIdentity: Identity -> Option<Error>,
    keyExtension: int)
    requires ChooseMethod(ctx, req, getProvider, getSecret).Ok?
    requires var call := LoginCall(ChooseMethod(ctx, req, getProvider, getSecret).value,
                                   ctx.now + opts.sessionDuration, opts.sessionExtensionDeadline);
             login(call) == Err(Authn.Login(Err(authError), createAccessKey, saveIdentity, ctx.now, keyExtension).err.value)
    ensures var r := Login(ctx, opts, req, getProvider, getSecret, login);
            r.result.Err? && r.cookie.None?
            && (Is(authError, ErrBadGateway) ==> Is(r.result.error, ErrBadGateway)
                                                 && HasPrefix(r.result.error, "failed to login: "))
            && (!Is(authError, ErrBadGateway) ==> forall s :: Is(r.result.error, s) <==> s == ErrUnauthorized)
  {
  }

  /** `Logout`: the request's key is deleted first; only then is the cookie cleared. */
  function Logout(ctx: Context, deleteRequestAccessKey: Option<Error>): (r: (Option<Error>, Option<CookieConfig>))
    ensures r.0 == deleteRequestAccessKey
    ensures r.1.Some? <==> r.0.None?
    ensures r.1.Some? ==> r.1.value.name == AuthorizationCookie && r.1.value.domain == ctx.host
                          && r.1.value.value == "" && r.1.value.expires == 0
  {
    if deleteRequestAccessKey.Some? then (deleteRequestAccessKey, None)
    else (None, Some(CookieConfig(AuthorizationCookie, "", ctx.host, 0)))
  }

  /**
   * Sign-up reaches `access.Signup` exactly when it is enabled, and
   * succeeds exactly when that call does; the session it hands back
   * outlives the request by one minute and no more, on the base domain
   * rather than the request's host.
   */
  lemma SignupAttemptedIffEnabled(
    opts: Options,
    now: int,
    req: SignupRequest,
    signup: SignupCall -> Result<(Identity, string), Error>)
    ensures var r := Signup(opts, now, req, signup);
            (r.call.Some? <==> opts.enableSignup)
            && (r.result.Ok? <==> opts.enableSignup && signup(r.call.value).Ok?)
            && (r.cookie.Some? ==> r.cookie.value.expires - now == OneMinute
                                   && r.cookie.value.domain == opts.baseDomain)
  {
  }

  /**
   * Logging out clears the very cookie a login set: the same name on the
   * same host, emptied and expired. A failed key deletion leaves it alone.
   */
  lemma LogoutClearsLoginCookie(
    ctx: Context,
    opts: Options,
    req: LoginRequest,
    getProvider: ID -> Result<Provider, Error>,
    getSecret: string -> Result<string, Error>,
    login: LoginCall -> Result<Session, Error>,
    deleteRequestAccessKey: Option<Error>)
    requires Login(ctx, opts, req, getProvider, getSecret, login).cookie.Some?
    ensures var issued := Login(ctx, opts, req, getProvider, getSecret, login).cookie.value;
            var cleared := Logout(ctx, deleteRequestAccessKey).1;
            (cleared.Some? <==> deleteRequestAccessKey.None?)
            && (cleared.Some? ==> cleared.value == issued.(value := "", expires := 0))
  {
  }
}

=== FILE: identity.dfy ===
/**
 * Group-membership sync and cascading identity deletion
 * (internal/server/data/identity.go).
 *
 * The database is a value holding the relations the code touches:
 * identities, provider users, groups, the identities_groups membership
 * table and grants. Each SQL statement is given the meaning its text
 * states; whether it fails is an input (`faults`), so every error path of
 * the source is reachable. `slice.Subtract` is an order-preserving filter.
 */
module IdentityData {
  import opened Wrappers
  import opened GoErrors
  import opened Models
  import opened Seqs

  /** `models.Group` as it appears in an identity's `Groups` list: ID and name. */
  datatype GroupRef = GroupRef(id: ID, name: string)

  datatype Group = Group(id: ID, name: string, createdByProvider: ID)

  /** A user as a provider last reported it, with the provider's group names. */
  datatype ProviderUser = ProviderUser(providerID: ID, identityID: ID, groups: seq<string>, lastUpdate: int)

  /** A row of identities_groups. */
  datatype Membership = Membership(identityID: ID, groupID: ID)

  /** A grant's subject: an identity or a group (`PolyID`). */
  datatype Subject = IdentitySubject(id: ID) | GroupSubject(id: ID)

  datatype Grant = Grant(id: ID, subject: Subject, privilege: string, resource: string)

  /** The relations, and the next ID the store hands out. */
  datatype Db = Db(
    identities: seq<Identity>,
    providerUsers: seq<ProviderUser>,
    groups: seq<Group>,
    memberships: seq<Membership>,
    grants: seq<Grant>,
    nextID: ID)

  function GroupIDs(groups: seq<Group>): set<ID> {
    set g | g in groups :: g.id
  }

  /** The store's own invariants: fresh IDs lie above every group's, and memberships point at existing groups. */
  predicate WellFormed(db: Db) {
    (forall g :: g in db.groups ==> g.id < db.nextID)
    && (forall m :: m in db.memberships ==> m.groupID in GroupIDs(db.groups))
  }

  /** `slice.Subtract(a, b)`: the elements of `a` that are not in `b`, in order. */
  function Subtract(a: seq<string>, b: seq<string>): (r: seq<string>)
    ensures forall x :: x in r <==> x in a && x !in b
    ensures |r| <= |a|
  {
    Keep(a, x => x !in b)
  }

  /**
   * The groups to leave and the groups to join never overlap, and both are
   * empty exactly when the old and new lists name the same groups.
   */
  lemma SubtractDisjoint(oldGroups: seq<string>, newGroups: seq<string>)
    ensures forall x :: !(x in Subtract(oldGroups, newGroups) && x in Subtract(newGroups, oldGroups))
    ensures (Subtract(oldGroups, newGroups) == [] && Subtract(newGroups, oldGroups) == [])
            <==> (forall x :: x in oldGroups <==> x in newGroups)
  {
    var removed := Subtract(oldGroups, newGroups);
    var added := Subtract(newGroups, oldGroups);
    if removed != [] {
      assert removed[0] in oldGroups && removed[0] !in newGroups;
    }
    if added != [] {
      assert added[0] in newGroups && added[0] !in oldGroups;
    }
  }

  /** `GetProviderUser`: the first row for this provider and identity. */
  function GetProviderUser(rows: seq<ProviderUser>, providerID: ID, identityID: ID): (r: Result<ProviderUser, Error>)
    ensures r.Ok? ==> r.value in rows && r.value.providerID == providerID && r.value.identityID == identityID
    ensures r.Err? ==> Is(r.error, ErrNotFound)
                       && forall pu :: pu in rows ==> !(pu.providerID == providerID && pu.identityID == identityID)
  {
    if |rows| == 0 then Err(Error({ErrNotFound}, [Name(ErrNotFound)]))
    else if rows[0].providerID == providerID && rows[0].identityID == identityID then Ok(rows[0])
    else GetProviderUser(rows[1..], providerID, identityID)
  }

  /** `save` of a provider user: the row with the same provider and identity is replaced. */
  function SaveProviderUser(rows: seq<ProviderUser>, pu: ProviderUser): (r: seq<ProviderUser>)
    ensures |r| == |rows|
    ensures forall i :: 0 <= i < |rows| ==>
              r[i] == (if rows[i].providerID == pu.providerID && rows[i].identityID == pu.identityID then pu else rows[i])
  {
    seq(|rows|, i requires 0 <= i < |rows| =>
      if rows[i].providerID == pu.providerID && rows[i].identityID == pu.identityID then pu else rows[i])
  }

  lemma SavedProviderUserFound(rows: seq<ProviderUser>, pu: ProviderUser)
    requires GetProviderUser(rows, pu.providerID, pu.identityID).Ok?
    ensures GetProviderUser(SaveProviderUser(rows, pu), pu.providerID, pu.identityID) == Ok(pu)
  {
    var saved := SaveProviderUser(rows, pu);
    var k :| 0 <= k < |rows| && rows[k] == GetProviderUser(rows, pu.providerID, pu.identityID).value;
    assert saved[k] == pu;
    assert saved[k] in saved;
  }

  /**
   * `user.Groups` as a Go slice: a backing array and a length. Go's
   * `append(s[:i], s[i+1:]...)` shifts the tail left inside the same array,
   * so the array keeps a stale copy of its last element past the length.
   */
  datatype GroupSlice = GroupSlice(arr: seq<GroupRef>, len: nat)

  predicate ValidSlice(s: GroupSlice) {
    s.len <= |s.arr|
  }

  /** The elements the slice shows. */
  function Elements(s: GroupSlice): seq<GroupRef>
    requires ValidSlice(s)
  {
    s.arr[..s.len]
  }

  /** `s = append(s[:i], s[i+1:]...)`; `None` when `s[i+1:]` is out of range, which panics. */
  function RemoveAt(s: GroupSlice, i: nat): (r: Option<GroupSlice>)
    requires ValidSlice(s)
    ensures r.Some? <==> i < s.len
    ensures r.Some? ==>
              ValidSlice(r.value) && |r.value.arr| == |s.arr| && r.value.len == s.len - 1
              && Elements(r.value) == s.arr[..i] + s.arr[i + 1..s.len]
              && forall k :: i <= k < s.len - 1 ==> r.value.arr[k] == s.arr[k + 1]
    ensures r.Some? ==> forall k :: s.len - 1 <= k < |s.arr| ==> r.value.arr[k] == s.arr[k]
  {
    if i + 1 > s.len then None
    else
      var arr := s.arr[..i] + s.arr[i + 1..s.len] + s.arr[s.len - 1..];
      assert arr[..s.len - 1] == s.arr[..i] + s.arr[i + 1..s.len];
      Some(GroupSlice(arr, s.len - 1))
  }

  /**
   * The inner loop `for i, g := range user.Groups` for one removed name:
   * `range` fixed the length `n` when the loop started, but reads each
   * element from the shared array as it goes.
   */
  function RemoveNamedFrom(s: GroupSlice, name: string, i: nat, n: nat): (r: Option<GroupSlice>)
    requires ValidSlice(s) && n <= |s.arr|
    ensures r.Some? ==> ValidSlice(r.value) && |r.value.arr| == |s.arr|
    decreases n - i
  {
    if i >= n then Some(s)
    else if s.arr[i].name == name then
      match RemoveAt(s, i)
      case None => None
      case Some(s') => RemoveNamedFrom(s', name, i + 1, n)
    else RemoveNamedFrom(s, name, i + 1, n)
  }

  /** The outer loop over the groups to leave; `None` if any step panicked. */
  function RemoveGroups(s: GroupSlice, names: seq<string>): (r: Option<GroupSlice>)
    requires ValidSlice(s)
    ensures r.Some? ==> ValidSlice(r.value)
    decreases |names|
  {
    if |names| == 0 then Some(s)
    else
      match RemoveNamedFrom(s, names[0], 0, s.len)
      case None => None
      case Some(s') => RemoveGroups(s', names[1..])
  }

  predicate UniqueNames(xs: seq<GroupRef>) {
    forall i, j :: 0 <= i < j < |xs| ==> xs[i].name != xs[j].name
  }

  /** The groups of `xs` not called `name`, in order: what the loop is meant to leave. */
  function WithoutName(xs: seq<GroupRef>, name: string): (r: seq<GroupRef>)
    ensures forall g :: g in r <==> g in xs && g.name != name
  {
    if |xs| == 0 then [] else (if xs[0].name == name then [] else [xs[0]]) + WithoutName(xs[1..], name)
  }

  lemma {:induction false} WithoutNameAppend(a: seq<GroupRef>, b: seq<GroupRef>, name: string)
    ensures WithoutName(a + b, name) == WithoutName(a, name) + WithoutName(b, name)
    decreases |a|
  {
    if |a| > 0 {
      assert (a + b)[1..] == a[1..] + b;
      WithoutNameAppend(a[1..], b, name);
    } else {
      assert a + b == b;
    }
  }

  lemma {:induction false} WithoutAbsentName(xs: seq<GroupRef>, name: string)
    requires forall k :: 0 <= k < |xs| ==> xs[k].name != name
    ensures WithoutName(xs, name) == xs
    decreases |xs|
  {
    if |xs| > 0 {
      WithoutAbsentName(xs[1..], name);
    }
  }

  lemma {:induction false} WithoutNameUnique(xs: seq<GroupRef>, name: string)
    requires UniqueNames(xs)
    ensures UniqueNames(WithoutName(xs, name))
    decreases |xs|
  {
    if |xs| > 0 {
      assert UniqueNames(xs[1..]) by {
        forall i, j | 0 <= i < j < |xs[1..]| ensures xs[1..][i].name != xs[1..][j].name {
          assert xs[1..][i] == xs[i + 1] && xs[1..][j] == xs[j + 1];
        }
      }
      WithoutNameUnique(xs[1..], name);
      var rest := WithoutName(xs[1..], name);
      forall g | g in rest ensures g.name != xs[0].name {
        var k :| 0 <= k < |xs[1..]| && xs[1..][k] == g;
        assert xs[k + 1] == g;
      }
    }
  }

  /** Elements that do not carry `name` are stepped over without effect. */
  lemma {:induction false} SkipOthers(s: GroupSlice, name: string, i: nat, j: nat, n: nat)
    requires ValidSlice(s) && i <= j <= n <= |s.arr|
    requires forall k :: i <= k < j ==> s.arr[k].name != name
    ensures RemoveNamedFrom(s, name, i, n) == RemoveNamedFrom(s, name, j, n)
    decreases j - i
  {
    if i < j {
      SkipOthers(s, name, i + 1, j, n);
    }
  }

  /** The one group called `name` is cut out of the sequence. */
  lemma WithoutNameAt(xs: seq<GroupRef>, name: string, j: nat)
    requires j < |xs| && xs[j].name == name
    requires forall k :: 0 <= k < |xs| && k != j ==> xs[k].name != name
    ensures WithoutName(xs, name) == xs[..j] + xs[j + 1..]
  {
    var before, after := xs[..j], xs[j + 1..];
    var upTo := before + [xs[j]];
    WithoutNameAround(xs, name, j);
    WithoutNameSingle(xs[j], name);
    assert xs == upTo + after;
    WithoutNameAppend(upTo, after, name);
    WithoutNameAppend(before, [xs[j]], name);
    assert WithoutName(upTo, name) == before;
  }

  lemma WithoutNameAround(xs: seq<GroupRef>, name: string, j: nat)
    requires j < |xs|
    requires forall k :: 0 <= k < |xs| && k != j ==> xs[k].name != name
    ensures WithoutName(xs[..j], name) == xs[..j]
    ensures WithoutName(xs[j + 1..], name) == xs[j + 1..]
  {
    var before, after := xs[..j], xs[j + 1..];
    forall k | 0 <= k < |before| ensures before[k].name != name {
      assert before[k] == xs[k];
    }
    WithoutAbsentName(before, name);
    forall k | 0 <= k < |after| ensures after[k].name != name {
      assert after[k] == xs[j + 1 + k];
    }
    WithoutAbsentName(after, name);
  }

  lemma WithoutNameSingle(g: GroupRef, name: string)
    requires g.name == name
    ensures WithoutName([g], name) == []
  {
    assert [g][1..] == [];
  }

  /** With distinct names, the loop removes the one match at `j` and then finds nothing more. */
  lemma RemoveSingleMatch(s: GroupSlice, name: string, j: nat)
    requires ValidSlice(s) && UniqueNames(Elements(s)) && j < s.len && s.arr[j].name == name
    ensures RemoveNamedFrom(s, name, 0, s.len) == RemoveAt(s, j)
  {
    var xs := Elements(s);
    var n := s.len;
    assert forall k :: 0 <= k < j ==> s.arr[k].name != name by {
      forall k | 0 <= k < j ensures s.arr[k].name != name {
        assert xs[k] == s.arr[k] && xs[j] == s.arr[j];
      }
    }
    SkipOthers(s, name, 0, j, n);
    var s1 := RemoveAt(s, j).value;
    NoMatchAfterRemoval(s, name, j);
    SkipOthers(s1, name, j + 1, n, n);
  }

  /** After cutting out the match at `j`, the positions the loop still visits hold other names. */
  lemma NoMatchAfterRemoval(s: GroupSlice, name: string, j: nat)
    requires ValidSlice(s) && UniqueNames(Elements(s)) && j < s.len && s.arr[j].name == name
    ensures forall k :: j + 1 <= k < s.len ==> RemoveAt(s, j).value.arr[k].name != name
  {
    var xs := Elements(s);
    var s1 := RemoveAt(s, j).value;
    forall k | j + 1 <= k < s.len ensures s1.arr[k].name != name {
      if k < s.len - 1 {
        assert s1.arr[k] == s.arr[k + 1] == xs[k + 1] && xs[j] == s.arr[j];
      } else {
        assert s1.arr[k] == s.arr[k] == xs[k] && xs[j] == s.arr[j];
      }
    }
  }

  /**
   * With distinct names, one pass of the inner loop neither panics nor
   * skips anything: it removes exactly the group called `name`.
   */
  lemma RemoveNamedUnique(s: GroupSlice, name: string)
    requires ValidSlice(s) && UniqueNames(Elements(s))
    ensures RemoveNamedFrom(s, name, 0, s.len).Some?
    ensures Elements(RemoveNamedFrom(s, name, 0, s.len).value) == WithoutName(Elements(s), name)
  {
    var xs := Elements(s);
    if j :| 0 <= j < s.len && s.arr[j].name == name {
      RemoveSingleMatch(s, name, j);
      assert xs[j] == s.arr[j];
      forall k | 0 <= k < |xs| && k != j ensures xs[k].name != name {
        if k < j { assert xs[k].name != xs[j].name; } else { assert xs[j].name != xs[k].name; }
      }
      WithoutNameAt(xs, name, j);
      assert s.arr[..j] == xs[..j] && s.arr[j + 1..s.len] == xs[j + 1..];
    } else {
      SkipOthers(s, name, 0, s.len, s.len);
      assert forall k :: 0 <= k < |xs| ==> xs[k] == s.arr[k];
      WithoutAbsentName(xs, name);
    }
  }

  /**
   * The removal loop of `AssignIdentityToGroups`: when the user's groups
   * have distinct names it never panics, no group to leave remains, every
   * other group stays, and the names stay distinct.
   */
  lemma {:induction false} RemoveGroupsUnique(s: GroupSlice, names: seq<string>)
    requires ValidSlice(s) && UniqueNames(Elements(s))
    ensures RemoveGroups(s, names).Some?
    ensures forall g :: g in Elements(RemoveGroups(s, names).value) <==> g in Elements(s) && g.name !in names
    ensures UniqueNames(Elements(RemoveGroups(s, names).value))
    decreases |names|
  {
    if |names| > 0 {
      RemoveNamedUnique(s, names[0]);
      var s1 := RemoveNamedFrom(s, names[0], 0, s.len).value;
      RemoveGroupsStep(s, names);
      WithoutNameUnique(Elements(s), names[0]);
      RemoveGroupsUnique(s1, names[1..]);
      var e := Elements(RemoveGroups(s1, names[1..]).value);
      assert forall g :: g in Elements(s1) <==> g in Elements(s) && g.name != names[0];
      assert forall x :: x in names <==> x == names[0] || x in names[1..] by {
        assert names == [names[0]] + names[1..];
      }
      assert forall g :: g in e <==> g in Elements(s) && g.name !in names;
    }
  }

  lemma RemoveGroupsStep(s: GroupSlice, names: seq<string>)
    requires ValidSlice(s) && |names| > 0 && RemoveNamedFrom(s, names[0], 0, s.len).Some?
    ensures RemoveGroups(s, names) == RemoveGroups(RemoveNamedFrom(s, names[0], 0, s.len).value, names[1..])
  {
  }

  /** Two groups of the same name make the loop slice past the length: a panic. */
  lemma DuplicateNamesPanic()
    ensures RemoveGroups(GroupSlice([GroupRef(1, "dev"), GroupRef(2, "dev")], 2), ["dev"]).None?
  {
    var s := GroupSlice([GroupRef(1, "dev"), GroupRef(2, "dev")], 2);
    var s1 := RemoveAt(s, 0).value;
    assert s1.len == 1 && s1.arr[1] == GroupRef(2, "dev");
    assert RemoveNamedFrom(s1, "dev", 1, 2).None?;
  }

  /** A statement `AssignIdentityToGroups` or `DeleteIdentities` sends to the store; each may fail. */
  datatype DbStep =
    | SaveProviderUserStep
    | DeleteMembershipsStep
    | SelectGroupIDsStep
    | CreateGroupStep(name: string)
    | SelectMembershipStep(groupID: ID)
    | InsertMembershipStep(groupID: ID)
    | ListIdentitiesStep
    | DeleteGrantsStep(identityID: ID)
    | ListGroupsStep(identityID: ID)
    | RemoveFromGroupStep(groupID: ID, identityID: ID)
    | DeleteIdentitiesStep

  /** The result of `AssignIdentityToGroups`: the store and the user's group list, an error, or a panic. */
  datatype AssignOutcome = Assigned(db: Db, userGroups: seq<GroupRef>) | Failed(err: Error) | Panicked

  /** Group records as `user.Groups` entries. */
  function Refs(groups: seq<Group>): set<GroupRef> {
    set g | g in groups :: GroupRef(g.id, g.name)
  }

  /** `select id, name from groups where name in (...)`, in table order. */
  function GroupRefsNamed(groups: seq<Group>, names: seq<string>): (r: seq<GroupRef>)
    ensures forall x :: x in r ==> x in Refs(groups) && x.name in names
  {
    if |groups| == 0 then []
    else (if groups[0].name in names then [GroupRef(groups[0].id, groups[0].name)] else [])
         + GroupRefsNamed(groups[1..], names)
  }

  /** The first entry of the snapshot with this name, as the `for ... break` loop finds it. */
  function FindByName(refs: seq<GroupRef>, name: string): (r: Option<ID>)
    ensures r.Some? <==> exists x :: x in refs && x.name == name
    ensures r.Some? ==> GroupRef(r.value, name) in refs
  {
    if |refs| == 0 then None
    else if refs[0].name == name then Some(refs[0].id)
    else FindByName(refs[1..], name)
  }

  /** The IDs of the groups called by one of `names`. */
  function GroupIDsNamed(groups: seq<Group>, names: seq<string>): set<ID> {
    set g | g in groups && g.name in names :: g.id
  }

  /**
   * `delete from identities_groups where identity_id = ? and group_id in
   * (select id from groups where name in (?))`.
   */
  function LeaveGroups(db: Db, identityID: ID, names: seq<string>): (r: Db)
    ensures r == db.(memberships := r.memberships)
    ensures forall m :: m in r.memberships <==>
              m in db.memberships && !(m.identityID == identityID && m.groupID in GroupIDsNamed(db.groups, names))
  {
    var ids := GroupIDsNamed(db.groups, names);
    db.(memberships := Keep(db.memberships, (m: Membership) => !(m.identityID == identityID && m.groupID in ids)))
  }

  /** The group joined for `name`: the snapshot's, else the ID the store hands out next. */
  function JoinedID(db: Db, snapshot: seq<GroupRef>, name: string): ID {
    var found := FindByName(snapshot, name);
    if found.Some? then found.value else db.nextID
  }

  /** Find or create: the store after `CreateGroup` when the snapshot has no group called `name`. */
  function WithGroup(db: Db, providerID: ID, snapshot: seq<GroupRef>, name: string): Db {
    if FindByName(snapshot, name).Some? then db
    else db.(groups := db.groups + [Group(db.nextID, name, providerID)], nextID := db.nextID + 1)
  }

  /** Insert the membership only if the select found no such row. */
  function WithMembership(db: Db, identityID: ID, groupID: ID): Db {
    if Membership(identityID, groupID) in db.memberships then db
    else db.(memberships := db.memberships + [Membership(identityID, groupID)])
  }

  /**
   * The loop over the groups to join: reuse the snapshot's group of that
   * name or create one owned by the provider, insert the membership unless
   * it exists, and append the group to the user's list.
   */
  function JoinGroups(
    db: Db, identityID: ID, providerID: ID, snapshot: seq<GroupRef>, names: seq<string>,
    userGroups: seq<GroupRef>, faults: DbStep -> Option<Error>): (r: AssignOutcome)
    ensures r != Panicked
    decreases |names|
  {
    if |names| == 0 then Assigned(db, userGroups)
    else
      var name := names[0];
      if FindByName(snapshot, name).None? && faults(CreateGroupStep(name)).Some? then
        Failed(Wrap("create group", faults(CreateGroupStep(name)).value))
      else
        var groupID := JoinedID(db, snapshot, name);
        var db1 := WithGroup(db, providerID, snapshot, name);
        if faults(SelectMembershipStep(groupID)).Some? then
          Failed(Wrap("select", faults(SelectMembershipStep(groupID)).value))
        else if Membership(identityID, groupID) !in db1.memberships && faults(InsertMembershipStep(groupID)).Some? then
          Failed(Wrap("insert", faults(InsertMembershipStep(groupID)).value))
        else
          JoinGroups(WithMembership(db1, identityID, groupID), identityID, providerID, snapshot, names[1..],
                     userGroups + [GroupRef(groupID, name)], faults)
  }

  /** The provider user row saved with the provider's new list and the clock reading. */
  function RecordProviderGroups(db: Db, pu: ProviderUser, newGroups: seq<string>, now: int): Db {
    db.(providerUsers := SaveProviderUser(db.providerUsers, pu.(groups := newGroups, lastUpdate := now)))
  }

  /** The store after leaving the groups in `removed` (no statement when there are none). */
  function LeaveStore(db: Db, identityID: ID, removed: seq<string>): Db {
    if |removed| > 0 then LeaveGroups(db, identityID, removed) else db
  }

  /** The user's list after the removal loop; `None` if it panicked. */
  function LeaveList(userGroups: seq<GroupRef>, removed: seq<string>): Option<GroupSlice> {
    var s := GroupSlice(userGroups, |userGroups|);
    if |removed| > 0 then RemoveGroups(s, removed) else Some(s)
  }

  /**
   * `AssignIdentityToGroups(user, provider, newGroups)`: record the
   * provider's group list for the user, leave the groups no longer listed,
   * and join the newly listed ones. `userGroups` is the user's `Groups`
   * list on entry; `now` is the clock reading.
   */
  function AssignIdentityToGroups(
    db: Db, user: Identity, userGroups: seq<GroupRef>, provider: Provider, newGroups: seq<string>,
    now: int, faults: DbStep -> Option<Error>): AssignOutcome
  {
    match GetProviderUser(db.providerUsers, provider.id, user.id)
    case Err(e) => Failed(e)
    case Ok(pu) =>
      var removed := Subtract(pu.groups, newGroups);
      var added := Subtract(newGroups, pu.groups);
      if faults(SaveProviderUserStep).Some? then Failed(Wrap("save", faults(SaveProviderUserStep).value))
      else if |removed| > 0 && faults(DeleteMembershipsStep).Some? then Failed(faults(DeleteMembershipsStep).value)
      else
        var db2 := LeaveStore(RecordProviderGroups(db, pu, newGroups, now), user.id, removed);
        match LeaveList(userGroups, removed)
        case None => Panicked
        case Some(slice) =>
          if faults(SelectGroupIDsStep).Some? then Failed(Wrap("group ids", faults(SelectGroupIDsStep).value))
          else JoinGroups(db2, user.id, provider.id, GroupRefsNamed(db2.groups, added), added, Elements(slice), faults)
  }

  /** `after` grew from `db` by appending groups and memberships only. */
  predicate Extends(db: Db, after: Db) {
    after.identities == db.identities && after.providerUsers == db.providerUsers && after.grants == db.grants
    && db.groups <= after.groups && db.memberships <= after.memberships && db.nextID <= after.nextID
  }

  /** The state the snapshot may be read against: it lists only existing groups. */
  predicate SnapshotOf(db: Db, snapshot: seq<GroupRef>) {
    WellFormed(db) && forall x :: x in snapshot ==> x in Refs(db.groups)
  }

  /** One turn of the join loop keeps the store well formed and leaves the user a member of the group. */
  lemma JoinOne(db: Db, identityID: ID, providerID: ID, snapshot: seq<GroupRef>, name: string)
    requires SnapshotOf(db, snapshot)
    ensures var db2 := WithMembership(WithGroup(db, providerID, snapshot, name), identityID, JoinedID(db, snapshot, name));
            SnapshotOf(db2, snapshot) && Extends(db, db2)
            && GroupRef(JoinedID(db, snapshot, name), name) in Refs(db2.groups)
            && Membership(identityID, JoinedID(db, snapshot, name)) in db2.memberships
            && (forall k :: |db.groups| <= k < |db2.groups| ==>
                  db2.groups[k] == Group(db.nextID, name, providerID) && FindByName(snapshot, name).None?)
            && (forall k :: |db.memberships| <= k < |db2.memberships| ==>
                  db2.memberships[k] == Membership(identityID, JoinedID(db, snapshot, name)))
            && (NoDuplicates(db.memberships) ==> NoDuplicates(db2.memberships))
  {
    var groupID := JoinedID(db, snapshot, name);
    var db1 := WithGroup(db, providerID, snapshot, name);
    var db2 := WithMembership(db1, identityID, groupID);
    if FindByName(snapshot, name).Some? {
      RefInGroups(db.groups, GroupRef(groupID, name));
    } else {
      assert db1.groups[|db1.groups| - 1] in db1.groups;
    }
    RefsGrow(db.groups, db1.groups);
    assert GroupRef(groupID, name) in Refs(db1.groups);
  }

  /**
   * Joining only appends: each new group is owned by the provider and
   * carries a name to join that the snapshot did not have, each new
   * membership is the user's, and no membership row is ever duplicated.
   */
  lemma {:induction false} JoinGroupsStore(
    db: Db, identityID: ID, providerID: ID, snapshot: seq<GroupRef>, names: seq<string>,
    userGroups: seq<GroupRef>, faults: DbStep -> Option<Error>)
    requires SnapshotOf(db, snapshot)
    ensures var r := JoinGroups(db, identityID, providerID, snapshot, names, userGroups, faults);
            r.Assigned? ==>
              Extends(db, r.db) && SnapshotOf(r.db, snapshot)
              && (forall k :: |db.groups| <= k < |r.db.groups| ==>
                    r.db.groups[k].createdByProvider == providerID && r.db.groups[k].name in names
                    && FindByName(snapshot, r.db.groups[k].name).None?)
              && (forall k :: |db.memberships| <= k < |r.db.memberships| ==> r.db.memberships[k].identityID == identityID)
              && (NoDuplicates(db.memberships) ==> NoDuplicates(r.db.memberships))
    decreases |names|
  {
    var r := JoinGroups(db, identityID, providerID, snapshot, names, userGroups, faults);
    if |names| > 0 && r.Assigned? {
      var name := names[0];
      var groupID := JoinedID(db, snapshot, name);
      var db2 := WithMembership(WithGroup(db, providerID, snapshot, name), identityID, groupID);
      JoinOne(db, identityID, providerID, snapshot, name);
      JoinStep(db, identityID, providerID, snapshot, names, userGroups, faults);
      JoinGroupsStore(db2, identityID, providerID, snapshot, names[1..], userGroups + [GroupRef(groupID, name)], faults);
      forall k | |db.groups| <= k < |r.db.groups|
        ensures r.db.groups[k].createdByProvider == providerID && r.db.groups[k].name in names
                && FindByName(snapshot, r.db.groups[k].name).None?
      {
        if k < |db2.groups| {
          assert r.db.groups[k] == db2.groups[k];
        } else {
          assert r.db.groups[k].name in names[1..];
        }
      }
      forall k | |db.memberships| <= k < |r.db.memberships| ensures r.db.memberships[k].identityID == identityID {
        if k < |db2.memberships| {
          assert r.db.memberships[k] == db2.memberships[k];
        }
      }
    }
  }

  /**
   * Every membership the loop inserts is for a group it created (an ID at
   * or above the store's next ID on entry) or for a group of the snapshot
   * named by one of the names joined.
   */
  lemma {:induction false} JoinGroupsNewMembers(
    db: Db, identityID: ID, providerID: ID, snapshot: seq<GroupRef>, names: seq<string>,
    userGroups: seq<GroupRef>, faults: DbStep -> Option<Error>)
    ensures var r := JoinGroups(db, identityID, providerID, snapshot, names, userGroups, faults);
            r.Assigned? ==>
              db.memberships <= r.db.memberships && db.nextID <= r.db.nextID
              && forall k :: |db.memberships| <= k < |r.db.memberships| ==>
                   r.db.memberships[k].groupID >= db.nextID
                   || exists x :: x in snapshot && x.id == r.db.memberships[k].groupID && x.name in names
    decreases |names|
  {
    var r := JoinGroups(db, identityID, providerID, snapshot, names, userGroups, faults);
    if |names| > 0 && r.Assigned? {
      var name := names[0];
      var groupID := JoinedID(db, snapshot, name);
      var db2 := WithMembership(WithGroup(db, providerID, snapshot, name), identityID, groupID);
      JoinStep(db, identityID, providerID, snapshot, names, userGroups, faults);
      JoinGroupsNewMembers(db2, identityID, providerID, snapshot, names[1..], userGroups + [GroupRef(groupID, name)], faults);
      assert groupID >= db.nextID || exists x :: x in snapshot && x.id == groupID && x.name in names by {
        if FindByName(snapshot, name).Some? {
          assert GroupRef(groupID, name) in snapshot;
        }
      }
      forall k | |db.memberships| <= k < |r.db.memberships|
        ensures r.db.memberships[k].groupID >= db.nextID
                || exists x :: x in snapshot && x.id == r.db.memberships[k].groupID && x.name in names
      {
        if k < |db2.memberships| {
          assert r.db.memberships[k] == db2.memberships[k];
          assert db2.memberships[k] == Membership(identityID, groupID);
        } else if r.db.memberships[k].groupID < db.nextID {
          var x :| x in snapshot && x.id == r.db.memberships[k].groupID && x.name in names[1..];
          assert x.name in names;
        }
      }
    }
  }

  /** When the loop completes, the turn for the first name was taken in full. */
  lemma JoinStep(
    db: Db, identityID: ID, providerID: ID, snapshot: seq<GroupRef>, names: seq<string>,
    userGroups: seq<GroupRef>, faults: DbStep -> Option<Error>)
    requires |names| > 0 && JoinGroups(db, identityID, providerID, snapshot, names, userGroups, faults).Assigned?
    ensures var groupID := JoinedID(db, snapshot, names[0]);
            JoinGroups(db, identityID, providerID, snapshot, names, userGroups, faults)
            == JoinGroups(WithMembership(WithGroup(db, providerID, snapshot, names[0]), identityID, groupID),
                          identityID, providerID, snapshot, names[1..], userGroups + [GroupRef(groupID, names[0])], faults)
  {
  }

  /**
   * Each name joined lands at the end of the user's list, in order; a group
   * the snapshot already had is reused rather than created again.
   */
  lemma {:induction false} JoinGroupsUserGroups(
    db: Db, identityID: ID, providerID: ID, snapshot: seq<GroupRef>, names: seq<string>,
    userGroups: seq<GroupRef>, faults: DbStep -> Option<Error>)
    ensures var r := JoinGroups(db, identityID, providerID, snapshot, names, userGroups, faults);
            r.Assigned? ==>
              |r.userGroups| == |userGroups| + |names| && userGroups <= r.userGroups
              && forall k :: 0 <= k < |names| ==>
                   r.userGroups[|userGroups| + k].name == names[k]
                   && (FindByName(snapshot, names[k]).Some? ==>
                         r.userGroups[|userGroups| + k].id == FindByName(snapshot, names[k]).value)
    decreases |names|
  {
    var r := JoinGroups(db, identityID, providerID, snapshot, names, userGroups, faults);
    if |names| > 0 && r.Assigned? {
      var name := names[0];
      var groupID := JoinedID(db, snapshot, name);
      var db2 := WithMembership(WithGroup(db, providerID, snapshot, name), identityID, groupID);
      var ug := userGroups + [GroupRef(groupID, name)];
      JoinStep(db, identityID, providerID, snapshot, names, userGroups, faults);
      JoinGroupsUserGroups(db2, identityID, providerID, snapshot, names[1..], ug, faults);
      assert r.userGroups[|userGroups|] == ug[|userGroups|];
      forall k | 1 <= k < |names|
        ensures r.userGroups[|userGroups| + k].name == names[k]
                && (FindByName(snapshot, names[k]).Some? ==>
                      r.userGroups[|userGroups| + k].id == FindByName(snapshot, names[k]).value)
      {
        assert |ug| + (k - 1) == |userGroups| + k;
        assert names[1..][k - 1] == names[k];
      }
    }
  }

  /** Every group the loop appends to the user's list exists, and the user is a member of it. */
  lemma {:induction false} JoinGroupsMember(
    db: Db, identityID: ID, providerID: ID, snapshot: seq<GroupRef>, names: seq<string>,
    userGroups: seq<GroupRef>, faults: DbStep -> Option<Error>)
    requires SnapshotOf(db, snapshot)
    ensures var r := JoinGroups(db, identityID, providerID, snapshot, names, userGroups, faults);
            r.Assigned? ==>
              forall k :: |userGroups| <= k < |r.userGroups| ==>
                r.userGroups[k] in Refs(r.db.groups) && Membership(identityID, r.userGroups[k].id) in r.db.memberships
    decreases |names|
  {
    var r := JoinGroups(db, identityID, providerID, snapshot, names, userGroups, faults);
    JoinGroupsUserGroups(db, identityID, providerID, snapshot, names, userGroups, faults);
    if |names| > 0 && r.Assigned? {
      var name := names[0];
      var groupID := JoinedID(db, snapshot, name);
      var db2 := WithMembership(WithGroup(db, providerID, snapshot, name), identityID, groupID);
      var ug := userGroups + [GroupRef(groupID, name)];
      JoinStep(db, identityID, providerID, snapshot, names, userGroups, faults);
      JoinOne(db, identityID, providerID, snapshot, name);
      JoinGroupsMember(db2, identityID, providerID, snapshot, names[1..], ug, faults);
      JoinGroupsUserGroups(db2, identityID, providerID, snapshot, names[1..], ug, faults);
      JoinGroupsStore(db2, identityID, providerID, snapshot, names[1..], ug, faults);
      RefsGrow(db2.groups, r.db.groups);
      assert r.userGroups[|userGroups|] == ug[|userGroups|];
    }
  }

  lemma RefInGroups(groups: seq<Group>, x: GroupRef)
    requires x in Refs(groups)
    ensures x.id in GroupIDs(groups)
  {
    var g :| g in groups && GroupRef(g.id, g.name) == x;
  }

  lemma RefsGrow(a: seq<Group>, b: seq<Group>)
    requires a <= b
    ensures Refs(a) <= Refs(b) && GroupIDs(a) <= GroupIDs(b)
  {
    forall x | x in Refs(a) ensures x in Refs(b) {
      var g :| g in a && GroupRef(g.id, g.name) == x;
      var k :| 0 <= k < |a| && a[k] == g;
      assert b[k] == g;
    }
    forall i | i in GroupIDs(a) ensures i in GroupIDs(b) {
      var g :| g in a && g.id == i;
      var k :| 0 <= k < |a| && a[k] == g;
      assert b[k] == g;
    }
  }

  /** The removal phase keeps the store well formed and free of duplicate memberships, and the user's list as the filter. */
  lemma LeavePhase(db: Db, pu: ProviderUser, identityID: ID, userGroups: seq<GroupRef>, newGroups: seq<string>, now: int)
    requires WellFormed(db) && NoDuplicates(db.memberships) && UniqueNames(userGroups)
    ensures var removed := Subtract(pu.groups, newGroups);
            var db2 := LeaveStore(RecordProviderGroups(db, pu, newGroups, now), identityID, removed);
            WellFormed(db2) && NoDuplicates(db2.memberships)
            && db2.providerUsers == SaveProviderUser(db.providerUsers, pu.(groups := newGroups, lastUpdate := now))
            && LeaveList(userGroups, removed).Some?
            && (forall g :: g in Elements(LeaveList(userGroups, removed).value) <==> g in userGroups && g.name !in removed)
  {
    var removed := Subtract(pu.groups, newGroups);
    var db1 := RecordProviderGroups(db, pu, newGroups, now);
    var s0 := GroupSlice(userGroups, |userGroups|);
    assert Elements(s0) == userGroups;
    RemoveGroupsUnique(s0, removed);
    if |removed| > 0 {
      KeepNoDuplicates(db1.memberships, (m: Membership) => !(m.identityID == identityID && m.groupID in GroupIDsNamed(db1.groups, removed)));
    }
  }

  /**
   * `AssignIdentityToGroups` on a well-formed store, for a user whose group
   * list has distinct names: it never panics; on success the provider's
   * list is recorded as given, no group to leave remains in the user's
   * list while every other group stays, each group to join is there with
   * a membership row, and membership rows stay free of duplicates. The
   * user's rows for the groups left are deleted (and, with unique group
   * IDs, none comes back), while every other row stays.
   */
  lemma AssignIdentityToGroupsSpec(
    db: Db, user: Identity, userGroups: seq<GroupRef>, provider: Provider, newGroups: seq<string>,
    now: int, faults: DbStep -> Option<Error>)
    requires WellFormed(db) && NoDuplicates(db.memberships) && UniqueNames(userGroups)
    ensures var r := AssignIdentityToGroups(db, user, userGroups, provider, newGroups, now, faults);
            var found := GetProviderUser(db.providerUsers, provider.id, user.id);
            r != Panicked
            && (found.Err? ==> r == Failed(found.error))
            && (r.Assigned? ==>
                  var removed := Subtract(found.value.groups, newGroups);
                  var added := Subtract(newGroups, found.value.groups);
                  GetProviderUser(r.db.providerUsers, provider.id, user.id)
                    == Ok(found.value.(groups := newGroups, lastUpdate := now))
                  && (forall g :: g in r.userGroups ==> g.name !in removed)
                  && (forall g :: g in userGroups && g.name !in removed ==> g in r.userGroups)
                  && (forall k :: 0 <= k < |added| ==>
                        exists g :: g in r.userGroups && g.name == added[k] && Membership(user.id, g.id) in r.db.memberships)
                  && NoDuplicates(r.db.memberships) && WellFormed(r.db)
                  && (forall m :: m in db.memberships && m.identityID != user.id ==> m in r.db.memberships)
                  && (forall m :: m in db.memberships && m.identityID == user.id && m.groupID !in GroupIDsNamed(db.groups, removed)
                                  ==> m in r.db.memberships)
                  && (UniqueGroupIDs(db.groups) ==>
                        forall m :: m in r.db.memberships && m.identityID == user.id ==>
                          m.groupID !in GroupIDsNamed(db.groups, removed)))
  {
    var r := AssignIdentityToGroups(db, user, userGroups, provider, newGroups, now, faults);
    var found := GetProviderUser(db.providerUsers, provider.id, user.id);
    if found.Ok? {
      LeavePhase(db, found.value, user.id, userGroups, newGroups, now);
      if r.Assigned? {
        AssignedOutcome(db, user, userGroups, provider, newGroups, now, faults, found.value);
        AssignMemberships(db, user, userGroups, provider, newGroups, now, faults, found.value);
      }
    }
  }

  /** The success case of `AssignIdentityToGroupsSpec`, for the provider user found. */
  lemma AssignedOutcome(
    db: Db, user: Identity, userGroups: seq<GroupRef>, provider: Provider, newGroups: seq<string>,
    now: int, faults: DbStep -> Option<Error>, pu: ProviderUser)
    requires WellFormed(db) && NoDuplicates(db.memberships) && UniqueNames(userGroups)
    requires GetProviderUser(db.providerUsers, provider.id, user.id) == Ok(pu)
    requires AssignIdentityToGroups(db, user, userGroups, provider, newGroups, now, faults).Assigned?
    ensures var r := AssignIdentityToGroups(db, user, userGroups, provider, newGroups, now, faults);
            var removed := Subtract(pu.groups, newGroups);
            var added := Subtract(newGroups, pu.groups);
            GetProviderUser(r.db.providerUsers, provider.id, user.id) == Ok(pu.(groups := newGroups, lastUpdate := now))
            && (forall g :: g in r.userGroups ==> g.name !in removed)
            && (forall g :: g in userGroups && g.name !in removed ==> g in r.userGroups)
            && (forall k :: 0 <= k < |added| ==>
                  exists g :: g in r.userGroups && g.name == added[k] && Membership(user.id, g.id) in r.db.memberships)
            && NoDuplicates(r.db.memberships) && WellFormed(r.db)
  {
    var r := AssignIdentityToGroups(db, user, userGroups, provider, newGroups, now, faults);
    var removed := Subtract(pu.groups, newGroups);
    var added := Subtract(newGroups, pu.groups);
    LeavePhase(db, pu, user.id, userGroups, newGroups, now);
    var db2 := LeaveStore(RecordProviderGroups(db, pu, newGroups, now), user.id, removed);
    var e := Elements(LeaveList(userGroups, removed).value);
    var snapshot := GroupRefsNamed(db2.groups, added);
    assert r == JoinGroups(db2, user.id, provider.id, snapshot, added, e, faults);
    AssignJoined(db2, user.id, provider.id, snapshot, added, e, faults, removed, userGroups);
    SavedProviderUserFound(db.providerUsers, pu.(groups := newGroups, lastUpdate := now));
    SubtractDisjoint(pu.groups, newGroups);
  }

  /** Group IDs identify groups (the table's primary key). */
  predicate UniqueGroupIDs(groups: seq<Group>) {
    forall g1, g2 :: g1 in groups && g2 in groups && g1.id == g2.id ==> g1 == g2
  }

  /** With unique IDs, an existing group named by a name not being left is not one of the groups left. */
  lemma NotLeftByName(groups: seq<Group>, removed: seq<string>, x: GroupRef)
    requires UniqueGroupIDs(groups) && x in Refs(groups) && x.name !in removed
    ensures x.id !in GroupIDsNamed(groups, removed)
  {
    var g' :| g' in groups && GroupRef(g'.id, g'.name) == x;
    assert forall g :: g in groups && g.id == x.id ==> g == g';
  }

  /**
   * The memberships of a successful call: the user's rows for groups left
   * are deleted and, when group IDs are unique, none is inserted again;
   * every other row, the user's or anyone else's, stays.
   */
  lemma AssignMemberships(
    db: Db, user: Identity, userGroups: seq<GroupRef>, provider: Provider, newGroups: seq<string>,
    now: int, faults: DbStep -> Option<Error>, pu: ProviderUser)
    requires WellFormed(db)
    requires GetProviderUser(db.providerUsers, provider.id, user.id) == Ok(pu)
    requires AssignIdentityToGroups(db, user, userGroups, provider, newGroups, now, faults).Assigned?
    ensures var r := AssignIdentityToGroups(db, user, userGroups, provider, newGroups, now, faults);
            var left := GroupIDsNamed(db.groups, Subtract(pu.groups, newGroups));
            (forall m :: m in db.memberships && !(m.identityID == user.id && m.groupID in left) ==> m in r.db.memberships)
            && (UniqueGroupIDs(db.groups) ==>
                  forall m :: m in r.db.memberships && m.identityID == user.id ==> m.groupID !in left)
  {
    var r := AssignIdentityToGroups(db, user, userGroups, provider, newGroups, now, faults);
    var removed := Subtract(pu.groups, newGroups);
    var added := Subtract(newGroups, pu.groups);
    var left := GroupIDsNamed(db.groups, removed);
    var db2 := LeaveStore(RecordProviderGroups(db, pu, newGroups, now), user.id, removed);
    var e := Elements(LeaveList(userGroups, removed).value);
    var snapshot := GroupRefsNamed(db2.groups, added);
    assert r == JoinGroups(db2, user.id, provider.id, snapshot, added, e, faults);
    assert db2.groups == db.groups && db2.nextID == db.nextID;
    JoinGroupsNewMembers(db2, user.id, provider.id, snapshot, added, e, faults);
    forall m | m in db.memberships && !(m.identityID == user.id && m.groupID in left) ensures m in r.db.memberships {
      assert m in db2.memberships;
    }
    if UniqueGroupIDs(db.groups) {
      SubtractDisjoint(pu.groups, newGroups);
      forall m | m in r.db.memberships && m.identityID == user.id ensures m.groupID !in left {
        var k :| 0 <= k < |r.db.memberships| && r.db.memberships[k] == m;
        if k < |db2.memberships| {
          assert m in db2.memberships;
        } else if m.groupID < db.nextID {
          var x :| x in snapshot && x.id == m.groupID && x.name in added;
          NotLeftByName(db.groups, removed, x);
        }
      }
    }
  }

  /** The join phase seen from the whole call: what the removal phase left stays, and the joined groups follow. */
  lemma AssignJoined(
    db2: Db, identityID: ID, providerID: ID, snapshot: seq<GroupRef>, added: seq<string>,
    e: seq<GroupRef>, faults: DbStep -> Option<Error>, removed: seq<string>, userGroups: seq<GroupRef>)
    requires SnapshotOf(db2, snapshot) && NoDuplicates(db2.memberships)
    requires forall g :: g in e <==> g in userGroups && g.name !in removed
    requires forall x :: !(x in removed && x in added)
    requires JoinGroups(db2, identityID, providerID, snapshot, added, e, faults).Assigned?
    ensures var r := JoinGroups(db2, identityID, providerID, snapshot, added, e, faults);
            r.db.providerUsers == db2.providerUsers
            && (forall g :: g in r.userGroups ==> g.name !in removed)
            && (forall g :: g in userGroups && g.name !in removed ==> g in r.userGroups)
            && (forall k :: 0 <= k < |added| ==>
                  exists g :: g in r.userGroups && g.name == added[k] && Membership(identityID, g.id) in r.db.memberships)
            && NoDuplicates(r.db.memberships) && WellFormed(r.db)
  {
    var r := JoinGroups(db2, identityID, providerID, snapshot, added, e, faults);
    JoinGroupsStore(db2, identityID, providerID, snapshot, added, e, faults);
    JoinGroupsUserGroups(db2, identityID, providerID, snapshot, added, e, faults);
    JoinGroupsMember(db2, identityID, providerID, snapshot, added, e, faults);
    forall g | g in r.userGroups ensures g.name !in removed {
      var i :| 0 <= i < |r.userGroups| && r.userGroups[i] == g;
      if i < |e| {
        assert r.userGroups[i] == e[i];
      } else {
        assert g.name == added[i - |e|];
      }
    }
    forall g | g in userGroups && g.name !in removed ensures g in r.userGroups {
      var i :| 0 <= i < |e| && e[i] == g;
      assert r.userGroups[i] == g;
    }
    forall k | 0 <= k < |added|
      ensures exists g :: g in r.userGroups && g.name == added[k] && Membership(identityID, g.id) in r.db.memberships
    {
      var g := r.userGroups[|e| + k];
      assert g in r.userGroups;
    }
  }

  /** The IDs of the identities the selectors pick. */
  function SelectedIDs(identities: seq<Identity>, selected: Identity -> bool): set<ID> {
    set x | x in identities && selected(x) :: x.id
  }

  /** The grants of one identity go: `DeleteGrants(BySubject(identity))`. */
  function DropGrantsOf(grants: seq<Grant>, id: ID): (r: seq<Grant>)
    ensures forall g :: g in r <==> g in grants && g.subject != IdentitySubject(id)
  {
    Keep(grants, (g: Grant) => g.subject != IdentitySubject(id))
  }

  /** `ListGroups(ByGroupMember(id))`: the groups the identity is a member of. */
  function GroupsOf(groups: seq<Group>, memberships: seq<Membership>, id: ID): (r: seq<Group>)
    ensures forall g :: g in r <==> g in groups && Membership(id, g.id) in memberships
  {
    Keep(groups, (g: Group) => Membership(id, g.id) in memberships)
  }

  /** `RemoveUsersFromGroup(groupID, [id])`. */
  function DropMembership(memberships: seq<Membership>, id: ID, groupID: ID): (r: seq<Membership>)
    ensures forall m :: m in r <==> m in memberships && m != Membership(id, groupID)
  {
    Keep(memberships, (m: Membership) => m != Membership(id, groupID))
  }

  /** The loop `for _, group := range groups { RemoveUsersFromGroup(group.ID, [id]) }`. */
  method LeaveEachGroup(memberships: seq<Membership>, groups: seq<Group>, id: ID, faults: DbStep -> Option<Error>)
    returns (r: Result<seq<Membership>, Error>)
    ensures r.Err? ==> exists step :: faults(step) == Some(r.error)
    ensures r.Ok? ==> forall m :: m in r.value <==>
              m in memberships && !(m.identityID == id && m.groupID in GroupIDs(groups))
  {
    var current := memberships;
    var u := 0;
    while u < |groups|
      invariant 0 <= u <= |groups|
      invariant forall m :: m in current <==>
                  m in memberships && !(m.identityID == id && m.groupID in GroupIDs(groups[..u]))
    {
      if faults(RemoveFromGroupStep(groups[u].id, id)).Some? {
        return Err(faults(RemoveFromGroupStep(groups[u].id, id)).value);
      }
      current := DropMembership(current, id, groups[u].id);
      assert GroupIDs(groups[..u + 1]) == GroupIDs(groups[..u]) + {groups[u].id} by {
        assert groups[..u + 1] == groups[..u] + [groups[u]];
      }
      u := u + 1;
    }
    assert groups[..u] == groups;
    r := Ok(current);
  }

  /**
   * One turn of the `DeleteIdentities` loop: drop the identity's grants,
   * then its memberships in every group it belongs to.
   */
  method DetachIdentity(db: Db, grants: seq<Grant>, memberships: seq<Membership>, id: ID, faults: DbStep -> Option<Error>)
    returns (r: Result<(seq<Grant>, seq<Membership>), Error>)
    ensures r.Err? ==> exists step :: faults(step) == Some(r.error)
    ensures r.Ok? ==> r.value.0 == DropGrantsOf(grants, id)
    ensures r.Ok? ==> forall m :: m in r.value.1 ==> m in memberships
    ensures r.Ok? ==> forall m :: m in memberships && m.identityID != id ==> m in r.value.1
    ensures r.Ok? ==> forall m :: m in r.value.1 && m.groupID in GroupIDs(db.groups) ==> m.identityID != id
  {
    if faults(DeleteGrantsStep(id)).Some? {
      return Err(faults(DeleteGrantsStep(id)).value);
    }
    var grants' := DropGrantsOf(grants, id);
    if faults(ListGroupsStep(id)).Some? {
      return Err(faults(ListGroupsStep(id)).value);
    }
    var groups := GroupsOf(db.groups, memberships, id);
    var left := LeaveEachGroup(memberships, groups, id, faults);
    if left.Err? {
      return Err(left.error);
    }
    forall m | m in memberships && m.identityID == id && m.groupID in GroupIDs(db.groups)
      ensures m.groupID in GroupIDs(groups)
    {
      var g :| g in db.groups && g.id == m.groupID;
      assert g in groups;
    }
    r := Ok((grants', left.value));
  }

  /**
   * `DeleteIdentities(selectors)`: list the selected identities; for each,
   * delete its grants and take it out of every group it belongs to; then
   * delete the identities by ID. `selected` stands for the selectors.
   */
  method DeleteIdentities(db: Db, selected: Identity -> bool, faults: DbStep -> Option<Error>) returns (r: Result<Db, Error>)
    ensures r.Err? ==> exists step :: faults(step) == Some(r.error)
    ensures r.Ok? ==>
              r.value.groups == db.groups && r.value.providerUsers == db.providerUsers && r.value.nextID == db.nextID
    // exactly the selected IDs disappear
    ensures r.Ok? ==> forall x :: x in r.value.identities <==> x in db.identities && x.id !in SelectedIDs(db.identities, selected)
    // no grant to a deleted identity remains, and every other grant does
    ensures r.Ok? ==> forall g :: g in r.value.grants <==>
              g in db.grants && !(g.subject.IdentitySubject? && g.subject.id in SelectedIDs(db.identities, selected))
    // with memberships pointing at existing groups, no membership of a deleted identity remains, and every other does
    ensures r.Ok? && WellFormed(db) ==> forall m :: m in r.value.memberships <==>
              m in db.memberships && m.identityID !in SelectedIDs(db.identities, selected)
  {
    if faults(ListIdentitiesStep).Some? {
      return Err(faults(ListIdentitiesStep).value);
    }
    var toDelete := Keep(db.identities, selected);
    var ids: seq<ID> := [];
    var grants := db.grants;
    var memberships := db.memberships;
    var t := 0;
    while t < |toDelete|
      invariant 0 <= t <= |toDelete|
      invariant |ids| == t && forall k :: 0 <= k < t ==> ids[k] == toDelete[k].id
      invariant forall g :: g in grants <==>
                  g in db.grants && !(g.subject.IdentitySubject? && g.subject.id in ids)
      invariant forall m :: m in memberships ==> m in db.memberships
      invariant forall m :: m in db.memberships && m.identityID !in ids ==> m in memberships
      invariant forall m :: m in memberships && m.groupID in GroupIDs(db.groups) ==> m.identityID !in ids
    {
      var id := toDelete[t].id;
      var step := DetachIdentity(db, grants, memberships, id, faults);
      if step.Err? {
        return Err(step.error);
      }
      grants, memberships := step.value.0, step.value.1;
      ids := ids + [id];
      t := t + 1;
    }
    assert forall x :: x in ids <==> x in SelectedIDs(db.identities, selected) by {
      forall x | x in SelectedIDs(db.identities, selected) ensures x in ids {
        var i :| i in db.identities && selected(i) && i.id == x;
        var k :| 0 <= k < |toDelete| && toDelete[k] == i;
        assert ids[k] == x;
      }
      forall x | x in ids ensures x in SelectedIDs(db.identities, selected) {
        var k :| 0 <= k < |ids| && ids[k] == x;
        assert toDelete[k] in toDelete;
      }
    }
    if faults(DeleteIdentitiesStep).Some? {
      return Err(faults(DeleteIdentitiesStep).value);
    }
    var remaining := Keep(db.identities, (x: Identity) => x.id !in ids);
    r := Ok(db.(identities := remaining, grants := grants, memberships := memberships));
  }
}

=== FILE: login_layout.dfy ===
/**
 * The layout around the sign-in pages (ui/components/layouts/login.js):
 * wait for the session fetch, send a signed-in user home except on the
 * page that finishes a one-time-password login, and render otherwise.
 * The fetch result is an input: the cached user, and whether the fetch
 * failed.
 */
module LoginLayout {
  import opened Wrappers
  import opened Views
  import Dashboard

  /** `auth?.id` is truthy. */
  predicate SignedIn(auth: Option<SelfUser>) {
    auth.Some? && auth.value.id != ""
  }

  function Gate(auth: Option<SelfUser>, fetchFailed: bool, pathname: string): (v: View)
    ensures auth.None? && !fetchFailed ==> v == Nothing
    ensures v == Render <==> (auth.Some? || fetchFailed) && (SignedIn(auth) ==> pathname == "/login/finish")
    ensures v == Replace("/") <==> SignedIn(auth) && pathname != "/login/finish"
    ensures v == Nothing || v == Render || v == Replace("/")
  {
    if auth.None? && !fetchFailed then Nothing
    else if SignedIn(auth) && pathname != "/login/finish" then Replace("/")
    else Render
  }

  /**
   * Signing out from the dashboard lands on a login form that stays: once
   * the session fetch fails (the server session is gone), the layout
   * renders on "/login" instead of bouncing the browser back to "/".
   */
  lemma SignOutShowsLoginForm(b: Dashboard.Browser)
    ensures var after := Dashboard.Run(b, Dashboard.Logout);
            Gate(after.cached, !after.serverSession, after.location) == Render
  {
    Dashboard.SignOutEndsSession(b);
  }
}

=== FILE: login_page.dfy ===
/**
 * The sign-in page (ui/pages/login/index.js): the identity-provider
 * buttons and the authorization request each one starts (section 4.1.1
 * of RFC 6749, authorization code grant), and the password form's submit.
 *
 * The random `state`, the page origin and the fetched providers are
 * inputs; local storage and the browser location are effects.
 */
module LoginPage {
  import opened Wrappers
  import opened Strings
  import opened Seqs
  import opened Urls

  /** A provider as `/api/providers` lists it. */
  datatype Provider = Provider(id: string, name: string, kind: string, clientID: string, authURL: string, scopes: seq<string>)

  /** The providers that get a button: those with a (non-empty) kind. */
  function Buttons(providers: seq<Provider>): (r: seq<Provider>)
    ensures forall p :: p in r <==> p in providers && p.kind != ""
  {
    Keep(providers, (p: Provider) => p.kind != "")
  }

  /** The "or via your identity provider" hint and the buttons appear only once a non-empty list has loaded. */
  predicate ShowProviders(providers: Option<seq<Provider>>) {
    providers.Some? && |providers.value| > 0
  }

  /** The redirect URI handed to the provider. */
  function RedirectURL(origin: string): string {
    origin + "/login/callback"
  }

  /** The parameters of the authorization request `oidcLogin` sends, in the order it writes them. */
  function AuthorizationParams(p: Provider, origin: string, state: string): seq<(string, string)> {
    [("redirect_uri", RedirectURL(origin)), ("client_id", p.clientID), ("response_type", "code"),
     ("scope", Join(p.scopes, "+")), ("state", state)]
  }

  /** The URL `oidcLogin` navigates to. */
  function AuthorizationURL(p: Provider, origin: string, state: string): string {
    p.authURL + "?" + Query(AuthorizationParams(p, origin, state))
  }

  lemma LiteralsSafe()
    ensures QuerySafe("/login/callback") && QuerySafe("code")
    ensures QuerySafe("redirect_uri") && QuerySafe("client_id") && QuerySafe("response_type")
    ensures QuerySafe("scope") && QuerySafe("state")
  {
    WordSafe("/login/callback");
    WordSafe("code");
    WordSafe("redirect_uri");
    WordSafe("client_id");
    WordSafe("response_type");
    WordSafe("scope");
    WordSafe("state");
  }

  lemma AuthorizationParamsSafe(p: Provider, origin: string, state: string)
    requires QuerySafe(origin) && QuerySafe(p.clientID) && QuerySafe(state)
    requires forall i :: 0 <= i < |p.scopes| ==> QuerySafe(p.scopes[i])
    ensures ParamsSafe(AuthorizationParams(p, origin, state))
  {
    JoinAvoids(p.scopes, "+", '?');
    JoinAvoids(p.scopes, "+", '&');
    JoinAvoids(p.scopes, "+", '=');
    LiteralsSafe();
    ConcatSafe(origin, "/login/callback");
  }

  /**
   * The authorization request carries exactly the five parameters of
   * section 4.1.1 of RFC 6749 this page sends, in order, with the values
   * the provider and the page supplied: the callback on this origin, the
   * client, the code flow, the scopes joined with '+', and the state.
   * That holds when no value contains a character that would end it early.
   */
  lemma AuthorizationRequestParses(p: Provider, origin: string, state: string)
    requires '?' !in p.authURL
    requires QuerySafe(origin) && QuerySafe(p.clientID) && QuerySafe(state)
    requires forall i :: 0 <= i < |p.scopes| ==> QuerySafe(p.scopes[i])
    ensures ParseURL(AuthorizationURL(p, origin, state)) ==
            (p.authURL, [("redirect_uri", origin + "/login/callback"), ("client_id", p.clientID),
                         ("response_type", "code"), ("scope", Join(p.scopes, "+")), ("state", state)])
  {
    AuthorizationParamsSafe(p, origin, state);
    URLRoundTrip(p.authURL, AuthorizationParams(p, origin, state));
  }

  /** The browser-side effects of a provider button, in order. */
  datatype Effect = Store(key: string, value: string) | Navigate(url: string)

  /**
   * `oidcLogin`: the provider ID, the state and the redirect URL are
   * stored before the browser leaves for the provider, so the callback
   * page can check the state and finish the exchange.
   */
  function OidcLogin(p: Provider, origin: string, state: string): (effects: seq<Effect>)
    ensures |effects| == 4 && effects[3] == Navigate(AuthorizationURL(p, origin, state))
    ensures forall i :: 0 <= i < 3 ==> effects[i].Store?
    ensures Store("providerID", p.id) in effects && Store("state", state) in effects
            && Store("redirectURL", RedirectURL(origin)) in effects
  {
    [Store("providerID", p.id), Store("state", state), Store("redirectURL", RedirectURL(origin)),
     Navigate(AuthorizationURL(p, origin, state))]
  }

  /** The Login button. */
  predicate LoginDisabled(name: string, password: string) {
    name == "" || password == ""
  }

  /** The body of a successful `POST /api/login`, as far as the page reads it. */
  datatype LoginResponse = LoginResponse(userID: string, passwordUpdateRequired: bool)

  /** Where the page sends the browser: a path and its query parameters. */
  datatype Route = Route(pathname: string, query: seq<(string, string)>)

  datatype Outcome = Outcome(refreshSession: bool, replace: Option<Route>, error: string)

  const InvalidCredentials := "Invalid credentials"

  /**
   * `onSubmit` given the response: a user who must change the password
   * goes to "/login/finish" with `user` set and the session is not
   * refreshed; any other success refreshes the session and goes home; any
   * failure only sets "Invalid credentials".
   */
  function OnSubmit(response: Result<LoginResponse, string>, priorError: string): (r: Outcome)
    ensures response.Err? ==> r == Outcome(false, None, InvalidCredentials)
    ensures response.Ok? && response.value.passwordUpdateRequired ==>
              r == Outcome(false, Some(Route("/login/finish", [("user", response.value.userID)])), priorError)
    ensures response.Ok? && !response.value.passwordUpdateRequired ==>
              r == Outcome(true, Some(Route("/", [])), priorError)
  {
    match response
    case Err(_) => Outcome(false, None, InvalidCredentials)
    case Ok(data) =>
      if data.passwordUpdateRequired then Outcome(false, Some(Route("/login/finish", [("user", data.userID)])), priorError)
      else Outcome(true, Some(Route("/", [])), priorError)
  }

  /**
   * The page leaves exactly when the login succeeded, refreshes the
   * session exactly when it also needs no password change, and writes the
   * error exactly when it failed; a success never touches the error, so a
   * message from an earlier failure stays until a field is edited.
   */
  lemma OnSubmitOutcomes(response: Result<LoginResponse, string>, priorError: string)
    ensures var r := OnSubmit(response, priorError);
            (r.replace.Some? <==> response.Ok?)
            && (r.refreshSession <==> response.Ok? && !response.value.passwordUpdateRequired)
            && (r.error == (if response.Err? then InvalidCredentials else priorError))
            && (r.replace.Some? && r.replace.value.pathname == "/login/finish" <==>
                  response.Ok? && response.value.passwordUpdateRequired)
  {
  }
}

=== FILE: models.dfy ===
/**
 * The server's records (`internal/server/models`) as far as the modelled
 * code reads or writes them. Identifiers are natural numbers; times and
 * durations are whole numbers on an abstract clock.
 */
module Models {

  type ID = nat

  /** An identity provider; its `ID` is compared with the built-in infra provider's. */
  datatype Provider = Provider(id: ID, name: string, kind: string, clientSecret: string)

  /** A user identity. */
  datatype Identity = Identity(id: ID, name: string, lastSeenAt: int)

  /** `models.ScopePasswordReset`: the key may only be used to reset a password. */
  datatype Scope = ScopePasswordReset

  /** An access key as the login flow fills it in. */
  datatype AccessKey = AccessKey(
    issuedFor: ID,
    issuedForIdentity: Identity,
    providerID: ID,
    expiresAt: int,
    extensionDeadline: int,
    extension: int,
    scopes: seq<Scope>)
}

=== FILE: password_reset.dfy ===
/**
 * The password reset form (ui/pages/settings/password-reset.js): a new
 * password typed twice, sent as an update of the signed-in user.
 */
module PasswordReset {
  import opened Wrappers
  import opened FieldErrors
  import opened Views
  import opened Urls

  datatype Form = Form(password: string, confirmPassword: string, shown: FormErrors)

  const Initial := Form("", "", NoErrors)

  /** The Reset button. */
  predicate SubmitDisabled(f: Form) {
    f.password == "" || f.confirmPassword == ""
  }

  datatype Edit = EditPassword(value: string) | EditConfirm(value: string)

  /** Either input's `onChange`: the field takes the value and both error states are cleared. */
  function OnEdit(f: Form, e: Edit): (r: Form)
    ensures r.shown == NoErrors
    ensures e.EditPassword? ==> r.password == e.value && r.confirmPassword == f.confirmPassword
    ensures e.EditConfirm? ==> r.confirmPassword == e.value && r.password == f.password
  {
    match e
    case EditPassword(v) => Form(v, f.confirmPassword, NoErrors)
    case EditConfirm(v) => Form(f.password, v, NoErrors)
  }

  /**
   * `PUT /api/users/${auth?.id}` with the signed-in user's fields and the
   * new password. Before `/api/users/self` has loaded, `auth?.id` is
   * undefined and the path says so.
   */
  datatype Request = UpdateUser(path: string, user: Option<SelfUser>, password: string)

  function UserPath(auth: Option<SelfUser>): string {
    "/api/users/" + (if auth.Some? then auth.value.id else "undefined")
  }

  /**
   * `onSubmit` up to the request: differing entries set the
   * `confirmPassword` error and send nothing; otherwise the confirmed
   * password goes out as an update of the signed-in user.
   */
  function Submit(f: Form, auth: Option<SelfUser>): (r: (Form, Option<Request>))
    ensures f.password != f.confirmPassword ==>
              r.1.None? && r.0 == f.(shown := f.shown.(errors := map["confirmPassword" := PasswordsDoNotMatch]))
    ensures f.password == f.confirmPassword ==> r.0 == f && r.1.Some?
    ensures r.1.Some? ==> r.1.value.user == auth && r.1.value.password == f.password == f.confirmPassword
    ensures r.1.Some? && auth.Some? ==> r.1.value.path == "/api/users/" + auth.value.id
  {
    if f.password != f.confirmPassword then
      (f.(shown := f.shown.(errors := map["confirmPassword" := PasswordsDoNotMatch])), None)
    else (f, Some(UpdateUser(UserPath(auth), auth, f.confirmPassword)))
  }

  /**
   * Differing entries send nothing; retyping the confirmation to match
   * clears the error, and the next submit sends exactly the typed
   * password. A failed request keeps both entries, so a retry sends the
   * same request again.
   */
  lemma MismatchThenMatchSendsOnce(f: Form, auth: Option<SelfUser>, e: ApiError)
    requires f.password != f.confirmPassword
    ensures var first := Submit(f, auth);
            var fixed := OnEdit(first.0, EditConfirm(f.password));
            var second := Submit(fixed, auth);
            first.1.None? && fixed.shown == NoErrors
            && second.1 == Some(UpdateUser(UserPath(auth), auth, f.password))
            && Submit(Finish(second.0, Err(e)).0, auth).1 == second.1
  {
  }

  /** Where a successful reset leads: the account tab of the settings, flagged as reset. */
  const ResetDone := "/settings?tab=account&resetPassword=success"

  /** The response: success replaces the location with `ResetDone`; failure shows the errors. */
  function Finish(f: Form, response: Result<(), ApiError>): (r: (Form, Option<string>))
    ensures response.Ok? ==> r == (f, Some(ResetDone))
    ensures response.Err? ==> r.1.None? && r.0 == f.(shown := ShowFailure(f.shown, response.error))
  {
    match response
    case Ok(_) => (f, Some(ResetDone))
    case Err(e) => (f.(shown := ShowFailure(f.shown, e)), None)
  }

  const ResetParams := [("tab", "account"), ("resetPassword", "success")]

  lemma ResetParamsSafe()
    ensures ParamsSafe(ResetParams)
  {
    WordSafe("tab");
    WordSafe("account");
    WordSafe("resetPassword");
    WordSafe("success");
  }

  /** The query `ResetParams` writes, spelled out. */
  lemma ResetQueryText()
    ensures Query(ResetParams) == "tab=account" + "&" + "resetPassword=success"
  {
    var written := seq(|ResetParams|, i requires 0 <= i < |ResetParams| => ResetParams[i].0 + "=" + ResetParams[i].1);
    assert written[0] == "tab=account" by {
      assert "tab" + "=" + "account" == "tab=account";
    }
    assert written[1] == "resetPassword=success" by {
      assert "resetPassword" + "=" + "success" == "resetPassword=success";
    }
    assert written == ["tab=account"] + ["resetPassword=success"];
    Strings.JoinCons("tab=account", ["resetPassword=success"], "&");
    assert Strings.Join(["resetPassword=success"], "&") == "resetPassword=success";
  }

  lemma ResetURLPieces()
    ensures "/settings" + "?" + "tab=account" == "/settings?tab=account"
    ensures "&" + "resetPassword=success" == "&resetPassword=success"
  {
  }

  lemma ResetURLConcat()
    ensures "/settings?tab=account" + "&resetPassword=success" == ResetDone
  {
  }

  lemma Reassociate(a: string, b: string, c: string)
    ensures a + (b + c) == a + b + c
  {
  }

  /** `ResetDone` is "/settings" followed by the query `ResetParams` writes. */
  lemma ResetURLText()
    ensures "/settings" + "?" + Query(ResetParams) == ResetDone
  {
    ResetQueryText();
    ResetURLPieces();
    ResetURLConcat();
    Reassociate("tab=account", "&", "resetPassword=success");
    Reassociate("/settings" + "?", "tab=account", "&" + "resetPassword=success");
  }

  /** The settings page reads `tab=account` and `resetPassword=success` off the redirect. */
  lemma ResetDoneOpensAccountTab()
    ensures ParseURL(ResetDone) == ("/settings", [("tab", "account"), ("resetPassword", "success")])
  {
    ResetURLText();
    ResetParamsSafe();
    URLRoundTrip("/settings", ResetParams);
  }
}

=== FILE: provider_access.dfy ===
/**
 * Authorization rules for identity providers (internal/access/provider.go).
 *
 * The provider table is a sequence of records. `RequireInfraRole` is
 * opaque and given as its verdict (`None` when the caller holds the infra
 * admin role). The `data` package's writes are given the meaning their
 * names state, each with an injected failure: insert appends, save
 * replaces the record with the same ID, delete drops records by ID.
 */
module ProviderAccess {
  import opened Wrappers
  import opened GoErrors
  import opened Models

  /** The result of a write: its error, if any, and the provider table afterwards. */
  datatype Outcome = Outcome(err: Option<Error>, providers: seq<Provider>)

  /** `data.CreateProvider`. */
  function InsertProvider(providers: seq<Provider>, p: Provider, dbErr: Option<Error>): (r: Outcome)
    ensures dbErr.Some? ==> r == Outcome(dbErr, providers)
    ensures dbErr.None? ==> r.err.None? && r.providers == providers + [p]
  {
    if dbErr.Some? then Outcome(dbErr, providers) else Outcome(None, providers + [p])
  }

  /** `data.SaveProvider`: every record with `p`'s ID becomes `p`. */
  function UpdateProvider(providers: seq<Provider>, p: Provider, dbErr: Option<Error>): (r: Outcome)
    ensures dbErr.Some? ==> r == Outcome(dbErr, providers)
    ensures dbErr.None? ==>
              r.err.None? && |r.providers| == |providers|
              && forall i :: 0 <= i < |providers| ==>
                   r.providers[i] == (if providers[i].id == p.id then p else providers[i])
  {
    if dbErr.Some? then Outcome(dbErr, providers)
    else Outcome(None, seq(|providers|, i requires 0 <= i < |providers| => if providers[i].id == p.id then p else providers[i]))
  }

  /** The providers whose ID is not `id`, in table order. */
  function WithoutID(providers: seq<Provider>, id: ID): (r: seq<Provider>)
    ensures forall p :: p in r <==> p in providers && p.id != id
    ensures |r| <= |providers|
  {
    if |providers| == 0 then []
    else (if providers[0].id == id then [] else [providers[0]]) + WithoutID(providers[1..], id)
  }

  /** `data.DeleteProviders(db, data.ByID(id))`. */
  function RemoveProvider(providers: seq<Provider>, id: ID, dbErr: Option<Error>): (r: Outcome)
    ensures dbErr.Some? ==> r == Outcome(dbErr, providers)
    ensures dbErr.None? ==> r.err.None? && r.providers == WithoutID(providers, id)
  {
    if dbErr.Some? then Outcome(dbErr, providers) else Outcome(None, WithoutID(providers, id))
  }

  /** `CreateProvider`: only the infra admin may add a provider. */
  function CreateProvider(providers: seq<Provider>, p: Provider, roleCheck: Option<Error>, dbErr: Option<Error>): (r: Outcome)
    ensures roleCheck.Some? ==> r == Outcome(roleCheck, providers)
    ensures roleCheck.None? ==> r == InsertProvider(providers, p, dbErr)
  {
    if roleCheck.Some? then Outcome(roleCheck, providers) else InsertProvider(providers, p, dbErr)
  }

  /**
   * `SaveProvider`: the infra provider is refused first, whatever the
   * caller's role; then only the infra admin may save.
   */
  function SaveProvider(infraProviderID: ID, providers: seq<Provider>, p: Provider, roleCheck: Option<Error>, dbErr: Option<Error>): (r: Outcome)
    ensures p.id == infraProviderID ==>
              r == Outcome(Some(Annotate(ErrBadRequest, "the infra provider can not be modified")), providers)
    ensures p.id != infraProviderID && roleCheck.Some? ==> r == Outcome(roleCheck, providers)
    ensures p.id != infraProviderID && roleCheck.None? ==> r == UpdateProvider(providers, p, dbErr)
  {
    if infraProviderID == p.id then
      Outcome(Some(Annotate(ErrBadRequest, "the infra provider can not be modified")), providers)
    else if roleCheck.Some? then Outcome(roleCheck, providers)
    else UpdateProvider(providers, p, dbErr)
  }

  /** `DeleteProvider`: the same order of checks as `SaveProvider`. */
  function DeleteProvider(infraProviderID: ID, providers: seq<Provider>, id: ID, roleCheck: Option<Error>, dbErr: Option<Error>): (r: Outcome)
    ensures id == infraProviderID ==>
              r == Outcome(Some(Annotate(ErrBadRequest, "the infra provider can not be deleted")), providers)
    ensures id != infraProviderID && roleCheck.Some? ==> r == Outcome(roleCheck, providers)
    ensures id != infraProviderID && roleCheck.None? ==> r == RemoveProvider(providers, id, dbErr)
  {
    if infraProviderID == id then
      Outcome(Some(Annotate(ErrBadRequest, "the infra provider can not be deleted")), providers)
    else if roleCheck.Some? then Outcome(roleCheck, providers)
    else RemoveProvider(providers, id, dbErr)
  }

  /** `GetProvider`: a lookup by ID with no role check. */
  function GetProvider(providers: seq<Provider>, id: ID): (r: Result<Provider, Error>)
    ensures r.Ok? <==> exists p :: p in providers && p.id == id
    ensures r.Ok? ==> r.value in providers && r.value.id == id
    ensures r.Err? ==> Is(r.error, ErrNotFound)
  {
    if |providers| == 0 then Err(Error({ErrNotFound}, [Name(ErrNotFound)]))
    else if providers[0].id == id then Ok(providers[0])
    else GetProvider(providers[1..], id)
  }

  /** `data.ByOptionalName(name)` and one `data.NotName(x)` per excluded name. */
  predicate Selected(p: Provider, name: string, excludeByName: seq<string>) {
    (name == "" || p.name == name) && p.name !in excludeByName
  }

  function Filter(providers: seq<Provider>, name: string, excludeByName: seq<string>): (r: seq<Provider>)
    ensures forall p :: p in r <==> p in providers && Selected(p, name, excludeByName)
  {
    if |providers| == 0 then []
    else (if Selected(providers[0], name, excludeByName) then [providers[0]] else [])
         + Filter(providers[1..], name, excludeByName)
  }

  /** A page of a listing: `limit` records after skipping `offset`; a zero limit means no limit. */
  datatype Pagination = Pagination(offset: nat, limit: nat)

  function Paginate<T>(xs: seq<T>, pg: Pagination): (r: seq<T>)
    ensures forall x :: x in r ==> x in xs
    ensures pg.limit > 0 ==> |r| <= pg.limit
    ensures pg.offset == 0 && (pg.limit == 0 || pg.limit >= |xs|) ==> r == xs
  {
    if pg.offset > |xs| then []
    else if pg.limit == 0 || pg.offset + pg.limit > |xs| then xs[pg.offset..]
    else xs[pg.offset..pg.offset + pg.limit]
  }

  /** `ListProviders`: no role check; the optional name filter and every exclusion apply to each record returned. */
  function ListProviders(providers: seq<Provider>, name: string, excludeByName: seq<string>, pg: Pagination): (r: seq<Provider>)
    ensures forall p :: p in r ==> p in providers
    ensures forall p, x :: p in r && x in excludeByName ==> p.name != x
    ensures name != "" ==> forall p :: p in r ==> p.name == name
    ensures pg == Pagination(0, 0) ==> forall p :: p in providers && Selected(p, name, excludeByName) ==> p in r
  {
    var all := Filter(providers, name, excludeByName);
    Paginate(all, pg)
  }

  /**
   * A protected infra provider survives every save and delete attempt, by
   * anyone: its record is exactly as before.
   */
  lemma InfraProviderIsImmutable(
    infraProviderID: ID, providers: seq<Provider>, p: Provider, id: ID,
    roleCheck: Option<Error>, dbErr: Option<Error>, q: Provider)
    requires q in providers && q.id == infraProviderID
    ensures q in SaveProvider(infraProviderID, providers, p, roleCheck, dbErr).providers
    ensures q in DeleteProvider(infraProviderID, providers, id, roleCheck, dbErr).providers
  {
    if p.id != infraProviderID && roleCheck.None? && dbErr.None? {
      var k :| 0 <= k < |providers| && providers[k] == q;
      assert UpdateProvider(providers, p, dbErr).providers[k] == q;
    }
  }
}

=== FILE: providers_add.dfy ===
/**
 * The add-identity-provider page (ui/pages/providers/add.js): the form's
 * initial kind and URL, the provider picker, the documentation link, the
 * Google service-account file reader and the submit that appends the new
 * provider to the cached list.
 *
 * `providers[0].kind` from the console's provider catalogue is the input
 * `defaultKind`; a parsed credential file is given as its JSON value.
 */
module ProvidersAdd {
  import opened Wrappers
  import opened Strings
  import opened FieldErrors
  import opened Urls

  datatype Form = Form(
    kind: string, name: string, url: string, clientID: string, clientSecret: string,
    privateKey: string, clientEmail: string, domainAdminEmail: string, shown: FormErrors)

  /**
   * The first render: the kind is the `type` query value, or the
   * catalogue's first kind when there is none; the URL is Google's only
   * when `type` says google; the name starts as the kind.
   */
  function Initial(queryType: Option<string>, defaultKind: string): (f: Form)
    ensures f.kind == queryType.GetOr(defaultKind) && f.name == f.kind
    ensures f.url == "accounts.google.com" <==> queryType == Some("google")
    ensures f.url != "accounts.google.com" ==> f.url == ""
    ensures f.shown == NoErrors
  {
    var kind := if queryType.None? then defaultKind else queryType.value;
    Form(kind, kind, if queryType == Some("google") then "accounts.google.com" else "", "", "", "", "", "", NoErrors)
  }

  /**
   * Picking a provider: the kind changes and the URL's `type` is
   * rewritten. The name follows the kind through the `useEffect` on
   * `kind`, which runs only when the kind actually changes, so picking the
   * current kind again keeps a typed name. The `router.replace` to the
   * same page does not remount it.
   */
  function ChooseKind(f: Form, kind: string): (r: (Form, string))
    ensures r.0.kind == kind
    ensures kind != f.kind ==> r.0.name == kind
    ensures kind == f.kind ==> r.0 == f
    ensures r.0.(kind := f.kind, name := f.name) == f
    ensures r.1 == "/providers/add?type=" + kind
  {
    (f.(kind := kind, name := if kind == f.kind then f.name else kind), "/providers/add?type=" + kind)
  }

  const DocsBase := "https://infrahq.com/docs/identity-providers/"

  /** `docLink`: the provider's page in the documentation; Azure's page is named "azure-ad". */
  function DocLink(kind: string): (link: string)
    ensures StartsWith(link, DocsBase)
    ensures link[|DocsBase|..] == if kind == "azure" then "azure-ad" else kind
  {
    if kind == "azure" then DocsBase + "azure-ad" else DocsBase + kind
  }

  /** Connect Provider is enabled only with a name, a URL, a client ID and a client secret. */
  predicate SubmitDisabled(f: Form) {
    f.name == "" || f.url == "" || f.clientID == "" || f.clientSecret == ""
  }

  /** The content of a chosen credential file: not JSON, JSON `null`, or a JSON object's string fields. */
  datatype Json = NotJson | JsonNull | JsonObject(fields: map<string, string>)

  const NoPrivateKey := "invalid service account key file, no private_key found"
  const NoClientEmail := "invalid service account key file, no client_email found"
  const MustBeJson := "invalid service account key file, must be json"

  /**
   * `parseGoogleCredentialFile` once the file is read. Present fields are
   * taken; a missing `client_email` message replaces a missing
   * `private_key` one; a file that is not JSON gets the JSON message; every
   * message is stored under "privatekey". For JSON `null` reading a field
   * throws a `TypeError` whose `ErrorMessage` is undefined, stored as ""
   * here (both are falsy, so nothing is shown).
   */
  function ReadCredentials(f: Form, file: Json): (r: Form)
    ensures r.shown.error == f.shown.error && r.kind == f.kind && r.name == f.name
    ensures file.NotJson? ==> r == f.(shown := f.shown.(errors := map["privatekey" := MustBeJson]))
    ensures file.JsonObject? && "client_email" !in file.fields ==> r.shown.errors == map["privatekey" := NoClientEmail]
    ensures file.JsonObject? && "client_email" in file.fields && "private_key" !in file.fields ==>
              r.shown.errors == map["privatekey" := NoPrivateKey]
    ensures file.JsonObject? && "client_email" in file.fields && "private_key" in file.fields ==>
              r.shown.errors == map[]
    ensures file.JsonObject? && "private_key" in file.fields ==> r.privateKey == file.fields["private_key"]
    ensures file.JsonObject? && "client_email" in file.fields ==> r.clientEmail == file.fields["client_email"]
    ensures !file.JsonObject? ==> r.privateKey == f.privateKey && r.clientEmail == f.clientEmail
    ensures r.(privateKey := f.privateKey, clientEmail := f.clientEmail, shown := f.shown) == f
  {
    var f := f.(shown := f.shown.(errors := map[]));
    match file
    case NotJson => f.(shown := f.shown.(errors := map["privatekey" := MustBeJson]))
    case JsonNull => f.(shown := f.shown.(errors := map["privatekey" := ""]))
    case JsonObject(fields) =>
      var msg := if "private_key" !in fields then NoPrivateKey else "";
      var f := if "private_key" in fields then f.(privateKey := fields["private_key"]) else f;
      var msg := if "client_email" !in fields then NoClientEmail else msg;
      var f := if "client_email" in fields then f.(clientEmail := fields["client_email"]) else f;
      if msg != "" then f.(shown := f.shown.(errors := map["privatekey" := msg])) else f
  }

  /**
   * Choosing the same file twice leaves the form as the first read left
   * it: the copied fields are overwritten with the same values and the
   * errors are recomputed from the file alone.
   */
  lemma ReadCredentialsIdempotent(f: Form, file: Json)
    ensures ReadCredentials(ReadCredentials(f, file), file) == ReadCredentials(f, file)
  {
  }

  /**
   * The URL a provider choice writes names the chosen kind in its `type`
   * parameter. A fresh load of that URL starts with that kind, and with
   * the name the choice set whenever the choice changed the kind; a
   * re-picked kind keeps a typed name that a reload would reset.
   */
  lemma ChooseKindReloads(f: Form, kind: string, defaultKind: string)
    requires QuerySafe(kind)
    ensures ParseURL(ChooseKind(f, kind).1) == ("/providers/add", [("type", kind)])
    ensures Initial(Some(kind), defaultKind).kind == ChooseKind(f, kind).0.kind
    ensures kind != f.kind ==> Initial(Some(kind), defaultKind).name == ChooseKind(f, kind).0.name
    ensures Initial(Some(kind), defaultKind).name == ChooseKind(f, kind).0.name <==> kind != f.kind || f.name == kind
  {
    WordSafe("type");
    TypeQueryText(kind);
    URLRoundTrip("/providers/add", [("type", kind)]);
  }

  lemma TypeQueryText(kind: string)
    ensures "/providers/add?type=" + kind == "/providers/add" + "?" + Query([("type", kind)])
  {
    var written := seq(1, i requires 0 <= i < 1 => [("type", kind)][i].0 + "=" + [("type", kind)][i].1);
    assert "type" + "=" == "type=";
    assert written[0] == "type" + "=" + kind;
    assert written == ["type=" + kind];
    assert Query([("type", kind)]) == "type=" + kind;
    assert "/providers/add?type=" == "/providers/add" + "?" + "type=";
  }

  /**
   * A failed submit keeps the form's fields, so retrying posts the same
   * request, and once it succeeds the cache holds exactly one provider
   * more than before the first attempt.
   */
  lemma SubmitRetry(f: Form, cache: Option<seq<Provider>>, e: ApiError, p: Provider)
    ensures var failed := Submit(f, cache, Err(e));
            var retried := Submit(failed.form, failed.cache, Ok(p));
            retried.request == failed.request
            && retried.cache == Some(cache.GetOr([]) + [p])
            && |retried.cache.value| == |cache.GetOr([])| + 1
  {
  }

  /** A provider as the cache lists it. */
  datatype Provider = Provider(name: string, url: string, clientID: string, kind: string)

  /** The body of `POST /api/providers`. */
  datatype Request = CreateProvider(
    name: string, url: string, clientID: string, clientSecret: string, kind: string,
    privateKey: string, clientEmail: string, domainAdminEmail: string)

  /** After the submit: the form, the cached provider list, and where the browser went. */
  datatype Submitted = Submitted(form: Form, cache: Option<seq<Provider>>, navigate: Option<string>, request: Request)

  /**
   * `onSubmit`: errors are cleared, the provider is posted from inside the
   * cache update. Success appends the created provider to the cached list
   * (an empty one if nothing was cached) and goes to "/providers"; a
   * failure shows its errors, keeps the cache and stays.
   */
  function Submit(f: Form, cache: Option<seq<Provider>>, response: Result<Provider, ApiError>): (r: Submitted)
    ensures r.request == CreateProvider(f.name, f.url, f.clientID, f.clientSecret, f.kind, f.privateKey, f.clientEmail, f.domainAdminEmail)
    ensures response.Ok? ==>
              r.navigate == Some("/providers") && r.form.shown == NoErrors
              && r.cache == Some(cache.GetOr([]) + [response.value])
    ensures response.Err? ==>
              r.navigate.None? && r.cache == cache && r.form.shown == ShowFailure(NoErrors, response.error)
  {
    var request := CreateProvider(f.name, f.url, f.clientID, f.clientSecret, f.kind, f.privateKey, f.clientEmail, f.domainAdminEmail);
    var f := f.(shown := NoErrors);
    match response
    case Ok(p) => Submitted(f, Some(cache.GetOr([]) + [p]), Some("/providers"), request)
    case Err(e) => Submitted(f.(shown := ShowFailure(NoErrors, e)), cache, None, request)
  }
}

=== FILE: query_escape.dfy ===
/**
 * Go's query escaping (`url.QueryEscape`, which `url.Values.Encode` applies
 * to keys and values): the unreserved characters A-Z a-z 0-9 - _ . ~ stay,
 * a space becomes '+', and every other UTF-8 byte becomes %XX with upper-case
 * hexadecimal digits. `Unescape` (Go's `url.QueryUnescape`) is its inverse
 * on ASCII text.
 *
 * The escaping functions carry no postconditions of their own, so that the
 * verifier can evaluate them cheaply on concrete text; what they guarantee
 * is stated by the lemmas that follow them.
 */
module QueryEscape {
  import opened Wrappers
  import opened Strings

  newtype Byte = x: int | 0 <= x < 256

  /** The UTF-8 encoding of one Unicode scalar value. */
  function Utf8Bytes(c: char): seq<Byte> {
    var n := c as int;
    if n < 0x80 then [n as Byte]
    else if n < 0x800 then [(0xC0 + n / 0x40) as Byte, (0x80 + n % 0x40) as Byte]
    else if n < 0x10000 then [(0xE0 + n / 0x1000) as Byte, (0x80 + (n / 0x40) % 0x40) as Byte, (0x80 + n % 0x40) as Byte]
    else [(0xF0 + n / 0x40000) as Byte, (0x80 + (n / 0x1000) % 0x40) as Byte, (0x80 + (n / 0x40) % 0x40) as Byte, (0x80 + n % 0x40) as Byte]
  }

  /** An ASCII character is its own single byte; any other character is encoded in bytes of 0x80 and above. */
  lemma Utf8BytesShape(c: char)
    ensures |Utf8Bytes(c)| == Utf8Width(c)
    ensures c as int < 0x80 ==> Utf8Bytes(c) == [c as int as Byte]
    ensures c as int >= 0x80 ==> forall i :: 0 <= i < |Utf8Bytes(c)| ==> Utf8Bytes(c)[i] >= 0x80
  {
  }

  /** The characters `QueryEscape` leaves as they are. */
  predicate IsUnreserved(c: char) {
    IsAsciiLetter(c) || IsDigit(c) || c == '-' || c == '_' || c == '.' || c == '~'
  }

  const HexDigits := "0123456789ABCDEF"

  predicate IsUpperHex(c: char) {
    IsDigit(c) || 'A' <= c <= 'F'
  }

  function HexValue(c: char): (v: nat)
    requires IsUpperHex(c)
    ensures v < 16 && HexDigits[v] == c
  {
    if IsDigit(c) then c as int - '0' as int else c as int - 'A' as int + 10
  }

  /** The digit written for `d` reads back as `d`. */
  lemma HexDigitValue(d: nat)
    requires d < 16
    ensures IsUpperHex(HexDigits[d]) && HexValue(HexDigits[d]) == d
  {
    if d < 10 {
      assert HexDigits[d] == (48 + d) as char;
    } else {
      assert HexDigits[d] == (55 + d) as char;
    }
  }

  /** `%XX` for one byte. */
  function PercentByte(b: Byte): string {
    ['%', HexDigits[b as int / 16], HexDigits[b as int % 16]]
  }

  /** The two digits of `%XX` are upper-case hexadecimal and read back as the byte. */
  lemma PercentByteDecodes(b: Byte)
    ensures var r := PercentByte(b);
            |r| == 3 && r[0] == '%' && IsUpperHex(r[1]) && IsUpperHex(r[2])
            && HexValue(r[1]) * 16 + HexValue(r[2]) == b as int
  {
    HexDigitValue(b as int / 16);
    HexDigitValue(b as int % 16);
  }

  function PercentBytes(bs: seq<Byte>): string {
    if |bs| == 0 then "" else PercentByte(bs[0]) + PercentBytes(bs[1..])
  }

  /** The escape of one character. */
  function EscapeChar(c: char): string {
    if IsUnreserved(c) then [c]
    else if c == ' ' then "+"
    else PercentBytes(Utf8Bytes(c))
  }

  /** `url.QueryEscape`. */
  function Escape(s: string): string
    decreases |s|
  {
    if |s| == 0 then "" else EscapeChar(s[0]) + Escape(s[1..])
  }

  /** The characters that can appear in escaped text. */
  predicate IsEscapedChar(c: char) {
    IsUnreserved(c) || c == '+' || c == '%' || IsUpperHex(c)
  }

  lemma {:induction false} PercentBytesAlphabet(bs: seq<Byte>)
    ensures |PercentBytes(bs)| == 3 * |bs|
    ensures forall i :: 0 <= i < |PercentBytes(bs)| ==> IsEscapedChar(PercentBytes(bs)[i])
    decreases |bs|
  {
    if |bs| > 0 {
      PercentByteDecodes(bs[0]);
      PercentBytesAlphabet(bs[1..]);
      var h, t := PercentByte(bs[0]), PercentBytes(bs[1..]);
      forall i | 0 <= i < |h + t| ensures IsEscapedChar((h + t)[i]) {
        if i >= |h| {
          assert (h + t)[i] == t[i - |h|];
        }
      }
    }
  }

  /** Unreserved characters stay, a space becomes '+', anything else becomes three characters per UTF-8 byte. */
  lemma EscapeCharShape(c: char)
    ensures IsUnreserved(c) ==> EscapeChar(c) == [c]
    ensures c == ' ' ==> EscapeChar(c) == "+"
    ensures !IsUnreserved(c) && c != ' ' ==> |EscapeChar(c)| == 3 * Utf8Width(c) && EscapeChar(c)[0] == '%'
    ensures forall i :: 0 <= i < |EscapeChar(c)| ==> IsEscapedChar(EscapeChar(c)[i])
  {
    Utf8BytesShape(c);
    PercentBytesAlphabet(Utf8Bytes(c));
    if !IsUnreserved(c) && c != ' ' {
      PercentByteDecodes(Utf8Bytes(c)[0]);
    }
  }

  /** Escaped text is never shorter than the input and uses only the unreserved characters, '+', '%' and hex digits. */
  lemma {:induction false} EscapeAlphabet(s: string)
    ensures |s| <= |Escape(s)|
    ensures forall i :: 0 <= i < |Escape(s)| ==> IsEscapedChar(Escape(s)[i])
    decreases |s|
  {
    if |s| > 0 {
      EscapeCharShape(s[0]);
      EscapeAlphabet(s[1..]);
      var h, t := EscapeChar(s[0]), Escape(s[1..]);
      forall i | 0 <= i < |h + t| ensures IsEscapedChar((h + t)[i]) {
        if i >= |h| {
          assert (h + t)[i] == t[i - |h|];
        }
      }
    }
  }

  /** Escaping works character by character: the escape of a concatenation is the concatenation of the escapes. */
  lemma {:induction false} EscapeAppend(a: string, b: string)
    ensures Escape(a + b) == Escape(a) + Escape(b)
    decreases |a|
  {
    if |a| > 0 {
      assert (a + b)[0] == a[0];
      assert (a + b)[1..] == a[1..] + b;
      EscapeAppend(a[1..], b);
    } else {
      assert a + b == b;
    }
  }

  /** Text made of unreserved characters is its own escape. */
  lemma {:induction false} EscapeUnreservedString(s: string)
    requires forall i :: 0 <= i < |s| ==> IsUnreserved(s[i])
    ensures Escape(s) == s
    decreases |s|
  {
    if |s| > 0 {
      EscapeUnreservedString(s[1..]);
      assert s == [s[0]] + s[1..];
    }
  }

  /** `url.QueryUnescape` on text whose escapes decode to ASCII; `None` for anything else. */
  function Unescape(t: string): Option<string>
    decreases |t|
  {
    if |t| == 0 then Some("")
    else if t[0] == '+' then
      match Unescape(t[1..])
      case Some(rest) => Some(" " + rest)
      case None => None
    else if t[0] == '%' then
      if |t| >= 3 && IsUpperHex(t[1]) && IsUpperHex(t[2]) && HexValue(t[1]) * 16 + HexValue(t[2]) < 0x80 then
        match Unescape(t[3..])
        case Some(rest) => Some([(HexValue(t[1]) * 16 + HexValue(t[2])) as char] + rest)
        case None => None
      else None
    else
      match Unescape(t[1..])
      case Some(rest) => Some([t[0]] + rest)
      case None => None
  }

  lemma UnescapeTriple(h1: char, h2: char, rest: string)
    requires IsUpperHex(h1) && IsUpperHex(h2) && HexValue(h1) * 16 + HexValue(h2) < 0x80
    requires Unescape(rest).Some?
    ensures Unescape(['%', h1, h2] + rest) == Some([(HexValue(h1) * 16 + HexValue(h2)) as char] + Unescape(rest).value)
  {
    var t := ['%', h1, h2] + rest;
    assert t[0] == '%' && t[1] == h1 && t[2] == h2 && t[3..] == rest;
  }

  lemma UnescapePercentByte(b: Byte, rest: string)
    requires b < 0x80
    requires Unescape(rest).Some?
    ensures Unescape(PercentByte(b) + rest) == Some([b as int as char] + Unescape(rest).value)
  {
    PercentByteDecodes(b);
    var p := PercentByte(b);
    assert p == ['%', p[1], p[2]];
    UnescapeTriple(p[1], p[2], rest);
  }

  /** A character other than '+' and '%' reads back as itself. */
  lemma UnescapeLiteralChar(c: char, rest: string)
    requires c != '+' && c != '%'
    requires Unescape(rest).Some?
    ensures Unescape([c] + rest) == Some([c] + Unescape(rest).value)
  {
    assert ([c] + rest)[1..] == rest;
  }

  lemma UnescapePlus(rest: string)
    requires Unescape(rest).Some?
    ensures Unescape("+" + rest) == Some(" " + Unescape(rest).value)
  {
    assert ("+" + rest)[1..] == rest;
  }

  lemma UnescapeConcatChar(c: char, rest: string)
    requires c as int < 0x80
    requires Unescape(rest).Some?
    ensures Unescape(EscapeChar(c) + rest) == Some([c] + Unescape(rest).value)
  {
    if IsUnreserved(c) {
      assert EscapeChar(c) == [c];
      UnescapeLiteralChar(c, rest);
    } else if c == ' ' {
      assert EscapeChar(c) == "+";
      UnescapePlus(rest);
    } else {
      Utf8BytesShape(c);
      var b := c as int as Byte;
      assert [b][1..] == [];
      assert EscapeChar(c) == PercentByte(b) + PercentBytes([]);
      UnescapePercentByte(b, rest);
    }
  }

  /** On ASCII text, unescaping undoes escaping. */
  lemma {:induction false} EscapeRoundTrip(s: string)
    requires IsAscii(s)
    ensures Unescape(Escape(s)) == Some(s)
    decreases |s|
  {
    if |s| > 0 {
      assert IsAscii(s[1..]) by {
        forall i | 0 <= i < |s[1..]| ensures s[1..][i] as int < 0x80 {
          assert s[1..][i] == s[i + 1];
        }
      }
      EscapeRoundTrip(s[1..]);
      UnescapeConcatChar(s[0], Escape(s[1..]));
      assert [s[0]] + s[1..] == s;
    }
  }

  /** Escaping is injective on ASCII text: different values give different escapes. */
  lemma EscapeInjective(s: string, t: string)
    requires IsAscii(s) && IsAscii(t)
    requires Escape(s) == Escape(t)
    ensures s == t
  {
    EscapeRoundTrip(s);
    EscapeRoundTrip(t);
  }

  // ---------------------------------------------------------------------------
  // The escapes of the requests in the middleware's tests

  /** A reserved ASCII character becomes `%XX` of its code. */
  lemma EscapeReservedAscii(c: char)
    requires c as int < 0x80 && !IsUnreserved(c) && c != ' '
    ensures Escape([c]) == PercentByte(c as int as Byte)
  {
    var b := c as int as Byte;
    assert [c][1..] == [];
    assert [b][1..] == [];
    assert Utf8Bytes(c) == [b];
    assert PercentBytes([b]) == PercentByte(b) + PercentBytes([]);
  }

  lemma EscapeSlash()
    ensures Escape("/") == "%2F"
  {
    EscapeReservedAscii('/');
    assert PercentByte(0x2F) == "%2F";
  }

  lemma EscapeQuestionMark()
    ensures Escape("?") == "%3F"
  {
    EscapeReservedAscii('?');
    assert PercentByte(0x3F) == "%3F";
  }

  lemma EscapeEquals()
    ensures Escape("=") == "%3D"
  {
    EscapeReservedAscii('=');
    assert PercentByte(0x3D) == "%3D";
  }

  lemma EscapeDashboardWord()
    ensures Escape("dashboard") == "dashboard"
  {
    var w := "dashboard";
    assert w == ['d', 'a', 's', 'h', 'b', 'o', 'a', 'r', 'd'];
    assert forall i :: 0 <= i < |w| ==> 'a' <= w[i] <= 'z';
    EscapeUnreservedString(w);
  }

  lemma EscapeDashboard()
    ensures Escape("/" + "dashboard") == "%2F" + "dashboard"
  {
    EscapeSlash();
    EscapeDashboardWord();
    EscapeAppend("/", "dashboard");
  }

  lemma EscapeAssignment()
    ensures Escape("=" + "1") == "%3D" + "1"
  {
    EscapeEquals();
    EscapeUnreservedString("1");
    EscapeAppend("=", "1");
  }

  lemma EscapeParamWord()
    ensures Escape("param") == "param"
  {
    var w := "param";
    assert w == ['p', 'a', 'r', 'a', 'm'];
    assert forall i :: 0 <= i < |w| ==> 'a' <= w[i] <= 'z';
    EscapeUnreservedString(w);
  }

  lemma EscapeParamQuery()
    ensures Escape("?" + "param" + ("=" + "1")) == "%3F" + "param" + ("%3D" + "1")
  {
    EscapeAssignment();
    EscapeQuestionMark();
    EscapeParamWord();
    EscapeAppend("?", "param");
    EscapeAppend("?" + "param", "=" + "1");
  }

  lemma EscapeDashboardQuery()
    ensures Escape(("/" + "dashboard") + ("?" + "param" + ("=" + "1"))) == ("%2F" + "dashboard") + ("%3F" + "param" + ("%3D" + "1"))
  {
    EscapeDashboard();
    EscapeParamQuery();
    EscapeAppend("/" + "dashboard", "?" + "param" + ("=" + "1"));
  }
}

=== FILE: registry_http.dfy ===
/**
 * The login-redirect middleware of the registry's HTTP server
 * (internal/registry/http.go): a routing decision from the request path,
 * its raw query, the `token` and `login` cookies, whether an admin user
 * exists and whether the token is valid. The database lookups are boolean
 * inputs; the response is the cookies written plus either "pass the
 * request on" or a 307 redirect.
 */
module RegistryHttp {
  import opened Wrappers
  import opened Strings
  import opened QueryEscape

  const CookieTokenName := "token"
  const CookieLoginName := "login"
  const StatusTemporaryRedirect := 307

  /** A `Set-Cookie`; times are seconds since the Unix epoch. */
  datatype Cookie = Cookie(name: string, value: string, expires: int, httpOnly: bool, path: string, sameSiteStrict: bool)

  /** `setAuthCookie`: the session token, and a script-readable `login=1` marker, both expiring together. */
  function SetAuthCookie(token: string, now: int, sessionDuration: int): (cs: seq<Cookie>)
    ensures |cs| == 2
    ensures cs[0].name == CookieTokenName && cs[0].value == token && cs[0].httpOnly && cs[0].sameSiteStrict
    ensures cs[1].name == CookieLoginName && cs[1].value == "1" && !cs[1].httpOnly
    ensures cs[0].expires == cs[1].expires == now + sessionDuration
    ensures cs[0].path == cs[1].path == "/"
  {
    var expires := now + sessionDuration;
    [Cookie(CookieTokenName, token, expires, true, "/", true), Cookie(CookieLoginName, "1", expires, false, "/", false)]
  }

  /** `deleteAuthCookie`: both cookies emptied and expired at the epoch. */
  function DeleteAuthCookie(): (cs: seq<Cookie>)
    ensures |cs| == 2
    ensures cs[0].name == CookieTokenName && cs[1].name == CookieLoginName
    ensures forall i :: 0 <= i < |cs| ==> cs[i].value == "" && cs[i].expires == 0 && cs[i].path == "/"
  {
    [Cookie(CookieTokenName, "", 0, true, "/", true), Cookie(CookieLoginName, "", 0, false, "/", false)]
  }

  /** The two auth cookies a request carries, absent when the browser did not send them. */
  datatype Jar = Jar(token: Option<string>, login: Option<string>)

  /**
   * A request: the URL path, its raw query, the cookies, and the values of
   * the `next` query parameter as `URL.Query()` parses them.
   */
  datatype Request = Request(path: string, rawQuery: string, cookies: Jar, next: seq<string>)

  datatype Outcome = PassThrough | Redirect(status: int, location: string)

  datatype Response = Response(cookies: seq<Cookie>, outcome: Outcome)

  /** The index of the last '.' in `path[..i]` that no '/' follows. */
  function DotIndex(path: string, i: nat): (r: Option<nat>)
    requires i <= |path|
    ensures r.Some? ==> r.value < i && path[r.value] == '.'
    ensures r.Some? ==> forall k :: r.value < k < i ==> path[k] != '/' && path[k] != '.'
    ensures r.None? ==> forall j :: 0 <= j < i && path[j] == '.' ==> exists k :: j < k < i && path[k] == '/'
    decreases i
  {
    if i == 0 then None
    else if path[i - 1] == '/' then None
    else if path[i - 1] == '.' then Some(i - 1)
    else DotIndex(path, i - 1)
  }

  /** `filepath.Ext`: the suffix from the last '.' of the final path element, or "". */
  function Ext(path: string): (e: string)
    ensures e != "" ==> |e| <= |path| && e == path[|path| - |e|..] && e[0] == '.' && '/' !in e && '.' !in e[1..]
    ensures e == "" ==> forall j :: 0 <= j < |path| && path[j] == '.' ==> exists k :: j < k < |path| && path[k] == '/'
  {
    match DotIndex(path, |path|)
    case None => ""
    case Some(j) =>
      var e := path[j..];
      assert forall k :: 0 < k < |e| ==> e[k] == path[j + k];
      e
  }

  /** A string that differs from `p` at position `i` does not start with `p`. */
  lemma NotStartsWith(s: string, p: string, i: nat)
    requires i < |p| && (i >= |s| || s[i] != p[i])
    ensures !StartsWith(s, p)
  {
    if |p| <= |s| {
      assert s[..|p|][i] == s[i];
    }
  }

  /** Requests for assets with an extension other than ".html", and Next.js bundles, are never gated. */
  predicate IsUngated(path: string) {
    var ext := Ext(path);
    (ext != "" && ext != ".html") || StartsWith(path, "/_next")
  }

  predicate CookieMissing(jar: Jar) {
    jar.token.None? || jar.login.None?
  }

  /** Both cookies present, the token accepted and the login marker "1". */
  predicate SessionValid(jar: Jar, tokenValid: bool) {
    jar.token.Some? && jar.login.Some? && tokenValid && jar.login.value == "1"
  }

  /** The original request as the `next` value: the path unless it is "/", then "?" and the raw query if there is one. */
  function NextValue(path: string, rawQuery: string): string {
    (if path != "/" then path else "") + (if rawQuery != "" then "?" + rawQuery else "")
  }

  /** The login location for a signed-out visitor: "/login", carrying `next` escaped when there is one. */
  function LoginLocation(path: string, rawQuery: string): (loc: string)
    ensures StartsWith(loc, "/login")
  {
    var next := NextValue(path, rawQuery);
    var loc := if next != "" then "/login?" + "next=" + Escape(next) else "/login";
    assert loc[..|"/login"|] == "/login";
    loc
  }

  /** Where a signed-in visitor to /login or /signup is sent: the first `next` value unless it is empty, else "/". */
  function AfterLoginLocation(next: seq<string>): (loc: string)
    ensures loc == "/" || (|next| > 0 && loc == next[0])
    ensures |next| > 0 && next[0] != "" ==> loc == next[0]
  {
    if |next| == 0 || |next[0]| < 1 then "/" else next[0]
  }

  /** `loginRedirectMiddleware`. */
  function LoginRedirect(req: Request, adminExists: bool, tokenValid: bool): (r: Response)
    // the only cookies ever written are the two deletions
    ensures r.cookies == [] || r.cookies == DeleteAuthCookie()
    ensures r.outcome.Redirect? ==> r.outcome.status == StatusTemporaryRedirect
    // assets and bundles are passed on untouched
    ensures IsUngated(req.path) ==> r == Response([], PassThrough)
    // a gated request clears the cookies exactly when the session is not valid
    ensures !IsUngated(req.path) ==> (r.cookies == DeleteAuthCookie() <==> !SessionValid(req.cookies, tokenValid))
    // a gated request reaches the handler only with a valid session away from the
    // login and signup pages, or without one on the page the visitor is sent to
    ensures !IsUngated(req.path) ==>
              (r.outcome.PassThrough? <==>
                 (SessionValid(req.cookies, tokenValid) && !StartsWith(req.path, "/login") && !StartsWith(req.path, "/signup"))
                 || (CookieMissing(req.cookies) && !adminExists && StartsWith(req.path, "/signup"))
                 || (CookieMissing(req.cookies) && adminExists && StartsWith(req.path, "/login")))
    // a missing cookie: to the signup page while there is no admin ...
    ensures !IsUngated(req.path) && CookieMissing(req.cookies) && !adminExists && !StartsWith(req.path, "/signup") ==>
              r.outcome == Redirect(StatusTemporaryRedirect, "/signup")
    // ... and to the login page, carrying the request as `next`, once there is one
    ensures !IsUngated(req.path) && CookieMissing(req.cookies) && adminExists && !StartsWith(req.path, "/login") ==>
              r.outcome == Redirect(StatusTemporaryRedirect, LoginLocation(req.path, req.rawQuery))
    // both cookies present but the token refused or the marker not "1": back to plain "/login"
    ensures !IsUngated(req.path) && !CookieMissing(req.cookies) && !SessionValid(req.cookies, tokenValid) ==>
              r.outcome == Redirect(StatusTemporaryRedirect, "/login")
    // a valid session on the login or signup page follows `next`
    ensures !IsUngated(req.path) && SessionValid(req.cookies, tokenValid)
            && (StartsWith(req.path, "/login") || StartsWith(req.path, "/signup")) ==>
              r == Response([], Redirect(StatusTemporaryRedirect, AfterLoginLocation(req.next)))
  {
    if IsUngated(req.path) then Response([], PassThrough)
    else if CookieMissing(req.cookies) then
      if !adminExists && !StartsWith(req.path, "/signup") then
        Response(DeleteAuthCookie(), Redirect(StatusTemporaryRedirect, "/signup"))
      else if adminExists && !StartsWith(req.path, "/login") then
        Response(DeleteAuthCookie(), Redirect(StatusTemporaryRedirect, LoginLocation(req.path, req.rawQuery)))
      else
        Response(DeleteAuthCookie(), PassThrough)
    else if !tokenValid then Response(DeleteAuthCookie(), Redirect(StatusTemporaryRedirect, "/login"))
    else if req.cookies.login.value != "1" then Response(DeleteAuthCookie(), Redirect(StatusTemporaryRedirect, "/login"))
    else if StartsWith(req.path, "/login") || StartsWith(req.path, "/signup") then
      Response([], Redirect(StatusTemporaryRedirect, AfterLoginLocation(req.next)))
    else Response([], PassThrough)
  }

  // ---------------------------------------------------------------------------
  // The `next` parameter carries the original request back

  lemma NextValueAscii(path: string, rawQuery: string)
    requires IsAscii(path) && IsAscii(rawQuery)
    ensures IsAscii(NextValue(path, rawQuery))
  {
    var a := if path != "/" then path else "";
    var b := if rawQuery != "" then "?" + rawQuery else "";
    assert NextValue(path, rawQuery) == a + b;
    forall i | 0 <= i < |a + b| ensures (a + b)[i] as int < 0x80 {
      if i < |a| {
        assert (a + b)[i] == a[i];
      } else if rawQuery != "" {
        assert (a + b)[i] == ("?" + rawQuery)[i - |a|];
        if i - |a| > 0 {
          assert ("?" + rawQuery)[i - |a|] == rawQuery[i - |a| - 1];
        }
      }
    }
  }

  /**
   * The login location decodes back to the original request: for an ASCII
   * path and query, unescaping the `next` value gives the path and query.
   */
  lemma LoginLocationCarriesNext(path: string, rawQuery: string)
    requires IsAscii(path) && IsAscii(rawQuery)
    ensures NextValue(path, rawQuery) == "" ==> LoginLocation(path, rawQuery) == "/login"
    ensures NextValue(path, rawQuery) != "" ==>
              exists t :: LoginLocation(path, rawQuery) == "/login?next=" + t && Unescape(t) == Some(NextValue(path, rawQuery))
  {
    var next := NextValue(path, rawQuery);
    if next != "" {
      NextValueAscii(path, rawQuery);
      EscapeRoundTrip(next);
      assert "/login?" + "next=" + Escape(next) == "/login?next=" + Escape(next);
    }
  }

  // ---------------------------------------------------------------------------
  // A browser following the redirects

  /** The part of a location before its first '?'. */
  function PathOf(location: string): (p: string)
    ensures '?' !in p
    ensures StartsWith(location, p)
    decreases |location|
  {
    if |location| == 0 || location[0] == '?' then ""
    else
      var p := [location[0]] + PathOf(location[1..]);
      assert location == [location[0]] + location[1..];
      p
  }

  /** The raw query of a location: what follows its first '?', or "". */
  function QueryOf(location: string): string {
    var p := PathOf(location);
    if |p| < |location| then location[|p| + 1..] else ""
  }

  /** A browser storing the cookies of a response: a cookie that has already expired is removed. */
  function ApplyCookies(jar: Jar, cs: seq<Cookie>, now: int): Jar
    decreases |cs|
  {
    if |cs| == 0 then jar
    else
      var c := cs[0];
      var v := if c.expires <= now then None else Some(c.value);
      var jar' := if c.name == CookieTokenName then jar.(token := v)
                  else if c.name == CookieLoginName then jar.(login := v)
                  else jar;
      ApplyCookies(jar', cs[1..], now)
  }

  /** The request a browser makes after a redirect, at time `now`, with the `next` values of the new location. */
  function Follow(req: Request, r: Response, now: int, next: seq<string>): Request
    requires r.outcome.Redirect?
  {
    Request(PathOf(r.outcome.location), QueryOf(r.outcome.location), ApplyCookies(req.cookies, r.cookies, now), next)
  }

  lemma DeletedCookiesAreGone(jar: Jar, now: int)
    requires now > 0
    ensures ApplyCookies(jar, DeleteAuthCookie(), now) == Jar(None, None)
  {
    var cs := DeleteAuthCookie();
    assert CookieLoginName != CookieTokenName;
    assert cs[1..][1..] == [];
  }

  lemma SetCookiesAreKept(jar: Jar, token: string, now: int, sessionDuration: int)
    requires sessionDuration > 0
    ensures ApplyCookies(jar, SetAuthCookie(token, now, sessionDuration), now) == Jar(Some(token), Some("1"))
  {
    var cs := SetAuthCookie(token, now, sessionDuration);
    assert CookieLoginName != CookieTokenName by {
      assert CookieLoginName[0] != CookieTokenName[0];
    }
    var jar1 := jar.(token := Some(token));
    assert ApplyCookies(jar, cs, now) == ApplyCookies(jar1, cs[1..], now);
    assert ApplyCookies(jar1, cs[1..], now) == ApplyCookies(jar1.(login := Some("1")), cs[1..][1..], now);
    assert cs[1..][1..] == [];
  }

  lemma {:induction false} PathOfPrefix(p: string, rest: string)
    requires '?' !in p
    requires rest == "" || rest[0] == '?'
    ensures PathOf(p + rest) == p
    decreases |p|
  {
    if |p| > 0 {
      assert (p + rest)[1..] == p[1..] + rest;
      assert (p + rest)[0] == p[0];
      PathOfPrefix(p[1..], rest);
      assert p == [p[0]] + p[1..];
    } else {
      assert p + rest == rest;
    }
  }

  /** A path without a '.' has no extension. */
  lemma NoDotNoExt(path: string)
    requires '.' !in path
    ensures Ext(path) == ""
  {
  }

  lemma LoginQuerySplit(e: string)
    ensures "/login?" + "next=" + e == "/login" + ("?next=" + e)
  {
    assert "/login?" == "/login" + "?";
    assert "?" + "next=" == "?next=";
    assert "/login" + "?" + "next=" + e == "/login" + ("?" + "next=" + e);
  }

  lemma LoginLocationPath(path: string, rawQuery: string)
    ensures PathOf(LoginLocation(path, rawQuery)) == "/login"
  {
    var next := NextValue(path, rawQuery);
    if next != "" {
      LoginQuerySplit(Escape(next));
      PathOfPrefix("/login", "?next=" + Escape(next));
    } else {
      PathOfPrefix("/login", "");
      assert "/login" + "" == "/login";
    }
  }

  /** The locations a rejected session is sent to lead to the login page, or to the signup page when there is no admin. */
  lemma RejectedLocation(req: Request, adminExists: bool, tokenValid: bool)
    requires !IsUngated(req.path) && !SessionValid(req.cookies, tokenValid)
    requires LoginRedirect(req, adminExists, tokenValid).outcome.Redirect?
    ensures var loc := LoginRedirect(req, adminExists, tokenValid).outcome.location;
            PathOf(loc) == "/login" || (PathOf(loc) == "/signup" && !adminExists)
  {
    var loc := LoginRedirect(req, adminExists, tokenValid).outcome.location;
    if loc == "/signup" {
      PathOfPrefix("/signup", "");
      assert "/signup" + "" == "/signup";
    } else if loc == "/login" {
      PathOfPrefix("/login", "");
      assert "/login" + "" == "/login";
    } else {
      assert loc == LoginLocation(req.path, req.rawQuery);
      LoginLocationPath(req.path, req.rawQuery);
    }
  }

  /**
   * Without cookies, the login page is passed on (or, with no admin yet,
   * sent to "/signup"), and with no admin the signup page is passed on.
   */
  lemma SignedOutLanding(path: string, rawQuery: string, next: seq<string>, adminExists: bool, tokenValid: bool)
    requires path == "/login" || (path == "/signup" && !adminExists)
    ensures var r := LoginRedirect(Request(path, rawQuery, Jar(None, None), next), adminExists, tokenValid);
            r.outcome.PassThrough?
            || (r.outcome == Redirect(StatusTemporaryRedirect, "/signup") && path == "/login" && !adminExists)
    ensures path == "/signup" ==>
              LoginRedirect(Request(path, rawQuery, Jar(None, None), next), adminExists, tokenValid).outcome.PassThrough?
  {
    NoDotNoExt(path);
    NotStartsWith(path, "/_next", 1);
    if path == "/login" {
      NotStartsWith(path, "/signup", 1);
      assert path[..|"/login"|] == "/login";
    } else {
      NotStartsWith(path, "/login", 1);
      assert path[..|"/signup"|] == "/signup";
    }
  }

  /**
   * A rejected session settles: after the middleware clears the cookies and
   * redirects, a browser that follows (with the cleared cookies) is passed
   * on at once, or after one more redirect to "/signup".
   */
  lemma RejectedSessionSettles(req: Request, adminExists: bool, tokenValid: bool, now: int, next1: seq<string>, next2: seq<string>)
    requires now > 0
    requires !IsUngated(req.path) && !SessionValid(req.cookies, tokenValid)
    ensures var r := LoginRedirect(req, adminExists, tokenValid);
            r.outcome.Redirect? ==>
              var req1 := Follow(req, r, now, next1);
              var r1 := LoginRedirect(req1, adminExists, tokenValid);
              r1.outcome.PassThrough?
              || (r1.outcome == Redirect(StatusTemporaryRedirect, "/signup")
                  && LoginRedirect(Follow(req1, r1, now, next2), adminExists, tokenValid).outcome.PassThrough?)
  {
    var r := LoginRedirect(req, adminExists, tokenValid);
    if r.outcome.Redirect? {
      RejectedLocation(req, adminExists, tokenValid);
      DeletedCookiesAreGone(req.cookies, now);
      var req1 := Follow(req, r, now, next1);
      assert req1.cookies == Jar(None, None);
      LandingSettles(req1, adminExists, tokenValid, now, next2);
    }
  }

  /** A signed-out browser on the login or signup page is passed on, or sent once to "/signup" and passed on there. */
  lemma LandingSettles(req1: Request, adminExists: bool, tokenValid: bool, now: int, next2: seq<string>)
    requires now > 0 && req1.cookies == Jar(None, None)
    requires req1.path == "/login" || (req1.path == "/signup" && !adminExists)
    ensures var r1 := LoginRedirect(req1, adminExists, tokenValid);
            r1.outcome.PassThrough?
            || (r1.outcome == Redirect(StatusTemporaryRedirect, "/signup")
                && LoginRedirect(Follow(req1, r1, now, next2), adminExists, tokenValid).outcome.PassThrough?)
  {
    SignedOutLanding(req1.path, req1.rawQuery, req1.next, adminExists, tokenValid);
    assert req1 == Request(req1.path, req1.rawQuery, Jar(None, None), req1.next);
    var r1 := LoginRedirect(req1, adminExists, tokenValid);
    if r1.outcome.Redirect? {
      DeletedCookiesAreGone(req1.cookies, now);
      PathOfPrefix("/signup", "");
      assert "/signup" + "" == "/signup";
      var req2 := Follow(req1, r1, now, next2);
      SignedOutLanding(req2.path, req2.rawQuery, next2, adminExists, tokenValid);
    }
  }

  /** A visitor holding the cookies `setAuthCookie` wrote, with a token the server accepts, reaches every page but login and signup. */
  lemma SignedInVisitorPassesThrough(path: string, rawQuery: string, next: seq<string>, jar: Jar, token: string, now: int, sessionDuration: int)
    requires sessionDuration > 0
    requires !IsUngated(path) && !StartsWith(path, "/login") && !StartsWith(path, "/signup")
    ensures var cookies := ApplyCookies(jar, SetAuthCookie(token, now, sessionDuration), now);
            LoginRedirect(Request(path, rawQuery, cookies, next), true, true) == Response([], PassThrough)
  {
    SetCookiesAreKept(jar, token, now, sessionDuration);
  }

  // ---------------------------------------------------------------------------
  // The concrete requests of the middleware's tests

  const NoCookies := Jar(None, None)
  const SignedIn := Jar(Some("secret"), Some("1"))

  /** "/dashboard" is gated and is neither the login nor the signup page. */
  lemma DashboardIsGated()
    ensures !IsUngated("/dashboard")
    ensures !StartsWith("/dashboard", "/login") && !StartsWith("/dashboard", "/signup")
  {
    NoDotNoExt("/dashboard");
    NotStartsWith("/dashboard", "/_next", 1);
    NotStartsWith("/dashboard", "/login", 1);
    NotStartsWith("/dashboard", "/signup", 1);
  }

  lemma FaviconPassesThrough()
    ensures LoginRedirect(Request("/favicon.ico", "", NoCookies, []), false, false) == Response([], PassThrough)
  {
    var p := "/favicon.ico";
    assert DotIndex(p, 9) == Some(8);
    assert DotIndex(p, 12) == DotIndex(p, 11) == DotIndex(p, 10) == DotIndex(p, 9);
    assert Ext(p) == p[8..];
    assert p[8..] == ".ico";
  }

  lemma NextBundlePassesThrough()
    ensures LoginRedirect(Request("/_next/file", "", NoCookies, []), false, false) == Response([], PassThrough)
  {
    assert "/_next/file"[..|"/_next"|] == "/_next";
  }

  lemma NoAdminRedirectsToSignup()
    ensures LoginRedirect(Request("/dashboard", "", NoCookies, []), false, false)
            == Response(DeleteAuthCookie(), Redirect(StatusTemporaryRedirect, "/signup"))
  {
    DashboardIsGated();
  }

  lemma AdminRedirectsRootToLogin()
    ensures LoginRedirect(Request("/", "", NoCookies, []), true, false).outcome == Redirect(StatusTemporaryRedirect, "/login")
  {
    NoDotNoExt("/");
    NotStartsWith("/", "/_next", 1);
    NotStartsWith("/", "/login", 1);
  }

  lemma RedirectCarriesPathAndQuery()
    ensures LoginRedirect(Request("/dashboard", "param=1", NoCookies, []), true, false).outcome
            == Redirect(StatusTemporaryRedirect, "/login?next=%2Fdashboard%3Fparam%3D1")
  {
    DashboardIsGated();
    DashboardQueryPieces();
    EscapeDashboardQuery();
    LoginLocationOf("/dashboard", "param=1");
  }

  /** The literal pieces of the request and of the expected location, kept apart from any escaping. */
  lemma DashboardQueryPieces()
    ensures NextValue("/dashboard", "param=1") == ("/" + "dashboard") + ("?" + "param" + ("=" + "1"))
    ensures "/login?next=" + (("%2F" + "dashboard") + ("%3F" + "param" + ("%3D" + "1"))) == "/login?next=%2Fdashboard%3Fparam%3D1"
    ensures NextValue("/dashboard", "") == "/" + "dashboard"
    ensures "/login?next=" + ("%2F" + "dashboard") == "/login?next=%2Fdashboard"
  {
  }

  lemma MissingLoginCookieRedirectsWithNext()
    ensures LoginRedirect(Request("/dashboard", "", Jar(Some("secret"), None), []), true, true)
            == Response(DeleteAuthCookie(), Redirect(StatusTemporaryRedirect, "/login?next=%2Fdashboard"))
  {
    DashboardIsGated();
    DashboardQueryPieces();
    EscapeDashboard();
    LoginLocationOf("/dashboard", "");
  }

  lemma LoginLocationOf(path: string, rawQuery: string)
    requires NextValue(path, rawQuery) != ""
    ensures LoginLocation(path, rawQuery) == "/login?next=" + Escape(NextValue(path, rawQuery))
  {
    assert "/login?" + "next=" == "/login?next=";
  }

  lemma SignedInPassesThrough()
    ensures LoginRedirect(Request("/dashboard", "", SignedIn, []), true, true) == Response([], PassThrough)
  {
    DashboardIsGated();
  }

  lemma SignedInLoginFollowsNext()
    ensures LoginRedirect(Request("/login", "next=/dashboard", SignedIn, ["/dashboard"]), true, true)
            == Response([], Redirect(StatusTemporaryRedirect, "/dashboard"))
  {
    NoDotNoExt("/login");
    NotStartsWith("/login", "/_next", 1);
    assert "/login"[..|"/login"|] == "/login";
  }
}

=== FILE: seqs.dfy ===
/**
 * Sequence helpers shared by the server and the console: filtering in
 * order (Go's filter loops, JavaScript's `Array.prototype.filter`) and
 * de-duplication keeping first occurrences (`[...new Set(xs)]`).
 */
module Seqs {

  predicate NoDuplicates<T(==)>(xs: seq<T>) {
    forall i, j :: 0 <= i < j < |xs| ==> xs[i] != xs[j]
  }

  /** The elements of `xs` that satisfy `keep`, in order. */
  function Keep<T(!new)>(xs: seq<T>, keep: T -> bool): (r: seq<T>)
    ensures forall x :: x in r <==> x in xs && keep(x)
    ensures |r| <= |xs|
  {
    if |xs| == 0 then [] else (if keep(xs[0]) then [xs[0]] else []) + Keep(xs[1..], keep)
  }

  lemma {:induction false} KeepNoDuplicates<T(!new)>(xs: seq<T>, keep: T -> bool)
    requires NoDuplicates(xs)
    ensures NoDuplicates(Keep(xs, keep))
    decreases |xs|
  {
    if |xs| > 0 {
      assert NoDuplicates(xs[1..]) by {
        forall i, j | 0 <= i < j < |xs[1..]| ensures xs[1..][i] != xs[1..][j] {
          assert xs[1..][i] == xs[i + 1] && xs[1..][j] == xs[j + 1];
        }
      }
      KeepNoDuplicates(xs[1..], keep);
      assert xs[0] !in xs[1..] by {
        forall k | 0 <= k < |xs[1..]| ensures xs[1..][k] != xs[0] {
          assert xs[1..][k] == xs[k + 1];
        }
      }
    }
  }


  /** A filter every element passes leaves the sequence as it was. */
  lemma {:induction false} KeepAll<T(!new)>(xs: seq<T>, keep: T -> bool)
    requires forall x :: x in xs ==> keep(x)
    ensures Keep(xs, keep) == xs
    decreases |xs|
  {
    if |xs| > 0 {
      assert forall x :: x in xs[1..] ==> x in xs;
      KeepAll(xs[1..], keep);
      assert xs == [xs[0]] + xs[1..];
    }
  }

  /** Filtering distributes over concatenation, so a filter keeps the relative order of what it keeps. */
  lemma {:induction false} KeepAppend<T(!new)>(xs: seq<T>, ys: seq<T>, keep: T -> bool)
    ensures Keep(xs + ys, keep) == Keep(xs, keep) + Keep(ys, keep)
    decreases |xs|
  {
    if |xs| > 0 {
      assert (xs + ys)[0] == xs[0] && (xs + ys)[1..] == xs[1..] + ys;
      KeepAppend(xs[1..], ys, keep);
    } else {
      assert xs + ys == ys;
    }
  }

  /**
   * The elements of `xs` not in `seen`, each once, at its first
   * occurrence: what adding them one by one to a JavaScript `Set` that
   * already holds `seen` and spreading it back yields.
   */
  function DedupFrom<T(==,!new)>(xs: seq<T>, seen: set<T>): (r: seq<T>)
    ensures forall x :: x in r <==> x in xs && x !in seen
    ensures NoDuplicates(r)
    decreases |xs|
  {
    if |xs| == 0 then []
    else if xs[0] in seen then DedupFrom(xs[1..], seen)
    else [xs[0]] + DedupFrom(xs[1..], seen + {xs[0]})
  }

  /** `[...new Set(xs)]`. */
  function Dedup<T(==,!new)>(xs: seq<T>): (r: seq<T>)
    ensures forall x :: x in r <==> x in xs
    ensures NoDuplicates(r)
  {
    DedupFrom(xs, {})
  }

  lemma DedupFromStep<T(!new)>(xs: seq<T>, seen: set<T>)
    requires |xs| > 0
    ensures DedupFrom(xs, seen) ==
            if xs[0] in seen then DedupFrom(xs[1..], seen) else [xs[0]] + DedupFrom(xs[1..], seen + {xs[0]})
  {
  }

  lemma {:induction false} DedupFromSnoc<T(!new)>(xs: seq<T>, x: T, seen: set<T>)
    ensures DedupFrom(xs + [x], seen) ==
            if x in xs || x in seen then DedupFrom(xs, seen) else DedupFrom(xs, seen) + [x]
    decreases |xs|
  {
    var ys := xs + [x];
    DedupFromStep(ys, seen);
    if |xs| == 0 {
      assert ys == [x] && ys[1..] == [];
    } else {
      assert ys[0] == xs[0] && ys[1..] == xs[1..] + [x];
      DedupFromStep(xs, seen);
      var inXs := x in xs;
      assert inXs <==> x == xs[0] || x in xs[1..];
      if xs[0] in seen {
        DedupFromSnoc(xs[1..], x, seen);
      } else {
        var seen' := seen + {xs[0]};
        DedupFromSnoc(xs[1..], x, seen');
        assert (x in xs[1..] || x in seen') <==> (inXs || x in seen);
      }
    }
  }

  /**
   * The insertion-order rule that defines a `Set`'s iteration: appending
   * an element already present changes nothing, a new one goes last.
   */
  lemma DedupSnoc<T(!new)>(xs: seq<T>, x: T)
    ensures Dedup(xs + [x]) == if x in xs then Dedup(xs) else Dedup(xs) + [x]
  {
    DedupFromSnoc(xs, x, {});
  }

  lemma {:induction false} DedupFromDistinct<T(!new)>(xs: seq<T>, seen: set<T>)
    requires NoDuplicates(xs)
    requires forall x :: x in xs ==> x !in seen
    ensures DedupFrom(xs, seen) == xs
    decreases |xs|
  {
    if |xs| > 0 {
      assert NoDuplicates(xs[1..]) by {
        forall i, j | 0 <= i < j < |xs[1..]| ensures xs[1..][i] != xs[1..][j] {
          assert xs[1..][i] == xs[i + 1] && xs[1..][j] == xs[j + 1];
        }
      }
      forall x | x in xs[1..] ensures x !in seen + {xs[0]} {
        var k :| 0 <= k < |xs[1..]| && xs[1..][k] == x;
        assert xs[k + 1] == x;
      }
      DedupFromDistinct(xs[1..], seen + {xs[0]});
    }
  }

  /** A sequence without repeats passes through a `Set` unchanged; in particular `Dedup` is idempotent. */
  lemma DedupDistinct<T(!new)>(xs: seq<T>)
    requires NoDuplicates(xs)
    ensures Dedup(xs) == xs
  {
    DedupFromDistinct(xs, {});
  }
}

=== FILE: settings.dfy ===
/**
 * The settings page (ui/pages/settings/index.js): its tabs, and the list
 * of infra admin grants with its add, revoke, warning and naming rules.
 *
 * The fetched lists are inputs; a list still loading is `None`. The
 * display order `sortBySubject` imposes is not part of this model: the
 * list is kept in the order the cache holds it.
 */
module Settings {
  import opened Wrappers
  import opened Seqs
  import opened Views

  /** An admin grant: for a user or for a group. */
  datatype AdminGrant = AdminGrant(id: string, user: Option<string>, group: Option<string>)

  /** A user or group with its ID and name, for the name lookup. */
  datatype Named = Named(id: string, name: string)

  /** The POST the page sends to create a grant. */
  datatype Request = PostGrant(user: Option<string>, group: Option<string>, privilege: string, resource: string)

  /** `grants?.find(g => g.user === user && g.group === group)`. */
  function FindSubject(grants: seq<AdminGrant>, user: Option<string>, group: Option<string>): (r: Option<AdminGrant>)
    ensures r.Some? <==> exists g :: g in grants && g.user == user && g.group == group
    ensures r.Some? ==> r.value in grants && r.value.user == user && r.value.group == group
    decreases |grants|
  {
    if |grants| == 0 then None
    else if grants[0].user == user && grants[0].group == group then Some(grants[0])
    else
      var r := FindSubject(grants[1..], user, group);
      assert forall g :: g in grants ==> g == grants[0] || g in grants[1..];
      r
  }

  /**
   * Adding an admin: a subject that already has a grant is skipped with
   * no request; otherwise the POST is sent and its response, `created`,
   * goes to the end of the list.
   */
  function AddAdmin(grants: seq<AdminGrant>, user: Option<string>, group: Option<string>, created: AdminGrant)
    : (r: (seq<AdminGrant>, Option<Request>))
    ensures (exists g :: g in grants && g.user == user && g.group == group) ==> r == (grants, None)
    ensures (forall g :: g in grants ==> g.user != user || g.group != group) ==>
              r.1 == Some(PostGrant(user, group, "admin", "infra"))
              && |r.0| == |grants| + 1 && r.0[..|grants|] == grants && r.0[|grants|] == created
  {
    if FindSubject(grants, user, group).Some? then (grants, None)
    else (grants + [created], Some(PostGrant(user, group, "admin", "infra")))
  }

  /** The list after a revoke: every grant but the one with that ID, in order. */
  function Revoke(grants: seq<AdminGrant>, id: string): (r: seq<AdminGrant>)
    ensures forall g :: g in r <==> g in grants && g.id != id
  {
    Keep(grants, (g: AdminGrant) => g.id != id)
  }

  /** Revoking what was just added gives the list back, when its ID was new. */
  lemma RevokeUndoesAdd(grants: seq<AdminGrant>, created: AdminGrant)
    requires forall g :: g in grants ==> g.id != created.id
    ensures Revoke(grants + [created], created.id) == grants
  {
    var keep := (g: AdminGrant) => g.id != created.id;
    KeepAppend(grants, [created], keep);
    KeepAll(grants, keep);
    assert Keep([created], keep) == [];
  }

  /** `showRemove`: Revoke is offered only while there is more than one admin grant. */
  predicate ShowRevoke(grants: seq<AdminGrant>) {
    |grants| > 1
  }

  /** A revoke through the page: only when offered. */
  function RevokeIfOffered(grants: seq<AdminGrant>, id: string): seq<AdminGrant> {
    if ShowRevoke(grants) then Revoke(grants, id) else grants
  }

  /** With distinct grant IDs, the page never revokes the last admin grant. */
  lemma LastAdminStays(grants: seq<AdminGrant>, id: string)
    requires |grants| >= 1
    requires forall i, j :: 0 <= i < j < |grants| ==> grants[i].id != grants[j].id
    ensures |RevokeIfOffered(grants, id)| >= 1
  {
    if ShowRevoke(grants) {
      var g := if grants[0].id != id then grants[0] else grants[1];
      assert g in Revoke(grants, id);
    }
  }

  const SelfWarning := "Are you sure you want to revoke your own admin access?"
  const GroupWarning := "Are you sure you want to revoke this group's admin access? You are a member of this group."

  /**
   * The confirmation text: the viewer's own grant warns about self
   * revocation; otherwise a grant for a group the viewer is in warns about
   * that; otherwise `None`, and the dialog's default question is shown.
   * `authID` is `auth?.id`, so it is `None` until the session is known.
   */
  function Warning(grant: AdminGrant, authID: Option<string>, selfGroups: Option<seq<Named>>): (m: Option<string>)
    ensures grant.user == authID ==> m == Some(SelfWarning)
    ensures grant.user != authID ==>
              (m == Some(GroupWarning) <==>
                 selfGroups.Some? && exists g :: g in selfGroups.value && grant.group == Some(g.id))
    ensures m.None? || m == Some(SelfWarning) || m == Some(GroupWarning)
  {
    if grant.user == authID then Some(SelfWarning)
    else if selfGroups.Some? && InGroups(selfGroups.value, grant.group) then Some(GroupWarning)
    else None
  }

  /**
   * Revoking `grant` takes something from the viewer: it is the viewer's
   * own grant, or one for a group the viewer belongs to.
   */
  predicate AffectsViewer(grant: AdminGrant, authID: Option<string>, selfGroups: Option<seq<Named>>) {
    grant.user == authID || (selfGroups.Some? && exists g :: g in selfGroups.value && grant.group == Some(g.id))
  }

  /**
   * A revoke asks for confirmation exactly when it affects the viewer, and
   * the question depends only on the grant's subject, not on its ID.
   * Before the session is known (`authID` is `None`) every group grant
   * counts as the viewer's own, since both sides of `===` are `undefined`.
   */
  lemma WarningIffAffectsViewer(grant: AdminGrant, other: AdminGrant, authID: Option<string>, selfGroups: Option<seq<Named>>)
    ensures Warning(grant, authID, selfGroups).Some? <==> AffectsViewer(grant, authID, selfGroups)
    ensures other.user == grant.user && other.group == grant.group ==>
              Warning(other, authID, selfGroups) == Warning(grant, authID, selfGroups)
    ensures authID.None? && grant.user.None? ==> Warning(grant, authID, selfGroups) == Some(SelfWarning)
  {
  }

  /** `selfGroups?.some(g => g.id === grant.group)`. */
  function InGroups(groups: seq<Named>, group: Option<string>): (b: bool)
    ensures b <==> exists g :: g in groups && group == Some(g.id)
    decreases |groups|
  {
    if |groups| == 0 then false
    else
      assert forall g :: g in groups ==> g == groups[0] || g in groups[1..];
      group == Some(groups[0].id) || InGroups(groups[1..], group)
  }

  /** `list?.find(x => id === x.id)?.name`, with `None` for a missing list, ID or entry. */
  function NameOf(list: Option<seq<Named>>, id: Option<string>): (r: Option<string>)
    ensures r.Some? ==> list.Some? && id.Some? && Named(id.value, r.value) in list.value
    ensures list.Some? && id.Some? && (exists x :: x in list.value && x.id == id.value) ==> r.Some?
  {
    if list.Some? && id.Some? then FindName(list.value, id.value) else None
  }

  function FindName(list: seq<Named>, id: string): (r: Option<string>)
    ensures r.Some? <==> exists x :: x in list && x.id == id
    ensures r.Some? ==> Named(id, r.value) in list
    decreases |list|
  {
    if |list| == 0 then None
    else if list[0].id == id then Some(list[0].name)
    else
      var r := FindName(list[1..], id);
      assert forall x :: x in list ==> x == list[0] || x in list[1..];
      r
  }

  /**
   * The name shown for a grant: the user's name when the grant is a user's
   * and that name is non-empty, else the group's, else "".
   */
  function DisplayName(grant: AdminGrant, users: Option<seq<Named>>, groups: Option<seq<Named>>): (n: string)
    ensures NameOf(users, grant.user).Some? && NameOf(users, grant.user).value != "" ==> n == NameOf(users, grant.user).value
    ensures NameOf(users, grant.user).GetOr("") == "" ==> n == NameOf(groups, grant.group).GetOr("")
    ensures n != "" ==> n == NameOf(users, grant.user).GetOr("") || n == NameOf(groups, grant.group).GetOr("")
  {
    var u := NameOf(users, grant.user).GetOr("");
    if u != "" then u else NameOf(groups, grant.group).GetOr("")
  }

  /**
   * The tabs: "account" when the session has the built-in infra provider,
   * then "admin" for admins.
   */
  function Tabs(auth: Option<SelfUser>, admin: bool): (tabs: seq<string>)
    ensures ("account" in tabs) <==> auth.Some? && "infra" in auth.value.providerNames
    ensures ("admin" in tabs) <==> admin
    ensures |tabs| <= 2 && NoDuplicates(tabs)
  {
    (if auth.Some? && "infra" in auth.value.providerNames then ["account"] else [])
    + (if admin then ["admin"] else [])
  }

  /**
   * Without a `tab` in the query the page picks one: "account" when
   * offered, else the first tab; and replaces the URL with
   * `/settings?tab=<first tab>`, "undefined" when there is none.
   */
  function InitialTab(tabs: seq<string>): (r: (Option<string>, string))
    ensures "account" in tabs ==> r.0 == Some("account")
    ensures "account" !in tabs ==> r.0 == (if |tabs| > 0 then Some(tabs[0]) else None)
    ensures r.1 == "/settings?tab=" + (if |tabs| > 0 then tabs[0] else "undefined")
  {
    var current := if "account" in tabs then Some("account") else if |tabs| > 0 then Some(tabs[0]) else None;
    (current, "/settings?tab=" + (if |tabs| > 0 then tabs[0] else "undefined"))
  }

  /** The tab the page selects is the one its URL names: "account" always comes first when present. */
  lemma InitialTabMatchesUrl(auth: Option<SelfUser>, admin: bool)
    requires Tabs(auth, admin) != []
    ensures var tabs := Tabs(auth, admin);
            InitialTab(tabs).0 == Some(tabs[0])
            && InitialTab(tabs).1 == "/settings?tab=" + InitialTab(tabs).0.value
  {
  }
}

=== FILE: signup.dfy ===
/**
 * The sign-up page (ui/pages/signup/index.js): the organisation subdomain
 * derived from a typed name, the form's edits and its submit, which posts
 * the new admin and organisation and then sends the browser to the new
 * organisation's domain.
 */
module Signup {
  import opened Wrappers
  import opened Strings
  import opened Seqs
  import opened FieldErrors

  /** A character `/[^\da-zA-Z-]/g` does not remove. */
  predicate UrlSafeChar(c: char) {
    IsDigit(c) || IsAsciiLetter(c) || c == '-'
  }

  /** A character of a finished subdomain: a digit, a lower-case ASCII letter or '-'. */
  predicate SubdomainChar(c: char) {
    IsDigit(c) || ('a' <= c <= 'z') || c == '-'
  }

  /**
   * `getURLSafeDomain`: spaces become '-' (`split(' ').join('-')`), every
   * other character outside [0-9A-Za-z-] is dropped, and the rest is lower-cased.
   */
  function URLSafeDomain(domain: string): string {
    Lower(Keep(Join(Split(domain, ' '), "-"), UrlSafeChar))
  }

  /** The result is a subdomain no longer than the input, and spaces were turned into '-' before the filter. */
  lemma URLSafeDomainShape(domain: string)
    ensures URLSafeDomain(domain) == Lower(Keep(ReplaceChar(domain, ' ', '-'), UrlSafeChar))
    ensures forall i :: 0 <= i < |URLSafeDomain(domain)| ==> SubdomainChar(URLSafeDomain(domain)[i])
    ensures |URLSafeDomain(domain)| <= |domain|
  {
    JoinSplitReplace(domain, ' ', '-');
    var kept := Keep(ReplaceChar(domain, ' ', '-'), UrlSafeChar);
    forall i | 0 <= i < |kept| ensures SubdomainChar(LowerChar(kept[i])) {
      assert kept[i] in kept;
    }
  }

  lemma SplitWithoutSeparator(s: string, sep: char)
    requires sep !in s
    ensures Split(s, sep) == [s]
  {
    SplitJoin([s], sep);
  }

  /** Slugging a slug changes nothing, so re-typing a derived subdomain keeps it. */
  lemma URLSafeDomainIdempotent(domain: string)
    ensures URLSafeDomain(URLSafeDomain(domain)) == URLSafeDomain(domain)
  {
    var d := URLSafeDomain(domain);
    URLSafeDomainShape(domain);
    assert ' ' !in d by {
      forall i | 0 <= i < |d| ensures d[i] != ' ' {
        assert SubdomainChar(d[i]);
      }
    }
    SplitWithoutSeparator(d, ' ');
    assert Join([d], "-") == d;
    assert forall c :: c in d ==> UrlSafeChar(c);
    KeepAll(d, UrlSafeChar);
    assert Lower(d) == d;
  }

  /** The form's state. `automaticDomain` is true until the domain field is edited. */
  datatype Form = Form(
    name: string, password: string, confirmPassword: string,
    orgName: string, subDomain: string, automaticDomain: bool,
    submitted: bool, shown: FormErrors)

  const Initial := Form("", "", "", "", "", true, false, NoErrors)

  datatype Edit =
    | EditName(value: string)
    | EditPassword(value: string)
    | EditConfirm(value: string)
    | EditOrgName(value: string)
    | EditDomain(value: string)

  /**
   * One keystroke's `onChange`: the field takes the value and both error
   * states are cleared; the organisation name also drives the subdomain
   * while it is automatic; editing the domain slugs it and ends that.
   */
  function OnEdit(f: Form, e: Edit): (r: Form)
    ensures r.shown == NoErrors && r.submitted == f.submitted
    ensures e.EditName? ==> r == f.(name := e.value, shown := NoErrors)
    ensures e.EditPassword? ==> r == f.(password := e.value, shown := NoErrors)
    ensures e.EditConfirm? ==> r == f.(confirmPassword := e.value, shown := NoErrors)
    ensures e.EditOrgName? ==>
              r.orgName == e.value && r.automaticDomain == f.automaticDomain
              && r.subDomain == (if f.automaticDomain then URLSafeDomain(e.value) else f.subDomain)
              && r == f.(orgName := r.orgName, subDomain := r.subDomain, shown := NoErrors)
    ensures e.EditDomain? ==>
              r.subDomain == URLSafeDomain(e.value) && !r.automaticDomain
              && r == f.(subDomain := r.subDomain, automaticDomain := false, shown := NoErrors)
    ensures !e.EditOrgName? && !e.EditDomain? ==> r.subDomain == f.subDomain && r.automaticDomain == f.automaticDomain
  {
    var f := f.(shown := NoErrors);
    match e
    case EditName(v) => f.(name := v)
    case EditPassword(v) => f.(password := v)
    case EditConfirm(v) => f.(confirmPassword := v)
    case EditOrgName(v) => f.(orgName := v, subDomain := if f.automaticDomain then URLSafeDomain(v) else f.subDomain)
    case EditDomain(v) => f.(subDomain := URLSafeDomain(v), automaticDomain := false)
  }

  function OnEdits(f: Form, edits: seq<Edit>): Form
    decreases |edits|
  {
    if |edits| == 0 then f else OnEdits(OnEdit(f, edits[0]), edits[1..])
  }

  /** Once the domain has been typed, organisation-name edits never touch it again. */
  lemma {:induction false} ManualDomainSticks(f: Form, edits: seq<Edit>)
    requires !f.automaticDomain
    requires forall i :: 0 <= i < |edits| ==> !edits[i].EditDomain?
    ensures OnEdits(f, edits).subDomain == f.subDomain && !OnEdits(f, edits).automaticDomain
    decreases |edits|
  {
    if |edits| > 0 {
      ManualDomainSticks(OnEdit(f, edits[0]), edits[1..]);
    }
  }

  /** Until the domain is typed, the subdomain follows the latest organisation name. */
  lemma {:induction false} AutomaticDomainFollows(f: Form, edits: seq<Edit>, orgName: string)
    requires f.automaticDomain
    requires forall i :: 0 <= i < |edits| ==> !edits[i].EditDomain?
    requires |edits| > 0 && edits[|edits| - 1] == EditOrgName(orgName)
    ensures OnEdits(f, edits).subDomain == URLSafeDomain(orgName) && OnEdits(f, edits).automaticDomain
    decreases |edits|
  {
    if |edits| > 1 {
      AutomaticDomainFollows(OnEdit(f, edits[0]), edits[1..], orgName);
    }
  }

  /** The Get Started button. */
  predicate SubmitDisabled(f: Form) {
    f.name == "" || f.password == "" || f.confirmPassword == "" || f.orgName == "" || f.subDomain == "" || f.submitted
  }

  /** The body of `POST /api/signup`. */
  datatype Request = SignupRequest(name: string, password: string, orgName: string, subDomain: string)

  /**
   * `onSubmit` up to the request: a confirmation that differs from the
   * password sets the `confirmPassword` error and sends nothing; otherwise
   * the form is marked submitted and the request goes out.
   */
  function Submit(f: Form): (r: (Form, Option<Request>))
    ensures f.password != f.confirmPassword ==>
              r.1.None? && !r.0.submitted && r.0.shown.errors == map["confirmPassword" := PasswordsDoNotMatch]
    ensures f.password == f.confirmPassword ==>
              r.1 == Some(SignupRequest(f.name, f.password, f.orgName, f.subDomain)) && r.0.submitted
    ensures r.0.(submitted := f.submitted, shown := f.shown) == f
  {
    if f.password != f.confirmPassword then
      (f.(shown := f.shown.(errors := map["confirmPassword" := PasswordsDoNotMatch]), submitted := false), None)
    else (f.(submitted := true), Some(SignupRequest(f.name, f.password, f.orgName, f.subDomain)))
  }

  /**
   * The response: on success the browser goes to
   * `<protocol>//<organization domain>`; on failure the errors are shown.
   * Either way the form is no longer submitted.
   */
  function Finish(f: Form, response: Result<string, ApiError>, protocol: string): (r: (Form, Option<string>))
    ensures !r.0.submitted
    ensures response.Ok? ==> r.1 == Some(protocol + "//" + response.value) && r.0.shown == f.shown
    ensures response.Err? ==> r.1.None? && r.0.shown == ShowFailure(f.shown, response.error)
  {
    match response
    case Ok(domain) => (f.(submitted := false), Some(protocol + "//" + domain))
    case Err(e) => (f.(shown := ShowFailure(f.shown, e), submitted := false), None)
  }

  /**
   * A sent sign-up disables the button until the response arrives, so one
   * submit sends one request. A mismatch sends nothing; retyping the
   * confirmation to match clears the error and the next submit sends the
   * form's fields. A failed response re-enables the button with the fields
   * kept, so a retry sends the same request again.
   */
  lemma MismatchThenMatchSendsOnce(f: Form, e: ApiError, protocol: string)
    requires f.password != f.confirmPassword
    ensures var first := Submit(f);
            var fixed := OnEdit(first.0, EditConfirm(f.password));
            var second := Submit(fixed);
            first.1.None? && fixed.shown == NoErrors
            && second.1 == Some(SignupRequest(f.name, f.password, f.orgName, f.subDomain))
            && SubmitDisabled(second.0)
            && !Finish(second.0, Err(e), protocol).0.submitted
            && Submit(Finish(second.0, Err(e), protocol).0).1 == second.1
  {
  }
}

=== FILE: strings.dfy ===
/**
 * String helpers shared by the Go and the JavaScript parts of the model:
 * prefix and substring tests, ASCII case lowering, decimal rendering,
 * joining and splitting on a separator, and UTF-8 byte lengths (Go's
 * `len` of a string counts bytes).
 */
module Strings {

  /** Go's `strings.HasPrefix` and JavaScript's `startsWith`. */
  predicate StartsWith(s: string, prefix: string) {
    |prefix| <= |s| && s[..|prefix|] == prefix
  }

  /** JavaScript's `String.prototype.includes`: `sub` occurs somewhere in `s`. */
  predicate Contains(s: string, sub: string)
    decreases |s|
  {
    StartsWith(s, sub) || (|s| > 0 && Contains(s[1..], sub))
  }

  lemma {:induction false} ContainsAt(s: string, sub: string, i: nat)
    requires i + |sub| <= |s| && s[i..i + |sub|] == sub
    ensures Contains(s, sub)
    decreases i
  {
    if i > 0 {
      assert s[1..][i - 1..i - 1 + |sub|] == s[i..i + |sub|];
      ContainsAt(s[1..], sub, i - 1);
    } else {
      assert s[..|sub|] == sub;
    }
  }

  lemma ContainsSelf(s: string)
    ensures Contains(s, s)
  {
    assert s[..|s|] == s;
  }

  /** ASCII lowering of one character; JavaScript's `toLowerCase` restricted to ASCII. */
  function LowerChar(c: char): char {
    if 'A' <= c <= 'Z' then (c as int + 32) as char else c
  }

  /** ASCII lowering of a whole string. */
  function Lower(s: string): (r: string)
    ensures |r| == |s|
    ensures forall i :: 0 <= i < |s| ==> r[i] == LowerChar(s[i])
  {
    seq(|s|, i requires 0 <= i < |s| => LowerChar(s[i]))
  }

  predicate IsDigit(c: char) {
    '0' <= c <= '9'
  }

  predicate IsAsciiLetter(c: char) {
    ('a' <= c <= 'z') || ('A' <= c <= 'Z')
  }

  /** One of the 36 characters `Number.prototype.toString(36)` writes for a digit below 36. */
  predicate IsBase36Char(c: char) {
    IsDigit(c) || 'a' <= c <= 'z'
  }

  predicate IsBase36String(s: string) {
    forall i :: 0 <= i < |s| ==> IsBase36Char(s[i])
  }

  function DigitChar(d: nat): (c: char)
    requires d < 10
    ensures IsDigit(c)
  {
    (48 + d) as char
  }

  /** Decimal rendering of a natural number, as Go's `%d` and JavaScript's template strings write it. */
  function NatToString(n: nat): (r: string)
    ensures |r| >= 1
    ensures forall i :: 0 <= i < |r| ==> IsDigit(r[i])
    decreases n
  {
    if n < 10 then [DigitChar(n)] else NatToString(n / 10) + [DigitChar(n % 10)]
  }

  /** Go's `strings.Join` and JavaScript's `Array.prototype.join`. */
  function Join(parts: seq<string>, sep: string): string
    decreases |parts|
  {
    if |parts| == 0 then ""
    else if |parts| == 1 then parts[0]
    else parts[0] + sep + Join(parts[1..], sep)
  }

  /**
   * JavaScript's `split` on a one-character separator: the pieces between
   * separators, at least one piece, and joining them back gives the input.
   */
  function Split(s: string, sep: char): (r: seq<string>)
    ensures |r| >= 1
    ensures forall i :: 0 <= i < |r| ==> sep !in r[i]
    ensures Join(r, [sep]) == s
    decreases |s|
  {
    if |s| == 0 then [""]
    else
      var rest := Split(s[1..], sep);
      if s[0] == sep then
        assert ([""] + rest)[1..] == rest;
        [""] + rest
      else
        var r := [[s[0]] + rest[0]] + rest[1..];
        assert r[1..] == rest[1..];
        assert s == [s[0]] + s[1..];
        r
  }

  /** A character's UTF-8 byte count (Unicode scalar values need one to four bytes). */
  function Utf8Width(c: char): (n: nat)
    ensures 1 <= n <= 4
  {
    if c as int < 0x80 then 1
    else if c as int < 0x800 then 2
    else if c as int < 0x10000 then 3
    else 4
  }

  /** Go's `len` of a string: its UTF-8 byte count. */
  function ByteLength(s: string): (n: nat)
    ensures |s| <= n <= 4 * |s|
    ensures n == 0 <==> s == ""
  {
    if |s| == 0 then 0 else Utf8Width(s[0]) + ByteLength(s[1..])
  }

  predicate IsAscii(s: string) {
    forall i :: 0 <= i < |s| ==> s[i] as int < 0x80
  }

  lemma {:induction false} AsciiByteLength(s: string)
    requires IsAscii(s)
    ensures ByteLength(s) == |s|
    decreases |s|
  {
    if |s| > 0 {
      assert IsAscii(s[1..]) by {
        forall i | 0 <= i < |s[1..]| ensures s[1..][i] as int < 0x80 {
          assert s[1..][i] == s[i + 1];
        }
      }
      AsciiByteLength(s[1..]);
    }
  }

  lemma LowerIdempotent(s: string)
    ensures Lower(Lower(s)) == Lower(s)
  {
  }

  /** Every character `from` replaced by `to`, the rest kept. */
  function ReplaceChar(s: string, from: char, to: char): (r: string)
    ensures |r| == |s|
    ensures forall i :: 0 <= i < |s| ==> r[i] == if s[i] == from then to else s[i]
  {
    seq(|s|, i requires 0 <= i < |s| => if s[i] == from then to else s[i])
  }

  lemma JoinCons(head: string, rest: seq<string>, sep: string)
    requires |rest| >= 1
    ensures Join([head] + rest, sep) == head + sep + Join(rest, sep)
  {
    assert ([head] + rest)[1..] == rest;
  }

  lemma ReplaceCharCons(s: string, from: char, to: char)
    requires |s| > 0
    ensures ReplaceChar(s, from, to) == [if s[0] == from then to else s[0]] + ReplaceChar(s[1..], from, to)
  {
  }

  lemma SplitCons(s: string, sep: char)
    requires |s| > 0
    ensures var rest := Split(s[1..], sep);
            Split(s, sep) == if s[0] == sep then [""] + rest else [[s[0]] + rest[0]] + rest[1..]
  {
  }

  /** Joining pieces whose first starts with `c` puts `c` in front of the join. */
  lemma JoinHeadCons(c: char, rest: seq<string>, sep: string)
    requires |rest| >= 1
    ensures Join([[c] + rest[0]] + rest[1..], sep) == [c] + Join(rest, sep)
  {
    if |rest| > 1 {
      JoinCons([c] + rest[0], rest[1..], sep);
      JoinCons(rest[0], rest[1..], sep);
      assert rest == [rest[0]] + rest[1..];
    } else {
      assert [[c] + rest[0]] + rest[1..] == [[c] + rest[0]];
    }
  }

  /** `s.split(from).join(to)` replaces every `from` by `to`. */
  lemma {:induction false} JoinSplitReplace(s: string, from: char, to: char)
    ensures Join(Split(s, from), [to]) == ReplaceChar(s, from, to)
    decreases |s|
  {
    if |s| > 0 {
      var rest := Split(s[1..], from);
      JoinSplitReplace(s[1..], from, to);
      ReplaceCharCons(s, from, to);
      SplitCons(s, from);
      if s[0] == from {
        JoinCons("", rest, [to]);
      } else {
        JoinHeadCons(s[0], rest, [to]);
      }
    }
  }

  /** Splitting a join on a separator no piece contains gives the pieces back. */
  lemma {:induction false} SplitJoin(parts: seq<string>, sep: char)
    requires |parts| >= 1
    requires forall i :: 0 <= i < |parts| ==> sep !in parts[i]
    ensures Split(Join(parts, [sep]), sep) == parts
    decreases |parts|, |parts[0]|
  {
    var j := Join(parts, [sep]);
    if |parts[0]| > 0 {
      var p0 := parts[0];
      var tail := [p0[1..]] + parts[1..];
      assert [[p0[0]] + tail[0]] + tail[1..] == parts by {
        assert p0 == [p0[0]] + p0[1..];
      }
      JoinHeadCons(p0[0], tail, [sep]);
      forall i | 0 <= i < |tail| ensures sep !in tail[i] {
        if i == 0 {
          assert forall c :: c in p0[1..] ==> c in p0;
        } else {
          assert tail[i] == parts[i];
        }
      }
      SplitJoin(tail, sep);
      assert p0[0] != sep by { assert p0[0] in p0; }
      assert j[1..] == Join(tail, [sep]);
      SplitCons(j, sep);
    } else if |parts| > 1 {
      forall i | 0 <= i < |parts[1..]| ensures sep !in parts[1..][i] {
        assert parts[1..][i] == parts[i + 1];
      }
      SplitJoin(parts[1..], sep);
      JoinCons(parts[0], parts[1..], [sep]);
      assert j[1..] == Join(parts[1..], [sep]);
      SplitCons(j, sep);
      assert parts == [""] + parts[1..];
    }
  }

  /** A join of a proper prefix of the pieces is strictly shorter than the join of all of them. */
  lemma {:induction false} JoinPrefixShorter(parts: seq<string>, k: nat, sep: string)
    requires 1 <= k < |parts| && |sep| > 0
    ensures |Join(parts[..k], sep)| < |Join(parts, sep)|
    decreases k
  {
    JoinCons(parts[0], parts[1..], sep);
    assert parts == [parts[0]] + parts[1..];
    if k > 1 {
      var pre := parts[..k];
      assert pre == [parts[0]] + parts[1..][..k - 1];
      JoinCons(parts[0], parts[1..][..k - 1], sep);
      JoinPrefixShorter(parts[1..], k - 1, sep);
    } else {
      assert parts[..1] == [parts[0]];
    }
  }

  /** A join has a character only if a piece or the separator has it. */
  lemma {:induction false} JoinAvoids(parts: seq<string>, sep: string, c: char)
    requires c !in sep && forall i :: 0 <= i < |parts| ==> c !in parts[i]
    ensures c !in Join(parts, sep)
    decreases |parts|
  {
    if |parts| > 1 {
      forall i | 0 <= i < |parts[1..]| ensures c !in parts[1..][i] {
        assert parts[1..][i] == parts[i + 1];
      }
      JoinAvoids(parts[1..], sep, c);
    }
  }
}

=== FILE: urls.dfy ===
/**
 * Query strings as the console writes them with template literals: each
 * `key=value` joined with '&' after a '?', with nothing escaped, and the
 * way a browser reads such a URL back.
 */
module Urls {
  import opened Strings

  /** A query string: each `key=value`, joined with '&', nothing escaped. */
  function Query(params: seq<(string, string)>): string {
    Join(seq(|params|, i requires 0 <= i < |params| => params[i].0 + "=" + params[i].1), "&")
  }

  /** A query parameter `key=value`, split at its first '='. */
  function ParseParam(param: string): (string, string) {
    var kv := Split(param, '=');
    (kv[0], Join(kv[1..], "="))
  }

  /** A URL split at its first '?' into the part before and its '&'-separated parameters. */
  function ParseURL(url: string): (string, seq<(string, string)>) {
    var parts := Split(url, '?');
    if |parts| < 2 then (url, [])
    else
      var params := Split(Join(parts[1..], "?"), '&');
      (parts[0], seq(|params|, i requires 0 <= i < |params| => ParseParam(params[i])))
  }

  /** No character that would end a query key or value early. */
  predicate QuerySafe(s: string) {
    '?' !in s && '&' !in s && '=' !in s
  }

  lemma ConcatSafe(a: string, b: string)
    requires QuerySafe(a) && QuerySafe(b)
    ensures QuerySafe(a + b)
  {
  }

  /** Words, paths and snake-case names end nothing early. */
  lemma WordSafe(s: string)
    requires forall i :: 0 <= i < |s| ==> 'a' <= s[i] <= 'z' || 'A' <= s[i] <= 'Z' || s[i] == '_' || s[i] == '/'
    ensures QuerySafe(s)
  {
  }

  predicate ParamsSafe(params: seq<(string, string)>) {
    forall i :: 0 <= i < |params| ==> QuerySafe(params[i].0) && QuerySafe(params[i].1)
  }

  lemma ParamRoundTrip(key: string, value: string)
    requires QuerySafe(key) && QuerySafe(value)
    ensures ParseParam(key + "=" + value) == (key, value)
    ensures '?' !in key + "=" + value && '&' !in key + "=" + value
  {
    assert Join([key, value], "=") == key + "=" + Join([value], "=");
    SplitJoin([key, value], '=');
    assert Split(key + "=" + value, '=')[1..] == [value];
  }

  /**
   * Reading back a URL built from a base without '?' and parameters whose
   * keys and values hold none of '?', '&', '=' gives the base and the
   * parameters, in order.
   */
  lemma URLRoundTrip(base: string, params: seq<(string, string)>)
    requires '?' !in base && |params| >= 1 && ParamsSafe(params)
    ensures ParseURL(base + "?" + Query(params)) == (base, params)
  {
    var written := seq(|params|, i requires 0 <= i < |params| => params[i].0 + "=" + params[i].1);
    forall i | 0 <= i < |written|
      ensures ParseParam(written[i]) == params[i] && '?' !in written[i] && '&' !in written[i]
    {
      ParamRoundTrip(params[i].0, params[i].1);
    }
    var query := Query(params);
    JoinAvoids(written, "&", '?');
    assert base + "?" + query == Join([base, query], "?");
    SplitJoin([base, query], '?');
    var parts := Split(base + "?" + query, '?');
    assert parts == [base, query];
    assert parts[1..] == [query];
    assert Join([query], "?") == query;
    SplitJoin(written, '&');
    assert Split(query, '&') == written;
    var parsed := seq(|written|, i requires 0 <= i < |written| => ParseParam(written[i]));
    assert parsed == params;
    assert ParseURL(base + "?" + query) == (parts[0], parsed);
  }
}

=== FILE: user_api.dfy ===
/**
 * `api.UpdateUserRequest` and its validation rules (api/user.go), composed
 * with the validation library.
 */
module UserApi {
  import opened Wrappers
  import opened Strings
  import opened Validate

  /** The request: the user id from the URI and the new password. */
  datatype UpdateUserRequest = UpdateUserRequest(id: int, password: string)

  const PasswordMinLength := 8

  /** `UpdateUserRequest.ValidationRules`. */
  function ValidationRules(r: UpdateUserRequest): (rules: seq<Rule>)
    ensures |rules| == 3
    ensures rules[0] == Required("id", GoInt(r.id))
    ensures rules[1] == Required("password", GoString(r.password))
    ensures rules[2].StringRule? && rules[2].name == "password" && rules[2].text == r.password
    ensures rules[2].minLength == PasswordMinLength && rules[2].maxLength == 0
  {
    var rules := [
      Required("id", GoInt(r.id)),
      Required("password", GoString(r.password)),
      StringRule(r.password, "password", PasswordMinLength, 0)
    ];
    rules
  }

  /** Grouped by field, the "id" rules start with a required rule, so the id is marked required. */
  lemma IdIsRequired(r: UpdateUserRequest)
    ensures "id" in RulesToMap(ValidationRules(r))
    ensures IsRequired(RulesToMap(ValidationRules(r))["id"])
    ensures "password" in RulesToMap(ValidationRules(r))
    ensures |RulesToMap(ValidationRules(r))["password"]| == 2
  {
    var rules := ValidationRules(r);
    assert rules == [rules[0], rules[1], rules[2]];
    RulesForThree(rules[0], rules[1], rules[2], "id");
    RulesForThree(rules[0], rules[1], rules[2], "password");
    assert "id" != "password";
  }

  lemma RulesForThree(a: Rule, b: Rule, c: Rule, k: string)
    ensures RulesFor([a, b, c], k)
            == (if FieldName(a) == k then [a] else []) + (if FieldName(b) == k then [b] else []) + (if FieldName(c) == k then [c] else [])
  {
    assert [a, b, c][..2] == [a, b];
    assert [a, b][..1] == [a];
    assert [a][..0] == [];
    assert RulesFor([a], k) == (if FieldName(a) == k then [a] else []);
    assert RulesFor([a, b], k) == RulesFor([a], k) + (if FieldName(b) == k then [b] else []);
  }

  /** What one rule contributes under key `k`. */
  function Contribution(rule: Rule, k: string, parse: AddressParser): seq<string> {
    var m := ValidateRule(rule, parse);
    if m.Some? && FieldName(rule) == k then [m.value] else []
  }

  lemma MessagesOfThree(a: Rule, b: Rule, c: Rule, k: string, parse: AddressParser)
    ensures MessagesFor([a, b, c], k, parse) == Contribution(a, k, parse) + Contribution(b, k, parse) + Contribution(c, k, parse)
  {
    assert [a, b, c][..2] == [a, b];
    assert [a, b][..1] == [a];
    assert [a][..0] == [];
    assert MessagesFor([a], k, parse) == Contribution(a, k, parse);
    assert MessagesFor([a, b], k, parse) == MessagesFor([a], k, parse) + Contribution(b, k, parse);
    assert MessagesFor([a, b, c], k, parse) == MessagesFor([a, b], k, parse) + Contribution(c, k, parse);
  }

  /** The messages each field collects, computed rule by rule. */
  lemma MessagesOfRequest(r: UpdateUserRequest, k: string, parse: AddressParser)
    ensures k == "id" ==> MessagesFor(ValidationRules(r), k, parse) == (if r.id == 0 then [RequiredMessage] else [])
    ensures k == "password" ==>
              MessagesFor(ValidationRules(r), k, parse)
              == (if r.password == "" then [RequiredMessage]
                else if ByteLength(r.password) < PasswordMinLength then [MinLengthMessage(ByteLength(r.password), PasswordMinLength)]
                else [])
    ensures k != "id" && k != "password" ==> MessagesFor(ValidationRules(r), k, parse) == []
  {
    var rules := ValidationRules(r);
    assert rules == [rules[0], rules[1], rules[2]];
    MessagesOfThree(rules[0], rules[1], rules[2], k, parse);
    assert "id" != "password";
  }

  /** `validate.Validate` of an `UpdateUserRequest`. */
  method ValidateUpdateUser(r: UpdateUserRequest, parse: AddressParser) returns (e: Option<ValidationError>)
    // a zero id is reported under "id"
    ensures r.id == 0 ==> e.Some? && "id" in e.value.fieldErrors && e.value.fieldErrors["id"] == [RequiredMessage]
    // an empty password is reported once, as missing: the length rule skips ""
    ensures r.password == "" ==> e.Some? && "password" in e.value.fieldErrors && e.value.fieldErrors["password"] == [RequiredMessage]
    // a short password is reported with its byte length
    ensures r.password != "" && ByteLength(r.password) < PasswordMinLength
            ==> e.Some? && "password" in e.value.fieldErrors
                && e.value.fieldErrors["password"] == [MinLengthMessage(ByteLength(r.password), PasswordMinLength)]
    // a non-zero id and a password of at least 8 bytes pass
    ensures e.None? <==> r.id != 0 && ByteLength(r.password) >= PasswordMinLength
    ensures e.Some? ==> forall k :: k in e.value.fieldErrors ==> k == "id" || k == "password"
  {
    var rules := ValidationRules(r);
    MessagesOfRequest(r, "id", parse);
    MessagesOfRequest(r, "password", parse);
    AllPass(r, parse);
    e := ValidateRequest(rules, parse);
    if e.Some? {
      forall k | k in e.value.fieldErrors ensures k == "id" || k == "password" {
        MessagesOfRequest(r, k, parse);
      }
    }
  }

  lemma AllPass(r: UpdateUserRequest, parse: AddressParser)
    ensures (forall i :: 0 <= i < |ValidationRules(r)| ==> ValidateRule(ValidationRules(r)[i], parse).None?)
            <==> r.id != 0 && ByteLength(r.password) >= PasswordMinLength
  {
    var rules := ValidationRules(r);
    if r.id != 0 && ByteLength(r.password) >= PasswordMinLength {
      forall i | 0 <= i < 3 ensures ValidateRule(rules[i], parse).None? {
      }
    } else if r.id == 0 {
      assert ValidateRule(rules[0], parse).Some?;
    } else if r.password == "" {
      assert ValidateRule(rules[1], parse).Some?;
    } else {
      assert ValidateRule(rules[2], parse).Some?;
    }
  }

  /** A password of 1 to 7 ASCII characters is reported with its character count. */
  lemma ShortAsciiPassword(r: UpdateUserRequest)
    requires r.password != "" && IsAscii(r.password) && |r.password| < PasswordMinLength
    ensures ValidateString(r.password, PasswordMinLength, 0) == Some(MinLengthMessage(|r.password|, PasswordMinLength))
  {
    AsciiByteLength(r.password);
  }
}

=== FILE: users_add.dfy ===
/**
 * The Add User page (ui/pages/users/add.js): an email form that creates
 * the user, then a view of the one-time password with "Add Another".
 */
module UsersAdd {
  import opened Wrappers
  import opened Strings
  import opened FieldErrors

  /** Which of the page's two views is on screen (`state`). */
  datatype Stage = Adding | ShowingPassword

  datatype Page = Page(email: string, stage: Stage, password: string, shown: FormErrors)

  const Initial := Page("", Adding, "", NoErrors)

  const UserAlreadyExists := "user already exists"

  /** The message under the email input: `errors.name`. */
  function NameError(errs: FormErrors): Option<string> {
    if "name" in errs.errors then Some(errs.errors["name"]) else None
  }

  /** The Add User button. */
  predicate AddDisabled(p: Page) {
    p.email == ""
  }

  /** The input's `onKeyDown`: Enter submits only when an email has been typed. */
  predicate EnterSubmits(p: Page, key: string) {
    key == "Enter" && |p.email| > 0
  }

  /** Typing in the email input clears both error states. */
  function OnType(p: Page, value: string): (r: Page)
    ensures r.email == value && r.shown == NoErrors && r.stage == p.stage && r.password == p.password
  {
    p.(email := value, shown := NoErrors)
  }

  /** The body of `POST /api/users`. */
  datatype Request = CreateUser(name: string)

  /** Submitting clears both error states and asks for a user named by the email. */
  function Submit(p: Page): (r: (Page, Request))
    ensures r.0 == p.(shown := NoErrors) && r.1 == CreateUser(p.email)
  {
    (p.(shown := NoErrors), CreateUser(p.email))
  }

  /**
   * The `catch` block: the shared field-error mapping, except that a 409
   * whose field errors name `identity_id` is reported against the email.
   */
  function Failure(e: ApiError): (r: FormErrors)
    ensures e.fieldErrors.None? ==> r == FormErrors(map[], e.message)
    ensures e.fieldErrors.Some? ==> r.error == ""
    ensures e.fieldErrors.Some? && e.code == 409 && "identity_id" in ErrorsMap(e.fieldErrors.value) ==>
              NameError(r) == Some(UserAlreadyExists)
  {
    var base := ShowFailure(NoErrors, e);
    if e.fieldErrors.Some? && e.code == 409 && "identity_id" in base.errors then
      base.(errors := base.errors["name" := UserAlreadyExists])
    else base
  }

  /**
   * `Failure` agrees with the shared handling on every field but `name`,
   * and differs on `name` only for a conflict on `identity_id`.
   */
  lemma FailureOverridesOnlyName(e: ApiError)
    ensures var shared := ShowFailure(NoErrors, e);
            Failure(e).error == shared.error
            && Failure(e).errors.Keys == shared.errors.Keys + (if Failure(e) == shared then {} else {"name"})
            && (forall k :: k in shared.errors && k != "name" ==> Failure(e).errors[k] == shared.errors[k])
            && (Failure(e) != shared ==> e.code == 409 && "identity_id" in shared.errors)
  {
  }

  /**
   * The response to the create request: success moves to the password
   * view with the server's one-time password; failure stays on the form
   * and shows the errors.
   */
  function Respond(p: Page, response: Result<string, ApiError>): (r: Page)
    ensures response.Ok? ==> r == p.(stage := ShowingPassword, password := response.value)
    ensures response.Err? ==> r == p.(shown := Failure(response.error))
  {
    match response
    case Ok(oneTimePassword) => p.(stage := ShowingPassword, password := oneTimePassword)
    case Err(e) => p.(shown := Failure(e))
  }

  /** "Add Another": back to an empty form; the one-time password is forgotten. */
  function AddAnother(p: Page): (r: Page)
    ensures r.stage == Adding && r.email == "" && r.password == "" && r.shown == p.shown
  {
    p.(stage := Adding, email := "", password := "")
  }

  /**
   * A user created from a fresh form shows its one-time password, and
   * "Add Another" then leaves the page as it first was: nothing of the
   * previous user remains on screen.
   */
  lemma AddAnotherStartsOver(email: string, oneTimePassword: string)
    ensures var sent := Submit(OnType(Initial, email));
            sent.1 == CreateUser(email)
            && Respond(sent.0, Ok(oneTimePassword)).password == oneTimePassword
            && AddAnother(Respond(sent.0, Ok(oneTimePassword))) == Initial
  {
  }

  /** A conflict on the identity is shown under the email input as "user already exists". */
  lemma ConflictShownUnderEmail(p: Page, e: ApiError)
    requires e.code == 409 && e.fieldErrors.Some?
    requires exists i :: 0 <= i < |e.fieldErrors.value| && Lower(e.fieldErrors.value[i].fieldName) == "identity_id"
    ensures NameError(Respond(p, Err(e)).shown) == Some(UserAlreadyExists)
  {
  }
}

=== FILE: validate.dfy ===
/**
 * The server-side request validation library (internal/validate): rules,
 * their messages and field names, the OpenAPI schema hints they add,
 * error aggregation per field and grouping of rules per field.
 *
 * `reflect.Value.IsZero` is modelled over a small universe of Go values,
 * and `net/mail.ParseAddress` is an opaque parser passed in by the caller.
 */
module Validate {
  import opened Wrappers
  import opened Strings

  /** A Go value as `reflect.Value.IsZero` sees it. */
  datatype GoValue =
    | GoString(s: string)
    | GoInt(i: int)
    | GoBool(b: bool)
    | GoNilPointer
    | GoPointer

  /** Zero values are "", 0, false and nil. */
  predicate IsZero(v: GoValue) {
    match v
    case GoString(s) => s == ""
    case GoInt(i) => i == 0
    case GoBool(b) => !b
    case GoNilPointer => true
    case GoPointer => false
  }

  /**
   * `validate.Field`: a name and an `interface{}` value, where `None` is the
   * nil interface.
   */
  datatype Field = Field(name: string, value: Option<GoValue>)

  /**
   * `reflect.ValueOf(field).IsZero()` on the whole struct: zero only when the
   * name is "" and the interface is nil.
   */
  predicate FieldStructIsZero(f: Field) {
    f.name == "" && f.value.None?
  }

  /** A parsed `net/mail.Address`. */
  datatype Address = Address(name: string, address: string)

  /** `mail.ParseAddress`: `None` when the text is not an address. */
  type AddressParser = string -> Option<Address>

  /** A validation rule; each constructor is one rule type of the package. */
  datatype Rule =
    | Required(name: string, required: GoValue)
    | StringRule(text: string, name: string, minLength: int, maxLength: int)
    | Email(name: string, email: string)
    | MutuallyExclusive(fields: seq<Field>)
    | RequireOneOf(fields: seq<Field>)

  const RequiredMessage := "a value is required"
  const InvalidEmailMessage := "invalid email address"
  const EmailWithNameMessage := "email address can must not contain a name"

  /** Go's `%d` of an int. */
  function IntToString(i: int): string {
    if i < 0 then "-" + NatToString(-i) else NatToString(i)
  }

  function MinLengthMessage(n: nat, min: int): string {
    "length (" + NatToString(n) + ") must be at least " + IntToString(min)
  }

  function MaxLengthMessage(n: nat, max: int): string {
    "length (" + NatToString(n) + ") must be no more than " + IntToString(max)
  }

  /** The problems a `StringRule` collects, in the order it checks them. */
  function StringProblems(text: string, minLength: int, maxLength: int): seq<string> {
    var n := ByteLength(text);
    (if minLength > 0 && n < minLength then [MinLengthMessage(n, minLength)] else [])
    + (if maxLength > 0 && n > maxLength then [MaxLengthMessage(n, maxLength)] else [])
  }

  /** `StringRule.validate`. */
  function ValidateString(text: string, minLength: int, maxLength: int): (r: Option<string>)
    // the empty string always passes, whatever the bounds
    ensures text == "" ==> r.None?
    // a bound of 0 (or below) means unbounded on that side
    ensures minLength <= 0 && maxLength <= 0 ==> r.None?
    ensures (text != "" && 0 < minLength && ByteLength(text) < minLength && (maxLength <= 0 || ByteLength(text) <= maxLength))
      ==> r == Some(MinLengthMessage(ByteLength(text), minLength))
    ensures (text != "" && 0 < maxLength && maxLength < ByteLength(text) && (minLength <= 0 || minLength <= ByteLength(text)))
      ==> r == Some(MaxLengthMessage(ByteLength(text), maxLength))
    // both problems at once (possible only when min > max): min first, then max, joined by ", "
    ensures (text != "" && 0 < maxLength < ByteLength(text) < minLength)
      ==> r == Some(MinLengthMessage(ByteLength(text), minLength) + ", " + MaxLengthMessage(ByteLength(text), maxLength))
    ensures (text != "" && (minLength <= 0 || minLength <= ByteLength(text)) && (maxLength <= 0 || ByteLength(text) <= maxLength))
      ==> r.None?
  {
    if text == "" then None
    else
      var problems := StringProblems(text, minLength, maxLength);
      JoinTwo(MinLengthMessage(ByteLength(text), minLength), MaxLengthMessage(ByteLength(text), maxLength), ", ");
      if |problems| > 0 then Some(Join(problems, ", ")) else None
  }

  /** `email.validate`; the parser is `mail.ParseAddress`. */
  function ValidateEmail(email: string, parse: AddressParser): (r: Option<string>)
    ensures email == "" ==> r.None?
    ensures email != "" && parse(email).None? ==> r == Some(InvalidEmailMessage)
    ensures email != "" && parse(email).Some? && parse(email).value.name != "" ==> r == Some(EmailWithNameMessage)
    ensures r.None? <==> email == "" || (parse(email).Some? && parse(email).value.name == "")
  {
    if email == "" then None
    else
      match parse(email)
      case None => Some(InvalidEmailMessage)
      case Some(addr) => if addr.name != "" then Some(EmailWithNameMessage) else None
  }

  /** Names of the fields whose whole `Field` struct is non-zero, in input order. */
  function NonZeroStructNames(fields: seq<Field>): (names: seq<string>)
    ensures |names| <= |fields|
  {
    if |fields| == 0 then []
    else (if !FieldStructIsZero(fields[0]) then [fields[0].name] else []) + NonZeroStructNames(fields[1..])
  }

  /** Names of the fields whose whole `Field` struct is zero, in input order. */
  function ZeroStructNames(fields: seq<Field>): (names: seq<string>)
    ensures |names| <= |fields|
  {
    if |fields| == 0 then []
    else (if FieldStructIsZero(fields[0]) then [fields[0].name] else []) + ZeroStructNames(fields[1..])
  }

  /** `mutuallyExclusive.validate` as written: it tests each whole `Field` struct. */
  function ValidateMutuallyExclusive(fields: seq<Field>): (r: Option<string>)
    ensures |fields| <= 1 ==> r.None?
    ensures r.Some? <==> |NonZeroStructNames(fields)| > 1
    ensures r.Some? ==> r.value == "only one of " + Join(NonZeroStructNames(fields), ", ") + " can be set"
  {
    var nonZero := NonZeroStructNames(fields);
    if |nonZero| > 1 then Some("only one of " + Join(nonZero, ", ") + " can be set") else None
  }

  /**
   * `requireOneOf.validate` as written: it fails when NO field struct is
   * zero, and then the list it prints is empty.
   */
  function ValidateRequireOneOf(fields: seq<Field>): (r: Option<string>)
    ensures r.Some? <==> forall i :: 0 <= i < |fields| ==> !FieldStructIsZero(fields[i])
    ensures r.Some? ==> r.value == "one of  must be set"
  {
    var zero := ZeroStructNames(fields);
    ZeroNamesEmpty(fields);
    if |zero| == 0 then Some("one of " + Join(zero, ", ") + " must be set") else None
  }

  lemma {:induction false} ZeroNamesEmpty(fields: seq<Field>)
    ensures |ZeroStructNames(fields)| == 0 <==> forall i :: 0 <= i < |fields| ==> !FieldStructIsZero(fields[i])
    decreases |fields|
  {
    if |fields| > 0 {
      ZeroNamesEmpty(fields[1..]);
      assert forall i :: 1 <= i < |fields| ==> fields[1..][i - 1] == fields[i];
    }
  }

  /** `ValidationRule.validate`: `None` is a nil error, `Some(m)` an error with message `m`. */
  function ValidateRule(rule: Rule, parse: AddressParser): (r: Option<string>)
    ensures rule.Required? ==> (r.Some? <==> IsZero(rule.required))
    ensures rule.Required? && r.Some? ==> r.value == RequiredMessage
    ensures rule.StringRule? ==> r == ValidateString(rule.text, rule.minLength, rule.maxLength)
    ensures rule.Email? ==> r == ValidateEmail(rule.email, parse)
  {
    match rule
    case Required(_, v) => if !IsZero(v) then None else Some(RequiredMessage)
    case StringRule(text, _, minLength, maxLength) => ValidateString(text, minLength, maxLength)
    case Email(_, email) => ValidateEmail(email, parse)
    case MutuallyExclusive(fields) => ValidateMutuallyExclusive(fields)
    case RequireOneOf(fields) => ValidateRequireOneOf(fields)
  }

  /**
   * `ValidationRule.fieldName`: the given name for single-field rules and ""
   * for the multi-field rules. (string.go spells the StringRule accessor
   * `jsonName`; the rule is keyed by its Name, as validate_test.go expects.)
   */
  function FieldName(rule: Rule): (k: string)
    ensures rule.MutuallyExclusive? || rule.RequireOneOf? ==> k == ""
    ensures rule.Required? || rule.StringRule? || rule.Email? ==> k == rule.name
  {
    match rule
    case Required(name, _) => name
    case StringRule(_, name, _, _) => name
    case Email(name, _) => name
    case MutuallyExclusive(_) => ""
    case RequireOneOf(_) => ""
  }

  /** `IsRequired(rules...)` as written: the loop returns on its first iteration. */
  function IsRequired(rules: seq<Rule>): (r: bool)
    ensures |rules| == 0 ==> !r
    ensures |rules| > 0 ==> (r <==> rules[0].Required?)
  {
    if |rules| == 0 then false else rules[0].Required?
  }

  /** `IsRequired` as its doc comment promises: true if ANY rule is a required rule. */
  function IsRequiredAny(rules: seq<Rule>): (r: bool)
    ensures r <==> exists i :: 0 <= i < |rules| && rules[i].Required?
    decreases |rules|
  {
    if |rules| == 0 then false
    else
      assert forall i :: 1 <= i < |rules| ==> rules[1..][i - 1] == rules[i];
      rules[0].Required? || IsRequiredAny(rules[1..])
  }

  /** Whether the interface value is set to a non-zero value (a nil interface is unset). */
  predicate ValueIsSet(f: Field) {
    f.value.Some? && !IsZero(f.value.value)
  }

  function SetValueNames(fields: seq<Field>): (names: seq<string>)
    ensures |names| <= |fields|
  {
    if |fields| == 0 then []
    else (if ValueIsSet(fields[0]) then [fields[0].name] else []) + SetValueNames(fields[1..])
  }

  function UnsetValueNames(fields: seq<Field>): (names: seq<string>)
    ensures |names| <= |fields|
  {
    if |fields| == 0 then []
    else (if !ValueIsSet(fields[0]) then [fields[0].name] else []) + UnsetValueNames(fields[1..])
  }

  /** `MutuallyExclusive` as its doc comment promises: at most one field VALUE is set. */
  function ValidateMutuallyExclusiveIntended(fields: seq<Field>): (r: Option<string>)
    ensures r.Some? <==> |SetValueNames(fields)| > 1
    ensures r.Some? ==> r.value == "only one of " + Join(SetValueNames(fields), ", ") + " can be set"
  {
    var set_ := SetValueNames(fields);
    if |set_| > 1 then Some("only one of " + Join(set_, ", ") + " can be set") else None
  }

  /** `RequireOneOf` as its name promises: fails iff no field value is set. */
  function ValidateRequireOneOfIntended(fields: seq<Field>): (r: Option<string>)
    ensures r.Some? <==> forall i :: 0 <= i < |fields| ==> !ValueIsSet(fields[i])
    ensures r.Some? ==> r.value == "one of " + Join(UnsetValueNames(fields), ", ") + " must be set"
  {
    SetNamesEmpty(fields);
    if |SetValueNames(fields)| == 0 then Some("one of " + Join(UnsetValueNames(fields), ", ") + " must be set") else None
  }

  lemma {:induction false} SetNamesEmpty(fields: seq<Field>)
    ensures |SetValueNames(fields)| == 0 <==> forall i :: 0 <= i < |fields| ==> !ValueIsSet(fields[i])
    decreases |fields|
  {
    if |fields| > 0 {
      SetNamesEmpty(fields[1..]);
      assert forall i :: 1 <= i < |fields| ==> fields[1..][i - 1] == fields[i];
    }
  }

  // ---------------------------------------------------------------------
  // Findings: the three places where the code and its documentation part.

  /** As written, `IsRequired` depends on rule order: a required rule placed second is missed. */
  lemma IsRequiredOrderDependent()
    ensures var req := Required("id", GoInt(0));
            var str := StringRule("", "id", 1, 0);
            IsRequired([req, str]) && !IsRequired([str, req])
  {
  }

  /** The corrected `IsRequiredAny` does not depend on the order of the rules. */
  lemma {:induction false} IsRequiredAnyOrderFree(a: seq<Rule>, b: seq<Rule>)
    ensures IsRequiredAny(a + b) == IsRequiredAny(b + a)
    ensures IsRequiredAny(a + b) == (IsRequiredAny(a) || IsRequiredAny(b))
  {
    if IsRequiredAny(a + b) {
      var i :| 0 <= i < |a + b| && (a + b)[i].Required?;
      if i < |a| {
        assert (b + a)[|b| + i] == a[i];
      } else {
        assert (b + a)[i - |a|] == b[i - |a|];
      }
    }
    if IsRequiredAny(b + a) {
      var i :| 0 <= i < |b + a| && (b + a)[i].Required?;
      if i < |b| {
        assert (a + b)[|a| + i] == b[i];
      } else {
        assert (a + b)[i - |b|] == a[i - |b|];
      }
    }
    if IsRequiredAny(a) {
      var i :| 0 <= i < |a| && a[i].Required?;
      assert (a + b)[i] == a[i];
    }
    if IsRequiredAny(b) {
      var i :| 0 <= i < |b| && b[i].Required?;
      assert (a + b)[|a| + i] == b[i];
    }
  }

  /** As written, `RequireOneOf` rejects a request in which its one field IS set. */
  lemma RequireOneOfRejectsSetField()
    ensures ValidateRequireOneOf([Field("a", Some(GoString("x")))]) == Some("one of  must be set")
    ensures ValidateRequireOneOfIntended([Field("a", Some(GoString("x")))]) == None
  {
  }

  /** The corrected `RequireOneOf` accepts exactly the lists in which some value is set. */
  lemma RequireOneOfIntendedAccepts(fields: seq<Field>, i: nat)
    requires i < |fields| && ValueIsSet(fields[i])
    ensures ValidateRequireOneOfIntended(fields).None?
  {
  }

  /** Two named fields holding empty strings. */
  const ZeroPair := [Field("a", Some(GoString(""))), Field("b", Some(GoString("")))]

  lemma ZeroPairNames()
    ensures NonZeroStructNames(ZeroPair) == ["a", "b"]
    ensures SetValueNames(ZeroPair) == []
  {
    assert ZeroPair[1..][1..] == [];
    assert NonZeroStructNames(ZeroPair[1..]) == ["b"];
    assert SetValueNames(ZeroPair[1..]) == [];
  }

  lemma OnlyOneOfPairText()
    ensures "only one of " + Join(["a", "b"], ", ") + " can be set" == "only one of a, b can be set"
  {
    JoinTwo("a", "b", ", ");
    assert "a" + ", " + "b" == "a, b";
  }

  /** As written, `MutuallyExclusive` counts a named field with a zero value as set. */
  lemma MutuallyExclusiveCountsZeroValues()
    ensures ValidateMutuallyExclusive([Field("a", Some(GoString(""))), Field("b", Some(GoString("")))])
            == Some("only one of a, b can be set")
    ensures ValidateMutuallyExclusiveIntended([Field("a", Some(GoString(""))), Field("b", Some(GoString("")))]).None?
  {
    ZeroPairNames();
    OnlyOneOfPairText();
  }

  /** The corrected `MutuallyExclusive` ignores fields whose value is zero. */
  lemma {:induction false} MutuallyExclusiveIntendedIgnoresZero(fields: seq<Field>, f: Field)
    requires !ValueIsSet(f)
    ensures ValidateMutuallyExclusiveIntended(fields + [f]) == ValidateMutuallyExclusiveIntended(fields)
  {
    SetNamesAppendUnset(fields, f);
  }

  lemma {:induction false} SetNamesAppendUnset(fields: seq<Field>, f: Field)
    requires !ValueIsSet(f)
    ensures SetValueNames(fields + [f]) == SetValueNames(fields)
    decreases |fields|
  {
    if |fields| == 0 {
      assert fields + [f] == [f];
      assert [f][1..] == [];
    } else {
      assert (fields + [f])[1..] == fields[1..] + [f];
      SetNamesAppendUnset(fields[1..], f);
    }
  }

  // ---------------------------------------------------------------------
  // OpenAPI schema hints.

  /** The part of `openapi3.Schema` the rules write. */
  datatype Schema = Schema(minLength: nat, maxLength: Option<nat>, format: string)

  const Uint64Modulus: int := 0x1_0000_0000_0000_0000

  /** Go's `uint64(i)` of an `int`: negative values wrap around. */
  function ToUint64(i: int): (u: nat)
    ensures u < Uint64Modulus
    ensures 0 <= i < Uint64Modulus ==> u == i
    ensures -Uint64Modulus <= i < 0 ==> u == i + Uint64Modulus
  {
    i % Uint64Modulus
  }

  /** `DescribeSchema` of each rule type. */
  function DescribeSchema(rule: Rule, schema: Schema): (r: Schema)
    // MinLength is always written (a negative bound wraps around as uint64 does)
    ensures rule.StringRule? ==> r.minLength == ToUint64(rule.minLength)
    ensures rule.StringRule? && 0 < rule.maxLength < Uint64Modulus ==> r.maxLength == Some(rule.maxLength)
    ensures rule.StringRule? && rule.maxLength <= 0 ==> r.maxLength == schema.maxLength
    ensures rule.StringRule? ==> r.format == schema.format
    ensures rule.Email? ==> r == schema.(format := "email")
    ensures rule.Required? || rule.MutuallyExclusive? || rule.RequireOneOf? ==> r == schema
  {
    match rule
    case StringRule(_, _, minLength, maxLength) =>
      var s := schema.(minLength := ToUint64(minLength));
      if maxLength > 0 then s.(maxLength := Some(ToUint64(maxLength))) else s
    case Email(_, _) => schema.(format := "email")
    case _ => schema
  }

  // ---------------------------------------------------------------------
  // Aggregation (struct.go) and rendering (Error.Error).

  /** `validate.Error`: the messages of the failed rules, per field name. */
  datatype ValidationError = ValidationError(fieldErrors: map<string, seq<string>>)

  /** The messages the rules in `rules` produce under key `k`, in rule order. */
  function MessagesFor(rules: seq<Rule>, k: string, parse: AddressParser): seq<string>
    decreases |rules|
  {
    if |rules| == 0 then []
    else
      var last := rules[|rules| - 1];
      var m := ValidateRule(last, parse);
      MessagesFor(rules[..|rules| - 1], k, parse)
      + (if m.Some? && FieldName(last) == k then [m.value] else [])
  }

  /** One rule's verdict added to the messages collected so far. */
  function Record(fieldErrors: map<string, seq<string>>, rule: Rule, parse: AddressParser): map<string, seq<string>> {
    var err := ValidateRule(rule, parse);
    if err.None? then fieldErrors
    else
      var key := FieldName(rule);
      fieldErrors[key := (if key in fieldErrors then fieldErrors[key] else []) + [err.value]]
  }

  /** The messages collected from the first `i` rules, keyed by field name. */
  ghost predicate CollectedFrom(fieldErrors: map<string, seq<string>>, rules: seq<Rule>, i: nat, parse: AddressParser)
    requires i <= |rules|
  {
    && (forall k :: k in fieldErrors <==> |MessagesFor(rules[..i], k, parse)| > 0)
    && (forall k :: k in fieldErrors ==> fieldErrors[k] == MessagesFor(rules[..i], k, parse))
    && (fieldErrors == map[] <==> forall j :: 0 <= j < i ==> ValidateRule(rules[j], parse).None?)
  }

  /** Rule `i` adds its message, if any, to the end of its field's list. */
  lemma MessagesForNext(rules: seq<Rule>, i: nat, k: string, parse: AddressParser)
    requires i < |rules|
    ensures var err := ValidateRule(rules[i], parse);
            MessagesFor(rules[..i + 1], k, parse)
            == MessagesFor(rules[..i], k, parse) + (if err.Some? && FieldName(rules[i]) == k then [err.value] else [])
  {
    var prefix := rules[..i + 1];
    assert prefix[..|prefix| - 1] == rules[..i];
  }

  /** Recording rule `i` extends what the first `i` rules produced to the first `i + 1`. */
  lemma RecordStep(fieldErrors: map<string, seq<string>>, rules: seq<Rule>, i: nat, parse: AddressParser)
    requires i < |rules| && CollectedFrom(fieldErrors, rules, i, parse)
    ensures CollectedFrom(Record(fieldErrors, rules[i], parse), rules, i + 1, parse)
  {
    var next := Record(fieldErrors, rules[i], parse);
    forall k
      ensures k in next <==> |MessagesFor(rules[..i + 1], k, parse)| > 0
      ensures k in next ==> next[k] == MessagesFor(rules[..i + 1], k, parse)
    {
      MessagesForNext(rules, i, k, parse);
    }
    assert (forall j :: 0 <= j < i + 1 ==> ValidateRule(rules[j], parse).None?)
           <==> (forall j :: 0 <= j < i ==> ValidateRule(rules[j], parse).None?) && ValidateRule(rules[i], parse).None?;
  }

  /** `Validate(req)` over `req.ValidationRules()`. */
  method ValidateRequest(rules: seq<Rule>, parse: AddressParser) returns (r: Option<ValidationError>)
    // no error iff every rule passes
    ensures r.None? <==> forall i :: 0 <= i < |rules| ==> ValidateRule(rules[i], parse).None?
    // a key is present only when some rule for it failed
    ensures r.Some? ==> forall k :: k in r.value.fieldErrors <==> |MessagesFor(rules, k, parse)| > 0
    // each key lists one message per failing rule, in rule order
    ensures r.Some? ==> forall k :: k in r.value.fieldErrors ==> r.value.fieldErrors[k] == MessagesFor(rules, k, parse)
  {
    var fieldErrors: map<string, seq<string>> := map[];
    var i := 0;
    while i < |rules|
      invariant 0 <= i <= |rules|
      invariant CollectedFrom(fieldErrors, rules, i, parse)
    {
      RecordStep(fieldErrors, rules, i, parse);
      fieldErrors := Record(fieldErrors, rules[i], parse);
      i := i + 1;
    }
    assert rules[..i] == rules;
    if |fieldErrors| > 0 {
      r := Some(ValidationError(fieldErrors));
    } else {
      r := None;
    }
  }

  /** The rules in `rules` whose field name is `k`, in rule order. */
  function RulesFor(rules: seq<Rule>, k: string): seq<Rule>
    decreases |rules|
  {
    if |rules| == 0 then []
    else RulesFor(rules[..|rules| - 1], k) + (if FieldName(rules[|rules| - 1]) == k then [rules[|rules| - 1]] else [])
  }

  /** `RulesToMap`: every rule under its field name, in original relative order. */
  function RulesToMap(rules: seq<Rule>): (m: map<string, seq<Rule>>)
    ensures forall k :: k in m <==> |RulesFor(rules, k)| > 0
    ensures forall k :: k in m ==> m[k] == RulesFor(rules, k)
    decreases |rules|
  {
    if |rules| == 0 then map[]
    else
      var m0 := RulesToMap(rules[..|rules| - 1]);
      var last := rules[|rules| - 1];
      var k := FieldName(last);
      m0[k := (if k in m0 then m0[k] else []) + [last]]
  }

  /** `keys` lists the keys of `m`, each exactly once (a Go map iteration order). */
  predicate IsEnumeration<V>(keys: seq<string>, m: map<string, V>) {
    && (forall i, j :: 0 <= i < j < |keys| ==> keys[i] != keys[j])
    && (forall i :: 0 <= i < |keys| ==> keys[i] in m)
    && (forall k :: k in m ==> k in keys)
  }

  /** Sum of the group sizes under the keys in `keys`. */
  function GroupSizes(rules: seq<Rule>, keys: seq<string>): nat
    decreases |keys|
  {
    if |keys| == 0 then 0 else |RulesFor(rules, keys[0])| + GroupSizes(rules, keys[1..])
  }

  function Occurrences(keys: seq<string>, k: string): nat
    decreases |keys|
  {
    if |keys| == 0 then 0 else (if keys[0] == k then 1 else 0) + Occurrences(keys[1..], k)
  }

  lemma {:induction false} OccursOnce(keys: seq<string>, k: string)
    requires forall i, j :: 0 <= i < j < |keys| ==> keys[i] != keys[j]
    requires k in keys
    ensures Occurrences(keys, k) == 1
    decreases |keys|
  {
    if keys[0] == k {
      NotOccurs(keys[1..], k);
    } else {
      OccursOnce(keys[1..], k);
    }
  }

  lemma {:induction false} NotOccurs(keys: seq<string>, k: string)
    requires k !in keys
    ensures Occurrences(keys, k) == 0
    decreases |keys|
  {
    if |keys| > 0 {
      NotOccurs(keys[1..], k);
    }
  }

  lemma {:induction false} GroupSizesSnoc(rules: seq<Rule>, keys: seq<string>)
    requires |rules| > 0
    ensures GroupSizes(rules, keys)
            == GroupSizes(rules[..|rules| - 1], keys) + Occurrences(keys, FieldName(rules[|rules| - 1]))
    decreases |keys|
  {
    if |keys| > 0 {
      GroupSizesSnoc(rules, keys[1..]);
    }
  }

  /** Grouping loses and duplicates no rule: group sizes add up to the number of rules. */
  lemma {:induction false} GroupSizesTotal(rules: seq<Rule>, keys: seq<string>)
    requires forall i, j :: 0 <= i < j < |keys| ==> keys[i] != keys[j]
    requires forall i :: 0 <= i < |rules| ==> FieldName(rules[i]) in keys
    ensures GroupSizes(rules, keys) == |rules|
    decreases |rules|
  {
    if |rules| == 0 {
      EmptyGroups(keys);
    } else {
      var init := rules[..|rules| - 1];
      assert forall i :: 0 <= i < |init| ==> init[i] == rules[i];
      GroupSizesTotal(init, keys);
      GroupSizesSnoc(rules, keys);
      OccursOnce(keys, FieldName(rules[|rules| - 1]));
    }
  }

  lemma {:induction false} EmptyGroups(keys: seq<string>)
    ensures GroupSizes([], keys) == 0
    decreases |keys|
  {
    if |keys| > 0 {
      EmptyGroups(keys[1..]);
    }
  }

  /** `RulesToMap` partitions the rule list: over the map's keys, the value lengths sum to `len(rules)`. */
  lemma RulesToMapTotal(rules: seq<Rule>, keys: seq<string>)
    requires IsEnumeration(keys, RulesToMap(rules))
    ensures GroupSizes(rules, keys) == |rules|
  {
    var m := RulesToMap(rules);
    forall i | 0 <= i < |rules| ensures FieldName(rules[i]) in keys {
      RuleInOwnGroup(rules, i);
    }
    GroupSizesTotal(rules, keys);
  }

  lemma {:induction false} RuleInOwnGroup(rules: seq<Rule>, i: nat)
    requires i < |rules|
    ensures rules[i] in RulesFor(rules, FieldName(rules[i]))
    decreases |rules|
  {
    if i < |rules| - 1 {
      var init := rules[..|rules| - 1];
      assert init[i] == rules[i];
      RuleInOwnGroup(init, i);
    }
  }

  lemma JoinTwo(a: string, b: string, sep: string)
    ensures Join([a, b], sep) == a + sep + b
  {
    assert [a, b][1..] == [b];
  }

  /** One rendered field: `k: m1, m2`. */
  function RenderField(k: string, messages: seq<string>): string {
    k + ": " + Join(messages, ", ")
  }

  function RenderFields(fieldErrors: map<string, seq<string>>, keys: seq<string>): seq<string>
    requires forall i :: 0 <= i < |keys| ==> keys[i] in fieldErrors
  {
    seq(|keys|, i requires 0 <= i < |keys| => RenderField(keys[i], fieldErrors[keys[i]]))
  }

  const ErrorPrefix := "validation failed: "

  /** The total length of the rendered fields under `keys`. */
  function RenderedWidth(fieldErrors: map<string, seq<string>>, keys: seq<string>): nat
    requires forall i :: 0 <= i < |keys| ==> keys[i] in fieldErrors
    decreases |keys|
  {
    if |keys| == 0 then 0
    else |RenderField(keys[0], fieldErrors[keys[0]])| + RenderedWidth(fieldErrors, keys[1..])
  }

  /** The total length of `parts`. */
  function Widths(parts: seq<string>): nat
    decreases |parts|
  {
    if |parts| == 0 then 0 else |parts[0]| + Widths(parts[1..])
  }

  /**
   * `Error.Error()`, visiting the keys in the map iteration order `keys`:
   * the prefix, then every field, consecutive fields separated by "; ",
   * and nothing else (the length adds up).
   */
  function ErrorString(e: ValidationError, keys: seq<string>): (r: string)
    requires IsEnumeration(keys, e.fieldErrors)
    ensures StartsWith(r, ErrorPrefix)
    ensures forall k :: k in e.fieldErrors ==> Contains(r, RenderField(k, e.fieldErrors[k]))
    ensures forall i :: 0 <= i < |keys| - 1 ==>
              Contains(r, RenderField(keys[i], e.fieldErrors[keys[i]]) + "; " + RenderField(keys[i + 1], e.fieldErrors[keys[i + 1]]))
    ensures |r| == |ErrorPrefix| + RenderedWidth(e.fieldErrors, keys) + (if |keys| > 0 then 2 * (|keys| - 1) else 0)
  {
    var parts := RenderFields(e.fieldErrors, keys);
    var r := ErrorPrefix + Join(parts, "; ");
    assert r[..|ErrorPrefix|] == ErrorPrefix;
    forall k | k in e.fieldErrors ensures Contains(r, RenderField(k, e.fieldErrors[k])) {
      var i :| 0 <= i < |keys| && keys[i] == k;
      var at := JoinContainsPart(parts, "; ", i);
      PrefixedContains(ErrorPrefix, Join(parts, "; "), parts[i], at);
    }
    forall i | 0 <= i < |keys| - 1
      ensures Contains(r, RenderField(keys[i], e.fieldErrors[keys[i]]) + "; " + RenderField(keys[i + 1], e.fieldErrors[keys[i + 1]]))
    {
      var at := JoinContainsPair(parts, "; ", i);
      PrefixedContains(ErrorPrefix, Join(parts, "; "), parts[i] + "; " + parts[i + 1], at);
    }
    JoinLength(parts, "; ");
    RenderedWidthIsWidths(e.fieldErrors, keys);
    r
  }

  /** What occurs in `s` at `at` occurs in `prefix + s`. */
  lemma PrefixedContains(prefix: string, s: string, sub: string, at: nat)
    requires at + |sub| <= |s| && s[at..at + |sub|] == sub
    ensures Contains(prefix + s, sub)
  {
    assert (prefix + s)[|prefix| + at..|prefix| + at + |sub|] == sub;
    ContainsAt(prefix + s, sub, |prefix| + at);
  }

  lemma {:induction false} RenderedWidthIsWidths(fieldErrors: map<string, seq<string>>, keys: seq<string>)
    requires forall i :: 0 <= i < |keys| ==> keys[i] in fieldErrors
    ensures RenderedWidth(fieldErrors, keys) == Widths(RenderFields(fieldErrors, keys))
    decreases |keys|
  {
    if |keys| > 0 {
      RenderedWidthIsWidths(fieldErrors, keys[1..]);
      assert RenderFields(fieldErrors, keys)[1..] == RenderFields(fieldErrors, keys[1..]);
    }
  }

  /** A join is as long as its parts plus one separator between each consecutive pair. */
  lemma {:induction false} JoinLength(parts: seq<string>, sep: string)
    ensures |Join(parts, sep)| == Widths(parts) + (if |parts| > 0 then |sep| * (|parts| - 1) else 0)
    decreases |parts|
  {
    if |parts| > 1 {
      JoinLength(parts[1..], sep);
    }
  }

  /** Consecutive parts occur in the join with the separator between them. */
  lemma {:induction false} JoinContainsPair(parts: seq<string>, sep: string, i: nat) returns (at: nat)
    requires i + 1 < |parts|
    ensures at + |parts[i] + sep + parts[i + 1]| <= |Join(parts, sep)|
    ensures Join(parts, sep)[at..at + |parts[i] + sep + parts[i + 1]|] == parts[i] + sep + parts[i + 1]
    decreases |parts|
  {
    var rest := Join(parts[1..], sep);
    assert Join(parts, sep) == (parts[0] + sep) + rest;
    if i == 0 {
      at := 0;
      var first := JoinContainsPart(parts[1..], sep, 0);
      if |parts| == 2 {
        assert rest == parts[1];
      } else {
        assert rest == parts[1] + (sep + Join(parts[2..], sep));
      }
      assert rest[..|parts[1]|] == parts[1];
    } else {
      var inner := JoinContainsPair(parts[1..], sep, i - 1);
      at := |parts[0]| + |sep| + inner;
      assert Join(parts, sep)[at..at + |parts[i] + sep + parts[i + 1]|] == rest[inner..inner + |parts[i] + sep + parts[i + 1]|];
    }
  }

  /** Every part occurs in the joined string, at a computed offset. */
  lemma {:induction false} JoinContainsPart(parts: seq<string>, sep: string, i: nat) returns (at: nat)
    requires i < |parts|
    ensures at + |parts[i]| <= |Join(parts, sep)|
    ensures Join(parts, sep)[at..at + |parts[i]|] == parts[i]
    decreases |parts|
  {
    if |parts| == 1 {
      at := 0;
    } else if i == 0 {
      at := 0;
      assert Join(parts, sep) == parts[0] + (sep + Join(parts[1..], sep));
    } else {
      var inner := JoinContainsPart(parts[1..], sep, i - 1);
      at := |parts[0]| + |sep| + inner;
      var rest := Join(parts[1..], sep);
      assert Join(parts, sep) == (parts[0] + sep) + rest;
      assert Join(parts, sep)[at..at + |parts[i]|] == rest[inner..inner + |parts[i]|];
    }
  }

  /** A single failing field renders exactly as `validation failed: k: m1, m2`. */
  lemma ErrorStringSingleField(k: string, messages: seq<string>)
    ensures ErrorString(ValidationError(map[k := messages]), [k]) == ErrorPrefix + k + ": " + Join(messages, ", ")
  {
  }
}

=== FILE: views.dfy ===
/**
 * Shared vocabulary of the console's layouts and pages: what a component
 * does on a render, and the signed-in user as `/api/users/self` returns it.
 */
module Views {
  /**
   * Render nothing (`return null`), send the browser elsewhere with
   * `router.replace(target)` and render nothing, or render the children.
   */
  datatype View = Nothing | Replace(target: string) | Render

  /** The fields of `/api/users/self` the console reads; an empty `id` is falsy. */
  datatype SelfUser = SelfUser(id: string, name: string, providerNames: seq<string>)
}

=== FILE: wrappers.dfy ===
/** Failure-carrying result types shared by the whole model. */
module Wrappers {

  /** An optional value: JavaScript `undefined`/`null` or a Go nil pointer is `None`. */
  datatype Option<+T> = None | Some(value: T) {
    function GetOr(default: T): T {
      match this
      case Some(v) => v
      case None => default
    }
  }

  /** A computation that either produced a value or failed with an error. */
  datatype Result<+R, +E> = Ok(value: R) | Err(error: E) {
    predicate IsFailure() {
      Err?
    }
  }
}
